=== FILE: README.md ===
# BlockViz blockMeshDict parser and validator, modelled in Dafny

BlockViz reads an OpenFOAM `blockMeshDict` text and builds a mesh description for
display: a scale, vertices, edges, hex blocks, boundary patches and merge-patch pairs,
plus a list of diagnostics. A separate validation engine then checks that the parsed
blocks and faces refer to existing vertices. This project models both halves as pure
Dafny functions over immutable values and proves what they promise.

The parser works in stages, and each stage is a module:

- `Normalizer` removes `/* ... */` comments, then `// ...` comments. It splits on line
  feeds, trims each line and drops the empty ones.
- `Macros` takes out the `name value;` and `name #eval{ expr };` lines and fills the
  macro table. `Resolve` turns a token into a number or a string, looking up `$name`
  references in that table.
- `Sections`, `Blocks` and `Boundary` hold the six section parsers (`scale`, `vertices`,
  `edges`, `blocks`, `boundary`, `mergePatchPairs`). They also hold the two recovery
  helpers.
- `Parser` holds the dispatch loop and `parse`.
- `Validation` holds `validate` and `isRightHanded`.
- The JavaScript pieces these stages rely on have their own modules. `JsText` has
  `trim`, `split` and `join`. `JsNumber` has `parseFloat`, `Number()` and `parseInt`,
  over `Num = Fin(real) | NaN`. `Patterns` has the regular expressions, with JavaScript's
  backtracking worked out by hand.

The mutable parser object becomes an immutable context `Mesh.Ctx`, and `reset` becomes
`Mesh.Reset()`. Every loop becomes a recursive function over a line cursor. A section
parser returns a `Run`:

- `Next(at, ctx)`: the parser finished, and the cursor moves on to `at`.
- `Hang(ctx)`: the source's `while` loop would repeat forever at this point, because
  its recovery helper returns the index it was given.
- `Crash(ctx)`: the source throws at this point.

`Parser.Parse` then returns `Parsed(ctx)`, `Diverges` or `Throws`. `parse` is not total:
a `vertices` keyword on the last line throws, and a malformed `hex` line or a stuck
boundary line loops forever. The model proves each case:

- A `vertices` keyword on the last line makes `lines[index + 1].trim()` throw a
  `TypeError` (`Parser.VerticesLastThrows`).
- A malformed `hex` line makes the blocks loop spin forever
  (`Parser.MalformedHexDiverges`).
- A stray line followed by a patch name does the same to the boundary loop
  (`Parser.StuckBoundaryDiverges`).

A patch without a `type` line is still stored, with one diagnostic. `edgeGrading` is
accepted without checking how many values it has.

Two parts are parameters rather than code. The host's `eval`, together with the macro
substitution the source applies to the expression first, is an `Evaluator` parameter: a
function from the expression text and the macro table to a `Num`. Diagnostics are values
of the `Mesh.Diag` datatype, one constructor per message kind, carrying the text the
message quotes.

## Model

| member | source | states |
|---|---|---|
| JsText.TrimIdempotent | js/blockMeshParser.js:38-41 | trimming a trimmed line changes nothing, so re-trimming the stored lines is harmless |
| JsText.TrimPadded | js/blockMeshParser.js:38-41 | trim removes exactly the surrounding white space: trim(a + t + b) is t when a and b are spaces and t is trimmed |
| JsText.SplitJoinWs | js/blockMeshParser.js:212 | splitting on white space recovers the words that were joined with single spaces |
| JsText.SplitChar | js/blockMeshParser.js:27 | split on a character gives at least one piece, and no piece contains the separator |
| JsText.JoinSplitChar | js/blockMeshParser.js:27-33 | joining the pieces of split with the same character gives back the original text |
| JsText.SplitJoinChar | js/blockMeshParser.js:33-41 | splitting the join of pieces that lack the separator gives back the pieces |
| JsText.IndexOf | js/blockMeshParser.js:35 | indexOf finds the first occurrence at or after the start, and none is missed |
| JsText.RemoveFirst | js/blockMeshParser.js:564 | replacing the first `;` with nothing removes exactly that first occurrence and keeps the rest in order |
| JsNumber.ScanDecimalLongest | js/blockMeshParser.js:66-69 | the decimal scanner stops at the longest prefix that the literal grammar `[+-]? (d+ (.d*)? \| .d+) ([eE] [+-]? d+)?` accepts, and finds none exactly when no prefix is a literal |
| JsNumber.ParseFloatAccepts | js/blockMeshParser.js:66-69 | parseFloat gives a number exactly when some prefix of the text after its leading white space is a decimal literal |
| JsNumber.StringToNumberAccepts | js/blockMeshParser.js:376 | Number() of non-blank text gives a number exactly when the whole trimmed text is a decimal literal |
| JsNumber.NatLiteral | js/blockMeshParser.js:66-69 | parseFloat of a printed natural number, followed by text that cannot continue a literal, is that number |
| JsNumber.NatNumber | js/blockMeshParser.js:376 | parseFloat and Number() of a printed natural number, with or without a minus sign, are that number or its negation |
| JsNumber.FractionLiteral | js/blockMeshParser.js:376 | `a.b` reads as a plus b divided by ten to the number of digits of b, under both conversions |
| JsNumber.ExponentLiteral | js/blockMeshParser.js:376 | `m e x` reads as m times ten to the x, and `m e-x` as m divided by ten to the x (`ScaleNegated`), under both conversions |
| JsNumber.ParseInt | js/blockMeshParser.js:290-291 | parseInt gives a number exactly when, after white space, a sign and an optional `0x` prefix, a digit of the chosen base follows |
| JsNumber.ParseIntOfNumeral | js/blockMeshParser.js:290-291 | parseInt of a printed natural number, optionally negated and followed by anything but a digit (and, after a lone `0`, anything but `x`), is that number |
| JsNumber.ParseIntHex | js/blockMeshParser.js:290-291 | a `0x` or `0X` prefix switches parseInt to base 16, so `0x1A` is 26 and `-0X1a` is -26 |
| JsNumber.ParseIntBareHexPrefix | js/blockMeshParser.js:290-291 | a `0x` prefix with no hex digit after it gives NaN |
| Patterns.FirstParenGroup | js/blockMeshParser.js:294 | the first `(...)` group at or after a position, with no earlier group skipped |
| Patterns.ParenGroupOfWrapped | js/blockMeshParser.js:428 | the `/\(([^)]+)\)/` match of `pre(g)post` is g, when g has no `)` and pre has no group |
| Patterns.HexMatchOfLine | js/blockMeshParser.js:370 | `hex (g) rest` matches the hex pattern, with g as the vertex group and the match ending after `)` |
| Patterns.TupleOfCanonical | js/blockMeshParser.js:237 | a parenthesised list of words joined by single spaces matches the tuple pattern and yields those words |
| Patterns.TripleMatch | js/blockMeshParser.js:237 | a vertex-line match always has exactly three coordinates |
| Patterns.PairMatch | js/blockMeshParser.js:735 | a merge-line match always has exactly two names |
| Patterns.RemoveParens | js/blockMeshParser.js:300 | removing the parentheses leaves no parenthesis and keeps every other character as often as it occurred |
| Patterns.RemoveParensAppend | js/blockMeshParser.js:300 | removal works piece by piece over concatenation, so the remaining characters keep their order |
| Patterns.RemoveParensKeeps | js/blockMeshParser.js:300 | text without parentheses is unchanged |
| Patterns.RemoveParensOfGroup | js/blockMeshParser.js:300 | `(a)b` becomes `ab` when a and b have no parentheses |
| Patterns.InlineFacesMatchOfLine | js/blockMeshParser.js:576 | the inline-face pattern matches `faces ((g));` with g as its group |
| Patterns.SplitBetweenGroupsNoCut | js/blockMeshParser.js:386 | without a `)` followed by `(`, splitting the rest of a hex line gives the line itself |
| Patterns.MacroMatch | js/blockMeshParser.js:75 | a definition match gives an identifier name at the line start and the value before the final `;`, separated by spaces |
| Patterns.EvalMatch | js/blockMeshParser.js:76 | an eval match gives an identifier at the line start and a trimmed single-line expression, in a line ending in `};` |
| Normalizer.StripBlockComment | js/blockMeshParser.js:35 | a closed block comment is removed together with its delimiters |
| Normalizer.StripBlockAppend | js/blockMeshParser.js:35 | comment-free text before the rest is kept unchanged by block-comment removal |
| Normalizer.StripBlockMiddle | js/blockMeshParser.js:35 | a closed block comment anywhere is removed and the comment-free text before it is kept |
| Normalizer.StripBlockUnclosed | js/blockMeshParser.js:35 | an unclosed `/*` is left in the text |
| Normalizer.StripBlockNotIdempotent | js/blockMeshParser.js:35 | one pass of the block-comment regex can leave a new comment behind, so the pass is not idempotent |
| Normalizer.StripLineAppend | js/blockMeshParser.js:37 | comment-free text before the rest is kept unchanged by line-comment removal |
| Normalizer.StripLineComment | js/blockMeshParser.js:37 | a line comment is removed up to, and not including, the next line terminator |
| Normalizer.StripLineMiddle | js/blockMeshParser.js:37 | in `a//c` followed by a line feed, a is kept, the comment goes and the line feed stays |
| Normalizer.NormalizeLines | js/blockMeshParser.js:26-49 | comment-free lines joined by line feeds normalise to the same lines, trimmed, with the empty ones dropped |
| Normalizer.NormalizeSingleLine | js/blockMeshParser.js:38-41 | a comment-free single line normalises to its trimmed text, or to nothing when it is blank |
| Normalizer.NormalizeBlank | js/blockMeshParser.js:38-41 | text made only of spaces produces no lines |
| Macros.ResolveValue | js/blockMeshParser.js:51-71 | a `$name` token gives the stored value, an undefined one gives NaN plus one diagnostic, and any other token gives parseFloat or the string itself |
| Macros.UndefinedMacroIsNaN | js/blockMeshParser.js:59-61 | resolving an undefined macro yields NaN and the undefined-macro diagnostic |
| Macros.PreprocessLine | js/blockMeshParser.js:78-135 | definition lines are consumed and update the table, eval failures log one diagnostic, and every other line is forwarded unchanged |
| Macros.PreprocessKeepsSurvivors | js/blockMeshParser.js:73-139 | the forwarded lines are exactly the non-definition lines, in their original order |
| Macros.Preprocess | js/blockMeshParser.js:73-139 | the preprocessor forwards the survivors, logs at most one diagnostic per eval line, and every diagnostic names a key now in the table |
| Macros.DefinedMacroResolves | js/blockMeshParser.js:118-134 | after `name value;` the token `$name` resolves like the value text itself |
| Macros.EvalMacroResolves | js/blockMeshParser.js:83-116 | after `name #eval{ expr };` the token `$name` resolves to the evaluator's result, and a diagnostic is logged exactly when that result is NaN |
| Macros.MacroMatchOfDefinition | js/blockMeshParser.js:75 | the definition pattern recovers the name and value of `name value;` |
| Macros.EvalMatchOfDefinition | js/blockMeshParser.js:76 | the eval pattern recovers the name and expression of an eval line |
| Sections.ParseScale | js/blockMeshParser.js:210-224 | only the scale and diagnostics change; a numeric operand sets the scale, a string operand or a malformed line logs one diagnostic, and the cursor moves one line |
| Sections.UndefinedScaleMacroGivesNaN | js/blockMeshParser.js:214-219 | `scale $x;` with x undefined sets the scale to NaN and logs the undefined macro |
| Sections.LastScaleWins | js/blockMeshParser.js:210-224 | of two consecutive scale lines the second decides the scale when it resolves to a number, and otherwise the first stays |
| Sections.VertexEntry | js/blockMeshParser.js:235-257 | a matched, resolved line appends its scaled vertex; an unmatched line logs an invalid-format diagnostic unless it is empty; an unresolved one logs after its macro diagnostics |
| Sections.VertexList | js/blockMeshParser.js:234-265 | the list only touches vertices and diagnostics, ends just past its `)`, and reports a missing `)` at the end of input |
| Sections.ParseVertices | js/blockMeshParser.js:226-266 | the parser throws exactly when the keyword is the last line; a missing `(` logs one diagnostic and skips one line |
| Sections.ScaleAppliesToEveryVertex | js/blockMeshParser.js:243-248 | the vertices a list appends are exactly its readable triples, each multiplied by the scale in force |
| Sections.KindOf | js/blockMeshParser.js:282-288 | an edge kind is recognised exactly for `arc`, `spline`, `polyLine` and `line` |
| Sections.EdgePoints | js/blockMeshParser.js:294-337 | a line edge or a line without a group has no points; an arc has one point or one diagnostic; a spline or polyLine with a `(...)` group logs the basic-parsing note |
| Sections.EdgePointValues | js/blockMeshParser.js:299-333 | an arc whose first group has three coordinates gets the point `parseFloat` of each times the scale; a spline or polyLine gets one such point per `( a b c )` group after its second index token, in order |
| Sections.ArcPointOfNumerals | js/blockMeshParser.js:299-306 | an arc whose first group is `(x y z)` in numerals gets the point (x, y, z) times the scale |
| Sections.EdgeEntry | js/blockMeshParser.js:279-347 | an edge is appended exactly for a known kind with two integer indices, with those indices; bad indices or an unknown format log one diagnostic |
| Sections.EdgeList | js/blockMeshParser.js:278-351 | the edge list only touches edges and diagnostics, appends exactly one edge per accepted line before its `)`, ends just past that `)`, and reports a missing `)` at the end of input |
| Sections.ParseEdges | js/blockMeshParser.js:268-353 | a missing `(` logs one diagnostic and skips one line; otherwise the list is parsed |
| Sections.MergeEntry | js/blockMeshParser.js:734-740 | a `(a b)` line appends the pair (a, b); any other non-empty line logs one diagnostic |
| Sections.MergeListErrors | js/blockMeshParser.js:733-745 | the merge list only appends merge diagnostics, and a missing `)` is reported only when the input ends with the list open and the last line starts with the keyword |
| Sections.ParseMergePatchPairs | js/blockMeshParser.js:723-747 | the section only touches merge pairs and diagnostics, and a missing `(` logs one diagnostic |
| Sections.CloseIndex | js/blockMeshParser.js:260-264 | the closing `)` search stops at the first closing line from the cursor, or at the end |
| Blocks.SkipToNextBlockOrClosingParen | js/blockMeshParser.js:489-498 | the recovery helper returns the first line from the cursor that starts with `hex` or `)`, or the end |
| Blocks.TakeCells | js/blockMeshParser.js:393-399 | the first group read gives the cells, as the resolved numbers of its tokens; later groups leave them, and the grading is untouched |
| Blocks.ReadHex | js/blockMeshParser.js:383-456 | a hex entry consumes at most the lines that continue it (a `(` group or a grading keyword) |
| Blocks.HexThreeLines | js/blockMeshParser.js:383-456 | `hex (g)` followed by a `(c)` line and a `simpleGrading (d)` or `edgeGrading (d)` line reads the cells from c and the grading kind and values from d, and consumes both lines |
| Blocks.HexOneLine | js/blockMeshParser.js:383-400 | on `hex (g) (c)` the cells are read from c |
| Blocks.VerdictAccepts | js/blockMeshParser.js:458-477 | the source's three checks accept exactly blocks with 8 vertex indices, 3 non-NaN cell counts and non-NaN grading of length 3 for simpleGrading |
| Blocks.HexEntryOutcome | js/blockMeshParser.js:458-478 | an accepted block is appended after its macro diagnostics; a rejected one is dropped and logs exactly one more diagnostic |
| Blocks.BlockList | js/blockMeshParser.js:363-486 | the block list never throws, only appends blocks that pass the checks, ends just past its `)`, and reports a missing `)` at the end of input |
| Blocks.ParseBlocks | js/blockMeshParser.js:355-487 | only accepted blocks are appended, and a missing `(` logs one diagnostic and skips one line |
| Blocks.MalformedHexHangs | js/blockMeshParser.js:371-375 | a malformed hex line is a fixed point of the recovery helper, so the loop hangs there |
| Blocks.BlockListHangs | js/blockMeshParser.js:363-486 | the block list hangs exactly when a malformed hex line comes before its closing line |
| Blocks.SameLineGradingIgnored | js/blockMeshParser.js:386-418 | when the rest of a hex line has no group boundary it is read as one piece, and its grading is the default |
| Blocks.VertexValuesUnchecked | js/blockMeshParser.js:458-462 | the verdict depends on the number of vertex indices only, never on their values |
| Boundary.SkipToNextPotentialPatchNameOrEnd | js/blockMeshParser.js:679-688 | returns the first line from the cursor that closes the list or is followed by a patch-name line, or the end |
| Boundary.SkipToClosingBraceOrNextPatch | js/blockMeshParser.js:689-698 | returns the first line from the cursor that closes the patch or starts a new one, or the end |
| Boundary.FaceLineOutcome | js/blockMeshParser.js:606-622 | a face line with a valid group appends that face; an invalid group or an unparsable line logs one diagnostic naming the patch |
| Boundary.FaceListCount | js/blockMeshParser.js:604-625 | the face list keeps exactly one face per line with a valid group, appended in order |
| Boundary.FacesBlockReplaces | js/blockMeshParser.js:592-639 | a `faces` block replaces the faces read so far by the faces of its list |
| Boundary.TypeLine | js/blockMeshParser.js:560-571 | with a second token the type becomes that token minus its first `;` and nothing is logged; without one the patch is unchanged and one malformed-type diagnostic is logged |
| Boundary.TypeLineReads | js/blockMeshParser.js:560-571 | `type t;` sets the type to t and logs nothing |
| Boundary.InlineFaces | js/blockMeshParser.js:574-591 | a matched, valid inline face is appended with no diagnostic; otherwise the patch is unchanged and exactly one diagnostic about it is logged |
| Boundary.InlineFacesReads | js/blockMeshParser.js:574-591 | `faces ((g));` with a valid face g appends that face and logs nothing |
| Boundary.PatchEntryOutcome | js/blockMeshParser.js:537-666 | a patch is appended with the name line as its name and valid faces; the missing-type diagnostic is logged exactly when the type is missing |
| Boundary.PatchList | js/blockMeshParser.js:521-675 | the patch list never throws, only appends well-formed patches, and only touches the boundary and diagnostics |
| Boundary.ParseBoundary | js/blockMeshParser.js:500-676 | the boundary section only appends well-formed patches, and a missing `(` logs one diagnostic and skips one line |
| Boundary.BoundaryRecoveryHangs | js/blockMeshParser.js:531-535 | a non-name line followed by a patch name is a fixed point of the recovery helper, so the loop hangs there |
| Boundary.BoundaryHangsOnlyWhenStuck | js/blockMeshParser.js:521-667 | the patch list hangs only if some line at or after the cursor is such a stuck line |
| Parser.Handle | js/blockMeshParser.js:167-186 | each dispatch step advances the cursor and only appends to the model; a line without a keyword is skipped with no effect |
| Parser.Dispatch | js/blockMeshParser.js:155-187 | a finished dispatch loop has only appended to the model and never changed the macro table |
| Parser.Parse | js/blockMeshParser.js:141-208 | a finished parse keeps the preprocessor's macro table and its diagnostics as a prefix |
| Parser.StoredLinesTrimmed | js/blockMeshParser.js:167 | every line the dispatch loop sees is non-empty and already trimmed, so its `trim()` changes nothing |
| Parser.UnkeyedLineSkipped | js/blockMeshParser.js:180-186 | a line with no section keyword is passed over without effect |
| Parser.NoSectionsNoChange | js/blockMeshParser.js:155-187 | with no keyword line left, the loop ends with the context it was given |
| Parser.ParseWithoutSections | js/blockMeshParser.js:141-208 | a text without section keywords parses to the reset state plus the macro table and the preprocessor diagnostics |
| Parser.HandleThrows | js/blockMeshParser.js:227-228 | a dispatch step throws exactly when a `vertices` keyword is on the last line |
| Parser.VerticesLastThrows | js/blockMeshParser.js:227-228 | a parse that reaches a `vertices` keyword on the last line throws |
| Parser.MalformedHexDiverges | js/blockMeshParser.js:371-375 | a parse that reaches a blocks list holding a malformed hex line does not terminate |
| Parser.StuckBoundaryDiverges | js/blockMeshParser.js:531-535 | a parse that reaches a boundary list whose first line is stuck does not terminate |
| Validation.Validate | js/validationEngine.js:6-57 | a missing model, vertex list or block list gives exactly the one core-data message, that message appears only then, and all block messages come before all face messages |
| Validation.ValidateEmptyIff | js/validationEngine.js:6-57 | validation reports nothing exactly when vertices and blocks exist, every block has 8 indices in range, and every face has 4 indices in range (NaN counts as in range) |
| Validation.BlockIndexMessages | js/validationEngine.js:19-23 | at most one message per index; each names the block, the vertex count and an out-of-range index of that block |
| Validation.BlockIndexAppend | js/validationEngine.js:19-23 | the range messages of consecutive index runs are concatenated, so they keep the order of the indices |
| Validation.BlockIndexSingle | js/validationEngine.js:19-23 | one index gives one message quoting it exactly when it is negative or at least the vertex count, and none otherwise |
| Validation.BlockArityOnly | js/validationEngine.js:15-18 | a block without 8 indices gets exactly one arity message and no range check |
| Validation.BlockIndexCount | js/validationEngine.js:19-23 | a block gets one range message per out-of-range index |
| Validation.FaceIndexMessages | js/validationEngine.js:42-46 | at most one message per index; each names the patch, the face and an out-of-range index of that face |
| Validation.FaceIndexAppend | js/validationEngine.js:42-46 | the range messages of consecutive index runs of a face are concatenated, in index order |
| Validation.FaceIndexSingle | js/validationEngine.js:42-46 | one face index gives one message quoting it exactly when it is out of range |
| Validation.FacesSplit | js/validationEngine.js:38-47 | the messages of earlier faces of a patch come before those of later faces |
| Validation.FacesInOrder | js/validationEngine.js:38-47 | face messages of a patch come in face order |
| Validation.PatchesAppend | js/validationEngine.js:37-48 | the face messages of consecutive patch runs are concatenated, so they keep patch order |
| Validation.PatchesSingle | js/validationEngine.js:37-48 | one patch contributes the messages of its faces from face 0 on |
| Validation.FaceArityThenRange | js/validationEngine.js:39-46 | a face without 4 indices gets its arity message first, followed by one range message per out-of-range index |
| Validation.NaNIndexPasses | js/validationEngine.js:20 | a NaN index is never reported, since both comparisons with it are false |
| Validation.ValidateOrdered | js/validationEngine.js:14-34 | block messages come out in block order |
| Validation.ParsedModelHasCoreData | js/validationEngine.js:8-11 | the model of a finished parse never gets the core-data message |
| Validation.IsRightHanded | js/validationEngine.js:59-71 | the handedness placeholder accepts every block |

## Left out

- Line numbers: `currentLineNumber`, `rawLinesWithNumbers` and the substring lookup that
  approximates them (js/blockMeshParser.js:17-18, 28-31, 79-81, 157-165) are not modelled.
  Diagnostics carry their kind and quoted text but no line number.
- Message wording: each message string is replaced by a `Mesh.Diag` constructor.
- Console logging is not modelled, since it has no effect on the result.
- `#eval`: the source builds the expression with regex substitution (js/blockMeshParser.js:89-92)
  and runs it with the host's `eval`. Both are foreign code and form the `Evaluator`
  parameter. The substitution pattern is a backslash followed by the macro name, not
  `$name`: a `$name` in the expression is never replaced, and a name starting with a
  letter that forms a regex escape (`d`, `s`, `w` and the like) matches other text. The
  model does not reproduce this; the `Evaluator` receives the raw expression and the table.
  The model merges a thrown error and a non-number result into NaN, since both lead
  to the same diagnostic and the same stored value.
- `_skipToPatchEnd` (js/blockMeshParser.js:700-721) is never called by the parser and is
  not modelled.
- The object `parse` returns leaves the macro table out. `Parsed(ctx)` carries the whole
  context, and `Validation.Model` selects the part the validator reads.
- Sections.LineAt: reads a stored line without trimming it again. `Parser.StoredLinesTrimmed`
  shows that the trim the source applies is the identity on every line the loop can reach.
- JsNumber.ParseFloat: does not model `Infinity`; every other decimal literal is modelled.
- JsNumber.ParseInt: models the sign, the `0x` prefix and both bases, but not the
  precision limit of the double the source returns.
- JsNumber.StringToNumber: does not model `Infinity` or the `0x`, `0b` and `0o` prefixes,
  which no index in a mesh file uses.
- Macros.Resolve: the table is a map, where the source uses a plain object and
  `hasOwnProperty` (js/blockMeshParser.js:56, 130). Two keys behave differently there. A
  definition of `__proto__` is silently dropped by the object, so a later `$__proto__` is
  undefined in the source but resolves in the model. A definition of `hasOwnProperty`
  replaces the method, so the next `$name` lookup throws a `TypeError` and `parse` throws,
  where the model resolves or reports the name as usual. Other inherited names
  (`toString`, `constructor`) are not own properties and agree with the map.
- Validation.BlockIndexMessages: its ensures give the bound, the block, the vertex count
  and that each quoted index is one of the block's out-of-range indices. Exactly one message
  per such index, in index order, is stated by `Validation.BlockIndexCount`,
  `Validation.BlockIndexAppend` and `Validation.BlockIndexSingle`, not by the ensures.
- Validation.FaceIndexMessages: likewise, count and order are stated by
  `Validation.FaceIndexCount`, `Validation.FaceIndexAppend` and `Validation.FaceIndexSingle`.
- Macros.Preprocess: states an upper bound on its diagnostics (at most one per eval line)
  rather than their exact count. A later eval of the same key can replace a NaN, so the
  diagnostic count alone does not determine the table.
- Validation: a `parsedData.boundary` that is absent (a `TypeError` in the source) and a
  block without a `vertices` array cannot occur for a parsed model, and are not modelled.
- Validation.IsRightHanded: the call is commented out in the source
  (js/validationEngine.js:31-33), so the placeholder is modelled but never used.
- Numbers are JavaScript doubles in the source and exact reals in the model. Rounding,
  overflow to `Infinity` and `-0` are not modelled.

=== FILE: blocks.dfy ===
/**
 * `_parseBlocks` and its recovery helper `_skipToNextBlockOrClosingParen`. A `hex` entry
 * reads its vertex indices from the `hex (...)` group, then looks for cell counts and a
 * grading first on the rest of its own line and then on the lines that follow it.
 */
module Blocks {
  import opened Wrappers
  import opened JsText
  import opened JsNumber
  import opened Patterns
  import opened Mesh
  import opened Macros
  import opened Sections

  /** The context differs from `a` only in the block list and the diagnostics, which grew. */
  predicate OnlyBlocks(a: Ctx, b: Ctx) {
    && b.scale == a.scale && b.vertices == a.vertices && b.edges == a.edges && b.boundary == a.boundary
    && b.mergePatchPairs == a.mergePatchPairs && b.macros == a.macros
    && IsPrefix(a.blocks, b.blocks) && IsPrefix(a.errors, b.errors)
  }

  lemma OnlyBlocksTrans(a: Ctx, b: Ctx, c: Ctx)
    requires OnlyBlocks(a, b) && OnlyBlocks(b, c)
    ensures OnlyBlocks(a, c)
  {
    PrefixTrans(a.blocks, b.blocks, c.blocks);
    PrefixTrans(a.errors, b.errors, c.errors);
  }

  /**
   * The checks a block must pass before it is stored: eight vertex indices (whatever their
   * values), three cell counts that are numbers, and grading values that are numbers, three
   * of them for `simpleGrading`.
   */
  predicate Accepted(b: Block) {
    && |b.vertices| == 8
    && |b.cells| == 3 && !HasNaN(b.cells)
    && !HasNaN(b.grading) && (b.gradingType == SimpleGrading ==> |b.grading| == 3)
  }

  /** Every block from position `from` on passed the checks. */
  predicate AcceptedFrom(bs: seq<Block>, from: nat) {
    forall k :: from <= k < |bs| ==> Accepted(bs[k])
  }

  lemma AcceptedFromTrans(a: seq<Block>, b: seq<Block>, from: nat)
    requires IsPrefix(a, b) && AcceptedFrom(a, from) && AcceptedFrom(b, |a|)
    ensures AcceptedFrom(b, from)
  {
    forall k | from <= k < |b| ensures Accepted(b[k]) {
      if k < |a| { assert b[k] == b[..|a|][k]; }
    }
  }

  // ----- recovery -----

  /** A line the recovery helper stops at: one starting with `hex` or closing the list. */
  predicate BlockOrClose(lines: seq<string>, k: nat)
    requires k < |lines|
  {
    StartsWith(LineAt(lines, k), "hex") || Closes(lines, k)
  }

  /** `_skipToNextBlockOrClosingParen`: the first stop line at or after `i`, or the end. */
  function SkipToNextBlockOrClosingParen(lines: seq<string>, i: nat): (r: nat)
    requires i <= |lines|
    ensures i <= r <= |lines|
    ensures forall k :: i <= k < r ==> !BlockOrClose(lines, k)
    ensures r < |lines| ==> BlockOrClose(lines, r)
    decreases |lines| - i
  {
    if i == |lines| || BlockOrClose(lines, i) then i else SkipToNextBlockOrClosingParen(lines, i + 1)
  }

  /** A line that starts with `hex` but does not match `/hex\s*\(([^)]+)\)/`. */
  predicate MalformedHexAt(lines: seq<string>, k: nat)
    requires k < |lines|
  {
    StartsWith(LineAt(lines, k), "hex") && HexMatch(LineAt(lines, k), 0).None?
  }

  // ----- one hex entry -----

  /** What a hex entry has read so far: cell counts (absent until found), grading, diagnostics. */
  datatype HexRead = HexRead(cells: Option<seq<Num>>, gradingType: GradingType, grading: seq<Num>, diags: seq<Diag>)

  /** No cell counts yet, `simpleGrading (1 1 1)`. */
  function Defaults(): HexRead {
    HexRead(None, SimpleGrading, [Fin(1.0), Fin(1.0), Fin(1.0)], [])
  }

  /** The grading keyword a text starts with, `simpleGrading` taking precedence. */
  function GradingKind(t: string): (r: Option<GradingType>)
    ensures r.Some? ==> |t| > 0 && (t[0] == 's' || t[0] == 'e')
  {
    if StartsWith(t, "simpleGrading") then Some(SimpleGrading)
    else if StartsWith(t, "edgeGrading") then Some(EdgeGrading)
    else None
  }

  /** Cell counts read from a group, when none were read before (`cells` is still `null`). */
  function TakeCells(macros: MacroTable, acc: HexRead, group: string): (r: HexRead)
    ensures acc.cells.Some? ==> r == acc
    ensures acc.cells.None? ==> r.cells == Some(ResolveNumbers(macros, Tokens(group)).nums)
    ensures r.gradingType == acc.gradingType && r.grading == acc.grading
  {
    if acc.cells.Some? then acc
    else
      var n := ResolveNumbers(macros, Tokens(group));
      acc.(cells := Some(n.nums), diags := acc.diags + n.diags)
  }

  /** A grading of kind `k`, with values when the text has a parenthesised group. */
  function TakeGrading(macros: MacroTable, acc: HexRead, k: GradingType, t: string): (r: HexRead)
    ensures r.cells == acc.cells && r.gradingType == k
  {
    match ParenGroup(t)
    case Some(g) =>
      var n := ResolveNumbers(macros, Tokens(g));
      acc.(gradingType := k, grading := n.nums, diags := acc.diags + n.diags)
    case None => acc.(gradingType := k)
  }

  /**
   * One piece of the rest of the hex line: a piece starting with `(` gives the cell counts
   * through the anchored `/^\(([^)]+)\)/`, a piece starting with a grading keyword gives
   * the grading, anything else is ignored.
   */
  function ReadPart(macros: MacroTable, acc: HexRead, part: string): (r: HexRead)
    ensures acc.cells.Some? ==> r.cells == acc.cells
  {
    var t := Trim(part);
    if StartsWith(t, "(") then
      match LeadingParenGroup(t)
      case Some(g) => TakeCells(macros, acc, g)
      case None => acc
    else
      match GradingKind(t)
      case Some(k) => TakeGrading(macros, acc, k, t)
      case None => acc
  }

  /** The pieces of the rest of the hex line, left to right; the first cell counts found stay. */
  function ReadParts(macros: MacroTable, acc: HexRead, parts: seq<string>): (r: HexRead)
    ensures acc.cells.Some? ==> r.cells == acc.cells
    decreases |parts|
  {
    if parts == [] then acc else ReadParts(macros, ReadPart(macros, acc, parts[0]), parts[1..])
  }

  /** A line the look-ahead may consume: cell counts or a grading. */
  predicate Consumable(t: string) {
    StartsWith(t, "(") || GradingKind(t).Some?
  }

  /** The line after the hex line gives the cell counts when none were found on the hex line. */
  function CellsAhead(lines: seq<string>, i: nat, macros: MacroTable, acc: HexRead): (r: (HexRead, nat))
    requires i < |lines|
    ensures i + 1 <= r.1 <= i + 2 && r.1 <= |lines|
    ensures r.1 == i + 2 ==> Consumable(LineAt(lines, i + 1))
    ensures r.0.gradingType == acc.gradingType && r.0.grading == acc.grading
  {
    if acc.cells.None? && i + 1 < |lines| && StartsWith(LineAt(lines, i + 1), "(") then
      match ParenGroup(LineAt(lines, i + 1))
      case Some(g) => (TakeCells(macros, acc, g), i + 2)
      case None => (acc, i + 1)
    else (acc, i + 1)
  }

  /** A grading line at `la` is read and consumed, with or without values. */
  function GradingAhead(lines: seq<string>, la: nat, macros: MacroTable, acc: HexRead): (r: (HexRead, nat))
    requires la <= |lines|
    ensures la <= r.1 <= la + 1 && r.1 <= |lines|
    ensures r.1 == la + 1 ==> Consumable(LineAt(lines, la))
    ensures r.0.cells == acc.cells
  {
    if la < |lines| then
      match GradingKind(LineAt(lines, la))
      case Some(k) => (TakeGrading(macros, acc, k, LineAt(lines, la)), la + 1)
      case None => (acc, la)
    else (acc, la)
  }

  /**
   * Everything a hex line at `i` with a match of length `n` reads: the rest of the line
   * (`line.substring(n).trim()`, cut by `/\)\s*(?=\()/`), then the look-ahead. The second
   * component is the look-ahead index, one past the last line consumed.
   */
  function ReadHex(lines: seq<string>, i: nat, macros: MacroTable, n: nat): (r: (HexRead, nat))
    requires i < |lines| && n <= |LineAt(lines, i)|
    ensures i + 1 <= r.1 <= |lines|
    ensures forall k :: i < k < r.1 ==> Consumable(LineAt(lines, k))
  {
    var line := LineAt(lines, i);
    var same := ReadParts(macros, Defaults(), SplitBetweenGroups(Trim(line[n..]), 0));
    var (a, la) := CellsAhead(lines, i, macros, same);
    var r := GradingAhead(lines, la, macros, a);
    LookAheadConsumable(lines, i, la, r.1);
    r
  }

  /** The lines the two look-ahead steps consumed are all consumable. */
  lemma LookAheadConsumable(lines: seq<string>, i: nat, la: nat, end: nat)
    requires i + 1 <= la <= i + 2 && la <= end <= la + 1 && end <= |lines|
    requires la == i + 2 ==> Consumable(LineAt(lines, i + 1))
    requires end == la + 1 ==> Consumable(LineAt(lines, la))
    ensures forall k :: i < k < end ==> Consumable(LineAt(lines, k))
  {
    forall k | i < k < end ensures Consumable(LineAt(lines, k)) {
      if k == i + 1 && la == i + 2 {
      } else {
        assert k == la;
      }
    }
  }

  /** A grading line's keyword. */
  function GradingWord(k: GradingType): string {
    match k
    case SimpleGrading => "simpleGrading"
    case EdgeGrading => "edgeGrading"
  }

  /**
   * The three-line layout: `hex (g)` alone on its line, the cell counts `(c)` on the next
   * and `simpleGrading (d)` or `edgeGrading (d)` on the one after. The cells are read from
   * `c`, the grading from `d`, and the look-ahead stops after the grading line.
   */
  lemma HexThreeLines(lines: seq<string>, i: nat, macros: MacroTable, g: string, c: string, k: GradingType, d: string)
    requires i + 2 < |lines|
    requires LineAt(lines, i) == "hex (" + g + ")"
    requires LineAt(lines, i + 1) == "(" + c + ")" && c != [] && ')' !in c
    requires LineAt(lines, i + 2) == (GradingWord(k) + " ") + "(" + d + ")" && d != [] && ')' !in d
    ensures var r := ReadHex(lines, i, macros, |LineAt(lines, i)|);
      && r.0.cells == Some(ResolveNumbers(macros, Tokens(c)).nums)
      && r.0.gradingType == k && r.0.grading == ResolveNumbers(macros, Tokens(d)).nums
      && r.1 == i + 3
  {
    EmptyRestReadsNothing(LineAt(lines, i), macros);
    CellsLineReads(lines, i, macros, c);
    GradingLineReads(LineAt(lines, i + 2), k, d, macros, TakeCells(macros, Defaults(), c));
  }

  /** With no cell counts on the hex line, a following `(c)` line gives them and is consumed. */
  lemma CellsLineReads(lines: seq<string>, i: nat, macros: MacroTable, c: string)
    requires i + 1 < |lines| && LineAt(lines, i + 1) == "(" + c + ")" && c != [] && ')' !in c
    ensures CellsAhead(lines, i, macros, Defaults()) == (TakeCells(macros, Defaults(), c), i + 2)
  {
    ParenGroupOfWrapped("", c, "");
    assert "" + "(" + c + ")" + "" == LineAt(lines, i + 1);
  }

  /** Nothing follows the vertex group: the same-line pass keeps the defaults. */
  lemma EmptyRestReadsNothing(line: string, macros: MacroTable)
    ensures ReadParts(macros, Defaults(), SplitBetweenGroups(Trim(line[|line|..]), 0)) == Defaults()
  {
    assert line[|line|..] == [];
  }

  /** `simpleGrading (d)` or `edgeGrading (d)` gives its kind and the values read from `d`. */
  lemma GradingLineReads(t: string, k: GradingType, d: string, macros: MacroTable, acc: HexRead)
    requires t == (GradingWord(k) + " ") + "(" + d + ")" && d != [] && ')' !in d
    ensures GradingKind(t) == Some(k)
    ensures TakeGrading(macros, acc, k, t).grading == ResolveNumbers(macros, Tokens(d)).nums
  {
    GradingLineKind(t, k, d);
    GradingLineGroup(GradingWord(k) + " ", d);
  }

  /** The values group after a keyword and a space. */
  lemma GradingLineGroup(w: string, d: string)
    requires '(' !in w && d != [] && ')' !in d
    ensures ParenGroup(w + "(" + d + ")") == Some(d)
  {
    ParenGroupOfWrapped(w, d, "");
    assert w + "(" + d + ")" + "" == w + "(" + d + ")";
  }

  /** A line that starts with a grading keyword has that kind. */
  lemma GradingLineKind(t: string, k: GradingType, d: string)
    requires t == (GradingWord(k) + " ") + "(" + d + ")"
    ensures GradingKind(t) == Some(k)
  {
    var w := GradingWord(k);
    assert t[..|w|] == w;
    if k == EdgeGrading {
      assert t[0] == 'e';
    }
  }

  /**
   * The one-line layout `hex (g) (c)`: the cell counts come from `c`, whatever the lines
   * after it hold.
   */
  lemma HexOneLine(lines: seq<string>, i: nat, macros: MacroTable, g: string, c: string)
    requires i < |lines|
    requires LineAt(lines, i) == "hex (" + g + ") (" + c + ")" && c != [] && ')' !in c
    ensures |g| + 6 <= |LineAt(lines, i)|
    ensures ReadHex(lines, i, macros, |g| + 6).0.cells == Some(ResolveNumbers(macros, Tokens(c)).nums)
  {
    var line := LineAt(lines, i);
    OneLineRest(line, g, c);
    CellsPartReads(macros, c);
    assert ReadParts(macros, Defaults(), SplitBetweenGroups(Trim(line[|g| + 6..]), 0)).cells
      == Some(ResolveNumbers(macros, Tokens(c)).nums);
  }

  /** After `hex (g)`, the rest ` (c)` of the line is the single piece `(c)`. */
  lemma OneLineRest(line: string, g: string, c: string)
    requires line == "hex (" + g + ") (" + c + ")" && ')' !in c
    ensures SplitBetweenGroups(Trim(line[|g| + 6..]), 0) == ["(" + c + ")"]
  {
    var t := "(" + c + ")";
    assert line[|g| + 6..] == " " + t + "";
    TrimPadded(" ", t, "");
    SplitBetweenGroupsNoCut(t, 0);
  }

  /** The piece `(c)` gives the cells `c` when none were read. */
  lemma CellsPartReads(macros: MacroTable, c: string)
    requires c != [] && ')' !in c
    ensures ReadParts(macros, Defaults(), ["(" + c + ")"]).cells == Some(ResolveNumbers(macros, Tokens(c)).nums)
  {
    var t := "(" + c + ")";
    TrimOfTrimmed(t);
    LeadingGroupOf(c);
    assert ["(" + c + ")"][1..] == [];
  }

  /** `/^\(([^)]+)\)/` reads `c` back from `(c)`. */
  lemma LeadingGroupOf(c: string)
    requires c != [] && ')' !in c
    ensures LeadingParenGroup("(" + c + ")") == Some(c)
  {
    var t := "(" + c + ")";
    forall k | 1 <= k < |c| + 1 ensures t[k] != ')' {
      assert t[k] == c[k - 1];
    }
    IndexOfCharAt(t, ')', 1, |c| + 1);
    assert t[1..|c| + 1] == c;
  }

  /** The diagnostic a hex entry is rejected with, checked in the source's order, if any. */
  function Verdict(vs: seq<Num>, h: HexRead): (r: Option<Diag>)
  {
    if |vs| != 8 then Some(HexVertexCount(|vs|))
    else if h.cells.None? || |h.cells.value| != 3 || HasNaN(h.cells.value) then Some(HexCellCount)
    else if HasNaN(h.grading) || (h.gradingType == SimpleGrading && |h.grading| != 3) then Some(HexGrading)
    else None
  }

  /** The checks in the source's order reject exactly the entries that `Accepted` refuses. */
  lemma VerdictAccepts(vs: seq<Num>, h: HexRead)
    ensures Verdict(vs, h).None? <==> h.cells.Some? && Accepted(Block(vs, h.cells.value, h.gradingType, h.grading))
  {
  }

  /**
   * One hex line at `i` whose pattern matched with length `n` and vertex group `g`: the
   * macro diagnostics, then either the stored block or one rejection. The cursor moves past
   * the consumed look-ahead lines when cell counts were found, and to the next line otherwise.
   */
  function HexEntry(lines: seq<string>, i: nat, ctx: Ctx, n: nat, g: string): (r: (Ctx, nat))
    requires i < |lines| && n <= |LineAt(lines, i)|
    ensures OnlyBlocks(ctx, r.0) && |r.0.blocks| <= |ctx.blocks| + 1
    ensures AcceptedFrom(r.0.blocks, |ctx.blocks|)
    ensures i < r.1 <= |lines|
    ensures forall k :: i < k < r.1 ==> Consumable(LineAt(lines, k))
  {
    var vs := ToNumbers(Tokens(g));
    var (h, la) := ReadHex(lines, i, ctx.macros, n);
    VerdictAccepts(vs, h);
    (Settle(ctx, h.diags, Verdict(vs, h), HexBlock(vs, h)), if h.cells.Some? then la else i + 1)
  }

  /** The block a hex entry describes; its cell counts are only read when present. */
  function HexBlock(vs: seq<Num>, h: HexRead): Block {
    Block(vs, if h.cells.Some? then h.cells.value else [], h.gradingType, h.grading)
  }

  /** The macro diagnostics, then the rejection `v` if any, or else the stored block `b`. */
  function Settle(ctx: Ctx, diags: seq<Diag>, v: Option<Diag>, b: Block): (r: Ctx)
    requires v.None? ==> Accepted(b)
    ensures OnlyBlocks(ctx, r) && |r.blocks| <= |ctx.blocks| + 1
    ensures AcceptedFrom(r.blocks, |ctx.blocks|)
  {
    var c := ctx.(errors := ctx.errors + diags);
    PrefixRefl(ctx.blocks);
    PrefixAppend(ctx.errors, diags);
    match v
    case Some(d) =>
      PrefixAppend(ctx.errors, diags + [d]);
      assert ctx.errors + diags + [d] == ctx.errors + (diags + [d]);
      Log(c, d)
    case None =>
      PrefixAppend(ctx.blocks, [b]);
      c.(blocks := ctx.blocks + [b])
  }

  /**
   * A hex entry reports the diagnostics of its macro lookups and then stores the block when
   * it passes the checks, or reports exactly one rejection and stores nothing.
   */
  lemma HexEntryOutcome(lines: seq<string>, i: nat, ctx: Ctx, n: nat, g: string)
    requires i < |lines| && n <= |LineAt(lines, i)|
    ensures var (c, _) := HexEntry(lines, i, ctx, n, g);
      var vs := ToNumbers(Tokens(g));
      var h := ReadHex(lines, i, ctx.macros, n).0;
      && (h.cells.Some? && Accepted(Block(vs, h.cells.value, h.gradingType, h.grading)) ==>
            c.blocks == ctx.blocks + [Block(vs, h.cells.value, h.gradingType, h.grading)]
            && c.errors == ctx.errors + h.diags)
      && (!(h.cells.Some? && Accepted(Block(vs, h.cells.value, h.gradingType, h.grading))) ==>
            c.blocks == ctx.blocks && |c.errors| == |ctx.errors| + |h.diags| + 1)
  {
    VerdictAccepts(ToNumbers(Tokens(g)), ReadHex(lines, i, ctx.macros, n).0);
  }

  // ----- the list -----

  /**
   * The body loop of `_parseBlocks` from line `i`, and its closing `)`. A malformed hex line
   * hangs: the recovery helper returns the same index (`MalformedHexHangs`) and the loop
   * reads that line again forever.
   */
  function BlockList(lines: seq<string>, i: nat, ctx: Ctx): (r: Run)
    requires i <= |lines|
    ensures !r.Crash? && OnlyBlocks(ctx, r.ctx) && AcceptedFrom(r.ctx.blocks, |ctx.blocks|)
    ensures r.Next? ==> r.at == AfterList(lines, i)
    ensures r.Next? && CloseIndex(lines, i) == |lines| ==> LastIs(r.ctx.errors, MissingCloseParen(BlocksSection))
    decreases |lines| - i
  {
    if i < |lines| && !Closes(lines, i) then
      var line := LineAt(lines, i);
      if StartsWith(line, "hex") then
        match HexMatch(line, 0)
        case None => Hang(Log(ctx, MalformedHex(line)))
        case Some((n, g)) =>
          var (next, j) := HexEntry(lines, i, ctx, n, g);
          var r := BlockList(lines, j, next);
          OnlyBlocksTrans(ctx, next, r.ctx);
          AcceptedFromTrans(next.blocks, r.ctx.blocks, |ctx.blocks|);
          CloseIndexOver(lines, i, j);
          r
      else
        var next := if line != "" && line != "(" && line != ")" then Log(ctx, UnexpectedBlockLine(line)) else ctx;
        var r := BlockList(lines, i + 1, next);
        OnlyBlocksTrans(ctx, next, r.ctx);
        AcceptedFromTrans(next.blocks, r.ctx.blocks, |ctx.blocks|);
        r
    else if i < |lines| then Next(i + 1, ctx)
    else Next(i, Log(ctx, MissingCloseParen(BlocksSection)))
  }

  /** Lines that do not close the list can be stepped over without changing where it closes. */
  lemma {:induction false} CloseIndexOver(lines: seq<string>, i: nat, j: nat)
    requires i < j <= |lines| && !Closes(lines, i)
    requires forall k :: i < k < j ==> Consumable(LineAt(lines, k))
    ensures CloseIndex(lines, j) == CloseIndex(lines, i)
    decreases j - i
  {
    if i + 1 < j {
      ConsumableNotHex(LineAt(lines, i + 1));
      CloseIndexOver(lines, i + 1, j);
    }
  }

  /** `_parseBlocks` at the keyword line `index`. */
  function ParseBlocks(lines: seq<string>, index: nat, ctx: Ctx): (r: Run)
    requires index < |lines|
    ensures !r.Crash? && OnlyBlocks(ctx, r.ctx) && AcceptedFrom(r.ctx.blocks, |ctx.blocks|)
    ensures r.Next? ==> index < r.at <= |lines|
    ensures index + 1 == |lines| || LineAt(lines, index + 1) != "(" ==>
      r == Next(index + 1, Log(ctx, ExpectedOpenParen(BlocksSection)))
  {
    if index + 1 == |lines| || LineAt(lines, index + 1) != "(" then
      Next(index + 1, Log(ctx, ExpectedOpenParen(BlocksSection)))
    else BlockList(lines, index + 2, ctx)
  }

  // ----- properties -----

  /**
   * A malformed hex line is a fixed point of the recovery helper, so the source's loop never
   * leaves it: the list hangs there.
   */
  lemma MalformedHexHangs(lines: seq<string>, i: nat, ctx: Ctx)
    requires i < |lines| && MalformedHexAt(lines, i)
    ensures SkipToNextBlockOrClosingParen(lines, i) == i
    ensures BlockList(lines, i, ctx) == Hang(Log(ctx, MalformedHex(LineAt(lines, i))))
  {
    assert LineAt(lines, i)[0] == 'h';
  }

  /** Some line from `i` up to the closing line is a malformed hex line. */
  predicate MalformedBefore(lines: seq<string>, i: nat, c: nat)
    requires i <= c <= |lines|
  {
    exists k :: i <= k < c && MalformedHexAt(lines, k)
  }

  /**
   * The list hangs exactly when a malformed hex line comes before its closing line: the
   * look-ahead only ever consumes cell and grading lines, so no hex line is skipped.
   */
  lemma {:induction false} BlockListHangs(lines: seq<string>, i: nat, ctx: Ctx)
    requires i <= |lines|
    ensures BlockList(lines, i, ctx).Hang? <==> MalformedBefore(lines, i, CloseIndex(lines, i))
    decreases |lines| - i
  {
    var c := CloseIndex(lines, i);
    if i < |lines| && !Closes(lines, i) {
      var line := LineAt(lines, i);
      if StartsWith(line, "hex") {
        match HexMatch(line, 0)
        case None =>
          assert MalformedHexAt(lines, i);
        case Some((n, g)) =>
          var (next, j) := HexEntry(lines, i, ctx, n, g);
          BlockListHangs(lines, j, next);
          CloseIndexOver(lines, i, j);
          MalformedRange(lines, i, j, c);
      } else {
        var next := if line != "" && line != "(" && line != ")" then Log(ctx, UnexpectedBlockLine(line)) else ctx;
        BlockListHangs(lines, i + 1, next);
        assert !MalformedHexAt(lines, i);
        MalformedRange(lines, i, i + 1, c);
      }
    } else {
      assert c == i;
    }
  }

  /** A stretch of consumed lines after a well-formed line holds no malformed hex line. */
  lemma MalformedRange(lines: seq<string>, i: nat, j: nat, c: nat)
    requires i < j <= c <= |lines| && !MalformedHexAt(lines, i)
    requires forall k :: i < k < j ==> Consumable(LineAt(lines, k))
    ensures MalformedBefore(lines, i, c) <==> MalformedBefore(lines, j, c)
  {
    forall k | i < k < j ensures !MalformedHexAt(lines, k) {
      ConsumableNotHex(LineAt(lines, k));
    }
    if MalformedBefore(lines, i, c) {
      var k :| i <= k < c && MalformedHexAt(lines, k);
      assert j <= k;
    }
    if MalformedBefore(lines, j, c) {
      var k :| j <= k < c && MalformedHexAt(lines, k);
      assert i <= k;
    }
  }

  /** Cell and grading lines neither start with `hex` nor close the list. */
  lemma ConsumableNotHex(t: string)
    requires Consumable(t)
    ensures !StartsWith(t, "hex") && !(|t| > 0 && t[0] == ')')
  {
    assert |t| > 0 && t[0] != 'h' && t[0] != ')' by {
      if StartsWith(t, "(") { assert t[0] == t[..1][0]; }
    }
    assert |t| < 3 || t[..3][0] != 'h';
  }

  /**
   * When the rest of a hex line starts with the cell counts and holds no `)` followed by `(`,
   * it stays one piece, which the cell branch takes: a grading written after the counts on
   * the same line is never read, and the block keeps `simpleGrading (1 1 1)` unless a
   * following line supplies a grading.
   */
  lemma SameLineGradingIgnored(macros: MacroTable, rest: string)
    requires IsTrimmed(rest) && StartsWith(rest, "(")
    requires forall k :: 0 <= k < |rest| ==> !CutAt(rest, k)
    ensures var h := ReadParts(macros, Defaults(), SplitBetweenGroups(rest, 0));
      h.gradingType == SimpleGrading && h.grading == Defaults().grading
  {
    SplitBetweenGroupsNoCut(rest, 0);
    TrimOfTrimmed(rest);
    assert ReadParts(macros, Defaults(), [rest]) == ReadPart(macros, Defaults(), rest);
  }

  /**
   * The vertex indices are counted but never checked: entries that differ only in the
   * values of their indices (NaN included) get the same verdict.
   */
  lemma VertexValuesUnchecked(vs: seq<Num>, ws: seq<Num>, h: HexRead)
    requires |vs| == |ws|
    ensures Verdict(vs, h) == Verdict(ws, h)
  {
  }
}

=== FILE: boundary.dfy ===
/**
 * `_parseBoundary` and its two recovery helpers. The list holds patches written as a name
 * line, a `{` line, detail lines (`type`, `faces`) and a `}` line.
 */
module Boundary {
  import opened Wrappers
  import opened JsText
  import opened JsNumber
  import opened Patterns
  import opened Mesh
  import opened Sections

  /** The context differs from `a` only in the patch list and the diagnostics, which grew. */
  predicate OnlyBoundary(a: Ctx, b: Ctx) {
    && b.scale == a.scale && b.vertices == a.vertices && b.edges == a.edges && b.blocks == a.blocks
    && b.mergePatchPairs == a.mergePatchPairs && b.macros == a.macros
    && IsPrefix(a.boundary, b.boundary) && IsPrefix(a.errors, b.errors)
  }

  lemma OnlyBoundaryTrans(a: Ctx, b: Ctx, c: Ctx)
    requires OnlyBoundary(a, b) && OnlyBoundary(b, c)
    ensures OnlyBoundary(a, c)
  {
    PrefixTrans(a.boundary, b.boundary, c.boundary);
    PrefixTrans(a.errors, b.errors, c.errors);
  }

  lemma OnlyBoundaryRefl(a: Ctx)
    ensures OnlyBoundary(a, a)
  {
    PrefixRefl(a.boundary);
    PrefixRefl(a.errors);
  }

  lemma LogOnlyBoundary(a: Ctx, d: Diag)
    ensures OnlyBoundary(a, Log(a, d))
  {
    PrefixRefl(a.boundary);
    PrefixAppend(a.errors, [d]);
  }

  /** A face that is kept: at least three vertex indices, none of them NaN. */
  predicate ValidFace(f: seq<Num>) {
    |f| >= 3 && !HasNaN(f)
  }

  predicate FacesValid(fs: seq<seq<Num>>) {
    forall k :: 0 <= k < |fs| ==> ValidFace(fs[k])
  }

  /** A stored patch: its name matched `/^[a-zA-Z0-9_]+$/` and every face it kept is valid. */
  predicate WellFormedPatch(p: Patch) {
    IsIdentLine(p.name) && FacesValid(p.faces)
  }

  predicate WellFormedFrom(ps: seq<Patch>, from: nat) {
    forall k :: from <= k < |ps| ==> WellFormedPatch(ps[k])
  }

  lemma WellFormedFromTrans(a: seq<Patch>, b: seq<Patch>, from: nat)
    requires IsPrefix(a, b) && WellFormedFrom(a, from) && WellFormedFrom(b, |a|)
    ensures WellFormedFrom(b, from)
  {
    forall k | from <= k < |b| ensures WellFormedPatch(b[k]) {
      if k < |a| { assert b[k] == b[..|a|][k]; }
    }
  }

  // ----- recovery -----

  /** The line after `k` is a bare patch name. */
  predicate NameAfter(lines: seq<string>, k: nat)
    requires k < |lines|
  {
    k + 1 < |lines| && IsIdentLine(LineAt(lines, k + 1))
  }

  /**
   * `_skipToNextPotentialPatchNameOrEnd`: the first line at or after `i` that closes the
   * list or is followed by a name line, or the end.
   */
  function SkipToNextPotentialPatchNameOrEnd(lines: seq<string>, i: nat): (r: nat)
    requires i <= |lines|
    ensures i <= r <= |lines|
    ensures forall k :: i <= k < r ==> !Closes(lines, k) && !NameAfter(lines, k)
    ensures r < |lines| ==> Closes(lines, r) || NameAfter(lines, r)
    decreases |lines| - i
  {
    if i == |lines| || Closes(lines, i) || NameAfter(lines, i) then i
    else SkipToNextPotentialPatchNameOrEnd(lines, i + 1)
  }

  /** A line `_skipToClosingBraceOrNextPatch` stops at. */
  predicate PatchStop(lines: seq<string>, k: nat)
    requires k < |lines|
  {
    || LineAt(lines, k) == "}"
    || (IsIdentLine(LineAt(lines, k)) && k + 1 < |lines| && LineAt(lines, k + 1) == "{")
    || Closes(lines, k)
  }

  /**
   * `_skipToClosingBraceOrNextPatch`: the first `}` line, start of a patch (a name line
   * followed by `{`) or closing line at or after `i`, or the end.
   */
  function SkipToClosingBraceOrNextPatch(lines: seq<string>, i: nat): (r: nat)
    requires i <= |lines|
    ensures i <= r <= |lines|
    ensures forall k :: i <= k < r ==> !PatchStop(lines, k)
    ensures r < |lines| ==> PatchStop(lines, r)
    decreases |lines| - i
  {
    if i == |lines| || PatchStop(lines, i) then i else SkipToClosingBraceOrNextPatch(lines, i + 1)
  }

  // ----- inside one patch -----

  /** A diagnostic the detail lines of patch `name` may report. */
  predicate DetailDiag(d: Diag, name: string) {
    && (d.MalformedType? || d.InvalidFace? || d.MalformedInlineFaces? || d.ExpectedFacesParen?
        || d.MalformedFace? || d.MissingFacesClose? || d.UnexpectedPatchLine?)
    && d.patch == name
  }

  /** Only the diagnostics changed, by appending detail diagnostics of patch `name`. */
  predicate DetailErrors(a: Ctx, b: Ctx, name: string) {
    && b == a.(errors := b.errors) && IsPrefix(a.errors, b.errors)
    && forall k :: |a.errors| <= k < |b.errors| ==> DetailDiag(b.errors[k], name)
  }

  lemma DetailErrorsTrans(a: Ctx, b: Ctx, c: Ctx, name: string)
    requires DetailErrors(a, b, name) && DetailErrors(b, c, name)
    ensures DetailErrors(a, c, name)
  {
    PrefixTrans(a.errors, b.errors, c.errors);
    forall k | |a.errors| <= k < |c.errors| ensures DetailDiag(c.errors[k], name) {
      if k < |b.errors| { assert c.errors[k] == c.errors[..|b.errors|][k]; }
    }
  }

  lemma DetailErrorsRefl(a: Ctx, name: string)
    ensures DetailErrors(a, a, name)
  {
    PrefixRefl(a.errors);
  }

  lemma LogDetail(a: Ctx, d: Diag, name: string)
    requires DetailDiag(d, name)
    ensures DetailErrors(a, Log(a, d), name)
  {
    PrefixAppend(a.errors, [d]);
  }

  /** `faceMatch[1].trim().split(/\s+/).map(Number)`: vertex indices, without macro lookup. */
  function FaceOf(group: string): seq<Num> {
    ToNumbers(Tokens(group))
  }

  /** The faces read so far and the context holding the diagnostics. */
  datatype Faces = Faces(faces: seq<seq<Num>>, ctx: Ctx)

  /** One line of a multi-line face list. */
  function FaceLine(name: string, acc: Faces, line: string): (r: Faces)
    ensures DetailErrors(acc.ctx, r.ctx, name)
    ensures FacesValid(acc.faces) ==> FacesValid(r.faces)
    ensures IsPrefix(acc.faces, r.faces)
  {
    DetailErrorsRefl(acc.ctx, name);
    PrefixRefl(acc.faces);
    LogDetail(acc.ctx, InvalidFace(name), name);
    LogDetail(acc.ctx, MalformedFace(name), name);
    match ParenGroup(line)
    case Some(g) =>
      if ValidFace(FaceOf(g)) then
        PrefixAppend(acc.faces, [FaceOf(g)]);
        Faces(acc.faces + [FaceOf(g)], acc.ctx)
      else Faces(acc.faces, Log(acc.ctx, InvalidFace(name)))
    case None =>
      if line == [] then acc else Faces(acc.faces, Log(acc.ctx, MalformedFace(name)))
  }

  /**
   * A face line with a group keeps its face exactly when it is valid and otherwise reports
   * it; a line without a group is skipped when blank and reported when not.
   */
  lemma FaceLineOutcome(name: string, acc: Faces, line: string)
    ensures var r := FaceLine(name, acc, line);
      && (ParenGroup(line).Some? && ValidFace(FaceOf(ParenGroup(line).value)) ==>
            r == Faces(acc.faces + [FaceOf(ParenGroup(line).value)], acc.ctx))
      && (ParenGroup(line).Some? && !ValidFace(FaceOf(ParenGroup(line).value)) ==>
            r == Faces(acc.faces, Log(acc.ctx, InvalidFace(name))))
      && (ParenGroup(line).None? && line == [] ==> r == acc)
      && (ParenGroup(line).None? && line != [] ==> r == Faces(acc.faces, Log(acc.ctx, MalformedFace(name))))
  {
  }

  /** The face list loop from line `i` up to its closing line (`CloseIndex(lines, i)`). */
  function FaceList(lines: seq<string>, i: nat, name: string, acc: Faces): (r: Faces)
    requires i <= |lines|
    ensures DetailErrors(acc.ctx, r.ctx, name)
    ensures FacesValid(acc.faces) ==> FacesValid(r.faces)
    decreases |lines| - i
  {
    if i < |lines| && !Closes(lines, i) then
      var next := FaceLine(name, acc, LineAt(lines, i));
      var r := FaceList(lines, i + 1, name, next);
      DetailErrorsTrans(acc.ctx, next.ctx, r.ctx, name);
      r
    else acc
  }

  /** A face line whose group is a valid face. */
  predicate KeepsFace(line: string) {
    var g := ParenGroup(line);
    g.Some? && ValidFace(FaceOf(g.value))
  }

  /** The number of faces a list from line `i` keeps: its lines with a valid group. */
  function FaceCount(lines: seq<string>, i: nat): nat
    requires i <= |lines|
    decreases |lines| - i
  {
    if i == |lines| || Closes(lines, i) then 0
    else (if KeepsFace(LineAt(lines, i)) then 1 else 0) + FaceCount(lines, i + 1)
  }

  /** The face list keeps exactly one face per line with a valid group, in order after `acc`. */
  lemma {:induction false} FaceListCount(lines: seq<string>, i: nat, name: string, acc: Faces)
    requires i <= |lines|
    ensures var r := FaceList(lines, i, name, acc);
      IsPrefix(acc.faces, r.faces) && |r.faces| == |acc.faces| + FaceCount(lines, i)
    decreases |lines| - i
  {
    if i < |lines| && !Closes(lines, i) {
      var next := FaceLine(name, acc, LineAt(lines, i));
      FaceListCount(lines, i + 1, name, next);
      FaceListStep(lines, i, name, acc);
      FaceLineCount(name, acc, LineAt(lines, i));
      var rest := FaceList(lines, i + 1, name, next);
      PrefixTrans(acc.faces, next.faces, rest.faces);
    }
  }

  lemma FaceListStep(lines: seq<string>, i: nat, name: string, acc: Faces)
    requires i < |lines| && !Closes(lines, i)
    ensures FaceList(lines, i, name, acc) == FaceList(lines, i + 1, name, FaceLine(name, acc, LineAt(lines, i)))
    ensures FaceCount(lines, i) == (if KeepsFace(LineAt(lines, i)) then 1 else 0) + FaceCount(lines, i + 1)
  {
  }

  lemma FaceLineCount(name: string, acc: Faces, line: string)
    ensures |FaceLine(name, acc, line).faces| == |acc.faces| + (if KeepsFace(line) then 1 else 0)
  {
  }

  /** What one detail line does: carry on at `at`, or break out of the detail loop. */
  datatype Step = Continue(at: nat, patch: Patch, ctx: Ctx) | Break(at: nat, patch: Patch, ctx: Ctx)

  /** `type t;`: the second white-space token without its first `;`, or a diagnostic. */
  function TypeLine(line: string, p: Patch, ctx: Ctx): (r: (Patch, Ctx))
    ensures r.0 == p.(patchType := r.0.patchType) && DetailErrors(ctx, r.1, p.name)
    ensures |SplitWs(line)| > 1 ==> r.0.patchType == Some(RemoveFirst(SplitWs(line)[1], ';')) && r.1 == ctx
    ensures |SplitWs(line)| <= 1 ==> r.0 == p && r.1 == Log(ctx, MalformedType(p.name))
  {
    var parts := SplitWs(line);
    if |parts| > 1 then (p.(patchType := Some(RemoveFirst(parts[1], ';'))), ctx)
    else (p, Log(ctx, MalformedType(p.name)))
  }

  /** `faces ((a b c ...));` on one line: the face is appended when valid. */
  function InlineFaces(line: string, p: Patch, ctx: Ctx): (r: (Patch, Ctx))
    ensures r.0.name == p.name && r.0.patchType == p.patchType && DetailErrors(ctx, r.1, p.name)
    ensures FacesValid(p.faces) ==> FacesValid(r.0.faces)
    ensures var g := InlineFacesMatch(line, 0);
      g.Some? && ValidFace(FaceOf(g.value)) ==> r.0 == p.(faces := p.faces + [FaceOf(g.value)]) && r.1 == ctx
    ensures var g := InlineFacesMatch(line, 0);
      !(g.Some? && ValidFace(FaceOf(g.value))) ==> r.0 == p && |r.1.errors| == |ctx.errors| + 1
  {
    match InlineFacesMatch(line, 0)
    case Some(g) =>
      if ValidFace(FaceOf(g)) then
        AppendValidFace(p.faces, FaceOf(g));
        (p.(faces := p.faces + [FaceOf(g)]), ctx)
      else
        LogDetail(ctx, InvalidFace(p.name), p.name);
        (p, Log(ctx, InvalidFace(p.name)))
    case None =>
      LogDetail(ctx, MalformedInlineFaces(p.name), p.name);
      (p, Log(ctx, MalformedInlineFaces(p.name)))
  }

  lemma AppendValidFace(fs: seq<seq<Num>>, f: seq<Num>)
    requires ValidFace(f)
    ensures FacesValid(fs) ==> FacesValid(fs + [f])
  {
    if FacesValid(fs) {
      forall k | 0 <= k < |fs| + 1 ensures ValidFace((fs + [f])[k]) {
        if k < |fs| { assert (fs + [f])[k] == fs[k]; }
      }
    }
  }

  /** `type t;` sets the patch type to `t`, without its `;`, and reports nothing. */
  lemma TypeLineReads(t: string, p: Patch, ctx: Ctx)
    requires t != [] && NoSpace(t) && ';' !in t
    ensures TypeLine("type " + t + ";", p, ctx) == (p.(patchType := Some(t)), ctx)
  {
    var w := t + ";";
    assert NoSpace(w) by {
      forall k | 0 <= k < |w| ensures !IsSpace(w[k]) {
        if k < |t| { assert w[k] == t[k]; }
      }
    }
    var ts: seq<string> := ["type", w];
    assert IsWords(ts) by {
      assert ts[1..] == [w];
      assert ts[1..][1..] == [];
    }
    assert JoinWs(ts) == "type " + t + ";" by {
      assert ts[1..] == [w];
    }
    SplitJoinWs(ts);
    RemoveFirstLast(t, ';');
  }

  lemma RemoveFirstLast(t: string, c: char)
    requires c !in t
    ensures RemoveFirst(t + [c], c) == t
  {
    var s := t + [c];
    assert s[|t|] == c;
    var r := RemoveFirst(s, c);
    assert s[..|t|] == t;
  }

  /** An inline face line `faces ((a b c d));` with a valid face appends that face. */
  lemma InlineFacesReads(g: string, p: Patch, ctx: Ctx)
    requires g != [] && ')' !in g && ValidFace(FaceOf(g))
    ensures InlineFaces("faces ((" + g + "));", p, ctx) == (p.(faces := p.faces + [FaceOf(g)]), ctx)
  {
    InlineFacesMatchOfLine(g);
  }

  /**
   * A `faces` line without `((` at `i`: a `(` line, the face lines, a `)` line and an
   * optional `;` line. The list read replaces the faces the patch had. A missing `(` or
   * `)` breaks out of the detail loop at the recovery point.
   */
  function FacesBlock(lines: seq<string>, i: nat, p: Patch, ctx: Ctx): (r: Step)
    requires i < |lines|
    ensures i < r.at <= |lines|
    ensures r.patch.name == p.name && r.patch.patchType == p.patchType && DetailErrors(ctx, r.ctx, p.name)
    ensures FacesValid(p.faces) ==> FacesValid(r.patch.faces)
  {
    if i + 1 == |lines| || LineAt(lines, i + 1) != "(" then
      Break(SkipToClosingBraceOrNextPatch(lines, i + 1), p, Log(ctx, ExpectedFacesParen(p.name)))
    else
      var f := FaceList(lines, i + 2, p.name, Faces([], ctx));
      var q := p.(faces := f.faces);
      var c := CloseIndex(lines, i + 2);
      if c < |lines| then
        Continue(if c + 1 < |lines| && LineAt(lines, c + 1) == ";" then c + 2 else c + 1, q, f.ctx)
      else
        Break(SkipToClosingBraceOrNextPatch(lines, c), q, Log(f.ctx, MissingFacesClose(p.name)))
  }

  /** One line of the detail loop at `i`, which is not `}`. */
  function DetailStep(lines: seq<string>, i: nat, p: Patch, ctx: Ctx): (r: Step)
    requires i < |lines|
    ensures i < r.at <= |lines|
    ensures r.patch.name == p.name && DetailErrors(ctx, r.ctx, p.name)
    ensures FacesValid(p.faces) ==> FacesValid(r.patch.faces)
  {
    var line := LineAt(lines, i);
    if StartsWith(line, "type") then
      var (q, c) := TypeLine(line, p, ctx);
      Continue(i + 1, q, c)
    else if StartsWith(line, "faces") then
      if Contains(line, "((") then
        var (q, c) := InlineFaces(line, p, ctx);
        Continue(i + 1, q, c)
      else FacesBlock(lines, i, p, ctx)
    else if line == [] then Continue(i + 1, p, ctx)
    else Continue(i + 1, p, Log(ctx, UnexpectedPatchLine(p.name)))
  }

  /** The detail loop from line `i`: it stops at a `}` line, at the end, or on a break. */
  function DetailLoop(lines: seq<string>, i: nat, p: Patch, ctx: Ctx): (r: Step)
    requires i <= |lines|
    ensures i <= r.at <= |lines|
    ensures r.patch.name == p.name && DetailErrors(ctx, r.ctx, p.name)
    ensures FacesValid(p.faces) ==> FacesValid(r.patch.faces)
    decreases |lines| - i
  {
    if i < |lines| && LineAt(lines, i) != "}" then
      match DetailStep(lines, i, p, ctx)
      case Continue(k, q, c) =>
        var r := DetailLoop(lines, k, q, c);
        DetailErrorsTrans(ctx, c, r.ctx, p.name);
        r
      case Break(k, q, c) => Break(k, q, c)
    else Continue(i, p, ctx)
  }

  /** A patch whose type is still `null` or empty fails the source's `!currentPatch.type`. */
  predicate TypeMissing(p: Patch) {
    p.patchType.None? || p.patchType.value == []
  }

  /**
   * The patch that starts with the name line `i` and the `{` line after it: its details,
   * the closing `}`, the missing-type check, and the push. The patch is pushed whatever
   * went wrong inside it.
   */
  function PatchEntry(lines: seq<string>, i: nat, ctx: Ctx): (r: (nat, Ctx))
    requires i + 1 < |lines|
  {
    var name := LineAt(lines, i);
    var d := DetailLoop(lines, i + 2, Patch(name, None, []), ctx);
    var (k, c) :=
      if d.at < |lines| && LineAt(lines, d.at) == "}" then (d.at + 1, d.ctx)
      else (d.at, Log(d.ctx, ExpectedPatchClose(name)));
    var c2 := if TypeMissing(d.patch) then Log(c, MissingType(name)) else c;
    (k, c2.(boundary := c2.boundary + [d.patch]))
  }

  /**
   * Every patch entry pushes exactly one patch, named by its name line, with the faces it
   * kept all valid; a patch without a type is still pushed and reports `MissingType` as its
   * last diagnostic, and one with a type never reports it.
   */
  lemma PatchEntryOutcome(lines: seq<string>, i: nat, ctx: Ctx)
    requires i + 1 < |lines|
    ensures var (k, c) := PatchEntry(lines, i, ctx);
      var d := DetailLoop(lines, i + 2, Patch(LineAt(lines, i), None, []), ctx);
      && i + 2 <= k <= |lines| && OnlyBoundary(ctx, c)
      && c.boundary == ctx.boundary + [d.patch] && d.patch.name == LineAt(lines, i) && FacesValid(d.patch.faces)
      && (TypeMissing(d.patch) ==> LastIs(c.errors, MissingType(LineAt(lines, i))))
      && (!TypeMissing(d.patch) ==> MissingType(LineAt(lines, i)) !in c.errors[|ctx.errors|..])
  {
    var name := LineAt(lines, i);
    var d := DetailLoop(lines, i + 2, Patch(name, None, []), ctx);
    var (k, c) := PatchEntry(lines, i, ctx);
    if !TypeMissing(d.patch) {
      forall j | |ctx.errors| <= j < |c.errors| ensures c.errors[j] != MissingType(name) {
        if j < |d.ctx.errors| {
          assert DetailDiag(d.ctx.errors[j], name);
          assert c.errors[j] == d.ctx.errors[j];
        }
      }
      assert forall x :: x in c.errors[|ctx.errors|..] ==> x != MissingType(name);
    }
  }

  // ----- the list -----

  /**
   * The outer loop of `_parseBoundary` from line `i`. A line that is not a patch name is
   * reported and the recovery helper moves the cursor; when the helper stays put (the next
   * line is a name) the source reads the same line again forever.
   */
  function PatchList(lines: seq<string>, i: nat, ctx: Ctx): (r: Run)
    requires i <= |lines|
    ensures !r.Crash? && OnlyBoundary(ctx, r.ctx) && WellFormedFrom(r.ctx.boundary, |ctx.boundary|)
    ensures r.Next? ==> i <= r.at <= |lines|
    decreases |lines| - i
  {
    if i < |lines| && !Closes(lines, i) then
      var name := LineAt(lines, i);
      if name == [] then PatchList(lines, i + 1, ctx)
      else if !IsIdentLine(name) then
        var c := Log(ctx, ExpectedPatchName(name));
        var j := SkipToNextPotentialPatchNameOrEnd(lines, i);
        LogOnlyBoundary(ctx, ExpectedPatchName(name));
        if j == i then Hang(c)
        else
          var r := PatchList(lines, j, c);
          OnlyBoundaryTrans(ctx, c, r.ctx);
          r
      else if i + 1 == |lines| || LineAt(lines, i + 1) != "{" then
        var c := Log(ctx, ExpectedPatchBrace(name));
        LogOnlyBoundary(ctx, ExpectedPatchBrace(name));
        var r := PatchList(lines, SkipToNextPotentialPatchNameOrEnd(lines, i + 1), c);
        OnlyBoundaryTrans(ctx, c, r.ctx);
        r
      else
        var (k, c) := PatchEntry(lines, i, ctx);
        PatchEntryOutcome(lines, i, ctx);
        var r := PatchList(lines, k, c);
        OnlyBoundaryTrans(ctx, c, r.ctx);
        WellFormedFromTrans(c.boundary, r.ctx.boundary, |ctx.boundary|);
        r
    else if i < |lines| then
      OnlyBoundaryRefl(ctx);
      Next(if i + 1 < |lines| && LineAt(lines, i + 1) == ";" then i + 2 else i + 1, ctx)
    else
      LogOnlyBoundary(ctx, MissingCloseParen(BoundarySection));
      Next(i, Log(ctx, MissingCloseParen(BoundarySection)))
  }

  /** `_parseBoundary` at the keyword line `index`. */
  function ParseBoundary(lines: seq<string>, index: nat, ctx: Ctx): (r: Run)
    requires index < |lines|
    ensures !r.Crash? && OnlyBoundary(ctx, r.ctx) && WellFormedFrom(r.ctx.boundary, |ctx.boundary|)
    ensures r.Next? ==> index < r.at <= |lines|
    ensures index + 1 == |lines| || LineAt(lines, index + 1) != "(" ==>
      r == Next(index + 1, Log(ctx, ExpectedOpenParen(BoundarySection)))
  {
    if index + 1 == |lines| || LineAt(lines, index + 1) != "(" then
      Next(index + 1, Log(ctx, ExpectedOpenParen(BoundarySection)))
    else PatchList(lines, index + 2, ctx)
  }

  // ----- properties -----

  /** A line the outer loop cannot leave: not blank, not a name, not closing, and followed by a name. */
  predicate StuckAt(lines: seq<string>, k: nat)
    requires k < |lines|
  {
    LineAt(lines, k) != [] && !IsIdentLine(LineAt(lines, k)) && !Closes(lines, k) && NameAfter(lines, k)
  }

  /** Reaching a stuck line hangs: the recovery helper returns the index it was given. */
  lemma BoundaryRecoveryHangs(lines: seq<string>, i: nat, ctx: Ctx)
    requires i < |lines| && StuckAt(lines, i)
    ensures SkipToNextPotentialPatchNameOrEnd(lines, i) == i
    ensures PatchList(lines, i, ctx) == Hang(Log(ctx, ExpectedPatchName(LineAt(lines, i))))
  {
  }

  /** The list only hangs at a stuck line at or after its start. */
  lemma {:induction false} BoundaryHangsOnlyWhenStuck(lines: seq<string>, i: nat, ctx: Ctx)
    requires i <= |lines|
    requires PatchList(lines, i, ctx).Hang?
    ensures exists k :: i <= k < |lines| && StuckAt(lines, k)
    decreases |lines| - i
  {
    var name := LineAt(lines, i);
    if name == [] {
      BoundaryHangsOnlyWhenStuck(lines, i + 1, ctx);
    } else if !IsIdentLine(name) {
      var c := Log(ctx, ExpectedPatchName(name));
      var j := SkipToNextPotentialPatchNameOrEnd(lines, i);
      if j == i {
        assert StuckAt(lines, i);
      } else {
        BoundaryHangsOnlyWhenStuck(lines, j, c);
      }
    } else if i + 1 == |lines| || LineAt(lines, i + 1) != "{" {
      var c := Log(ctx, ExpectedPatchBrace(name));
      BoundaryHangsOnlyWhenStuck(lines, SkipToNextPotentialPatchNameOrEnd(lines, i + 1), c);
    } else {
      var (k, c) := PatchEntry(lines, i, ctx);
      PatchEntryOutcome(lines, i, ctx);
      BoundaryHangsOnlyWhenStuck(lines, k, c);
    }
  }

  /**
   * A multi-line face list replaces the faces the patch had, so faces written on an earlier
   * single `faces ((...))` line of the same patch are lost.
   */
  lemma FacesBlockReplaces(lines: seq<string>, i: nat, p: Patch, ctx: Ctx)
    requires i + 1 < |lines| && LineAt(lines, i + 1) == "("
    ensures FacesBlock(lines, i, p, ctx).patch.faces == FaceList(lines, i + 2, p.name, Faces([], ctx)).faces
    ensures |FacesBlock(lines, i, p, ctx).patch.faces| == FaceCount(lines, i + 2)
  {
    FaceListCount(lines, i + 2, p.name, Faces([], ctx));
  }
}

=== FILE: js_number.dfy ===
/**
 * JavaScript numbers as the parser uses them: finite values or NaN, and the three
 * string-to-number conversions `parseFloat`, `Number` and `parseInt`. Finite values are
 * exact reals; infinities and IEEE rounding are outside the model.
 */
module JsNumber {
  import opened Wrappers
  import opened JsText

  /** A JavaScript number: a finite value or NaN. */
  datatype Num = Fin(val: real) | NaN

  /** A value the parser resolves a token to: a number (possibly NaN) or a string. */
  datatype Value = Number(num: Num) | Str(str: string)

  /** JavaScript `*`: NaN is absorbing. */
  function Mul(a: Num, b: Num): (r: Num)
    ensures r.Fin? <==> a.Fin? && b.Fin?
    ensures r.Fin? ==> r.val == a.val * b.val
  {
    if a.Fin? && b.Fin? then Fin(a.val * b.val) else NaN
  }

  predicate IsDigit(c: char) {
    '0' <= c <= '9'
  }

  /** Position of the first non-digit at or after `i`. */
  function DigitEnd(s: string, i: nat): (r: nat)
    requires i <= |s|
    ensures i <= r <= |s|
    ensures forall k :: i <= k < r ==> IsDigit(s[k])
    ensures r < |s| ==> !IsDigit(s[r])
    decreases |s| - i
  {
    if i < |s| && IsDigit(s[i]) then DigitEnd(s, i + 1) else i
  }

  /** The value of a run of decimal digits (0 for the empty run). */
  function DigitsValue(s: string, i: nat, j: nat): nat
    requires i <= j <= |s|
    decreases j - i
  {
    if j == i then 0 else DigitsValue(s, i, j - 1) * 10 + ((s[j - 1] as int - '0' as int) % 10)
  }

  function Pow10(n: nat): (r: nat)
    ensures r >= 1
  {
    if n == 0 then 1 else 10 * Pow10(n - 1)
  }

  // ----- the scanner behind `parseFloat` and `Number` -----

  /** 1 after a leading `+` or `-`, else 0. */
  function SignEnd(s: string): (r: nat)
    ensures r <= 1 && r <= |s|
  {
    if |s| > 0 && (s[0] == '+' || s[0] == '-') then 1 else 0
  }

  /** The end of the integer digits after the sign. */
  function IntEnd(s: string): (r: nat)
    ensures SignEnd(s) <= r <= |s|
  {
    DigitEnd(s, SignEnd(s))
  }

  /** Where the fraction digits start: after a `.` that follows the integer digits. */
  function FracStart(s: string): (r: nat)
    ensures IntEnd(s) <= r <= |s|
  {
    if IntEnd(s) < |s| && s[IntEnd(s)] == '.' then IntEnd(s) + 1 else IntEnd(s)
  }

  function FracEnd(s: string): (r: nat)
    ensures FracStart(s) <= r <= |s|
  {
    if FracStart(s) > IntEnd(s) then DigitEnd(s, FracStart(s)) else IntEnd(s)
  }

  /** Neither integer nor fraction digits: no literal starts here. */
  predicate NoMantissa(s: string) {
    IntEnd(s) == SignEnd(s) && FracEnd(s) == FracStart(s)
  }

  /** An exponent `[eE] [+-]? digits` at `f`: its end and its signed value. */
  function ExponentAt(s: string, f: nat): (r: Option<(nat, int)>)
    requires f <= |s|
    ensures r.Some? ==> f + 2 <= r.value.0 <= |s|
  {
    if f < |s| && (s[f] == 'e' || s[f] == 'E') then
      var digitsStart := if f + 1 < |s| && (s[f + 1] == '+' || s[f + 1] == '-') then f + 2 else f + 1;
      var digitsEnd := DigitEnd(s, digitsStart);
      if digitsEnd > digitsStart then
        var e := DigitsValue(s, digitsStart, digitsEnd) as int;
        Some((digitsEnd, if s[f + 1] == '-' then -e else e))
      else None
    else None
  }

  /**
   * The longest prefix of `s` that is a decimal literal, as its end position and value;
   * None when no digit can start one. `ScanDecimalLongest` relates it to `LiteralPrefix`.
   */
  function ScanDecimal(s: string): (r: Option<(nat, real)>)
    ensures r.Some? ==> 0 < r.value.0 <= |s|
  {
    if NoMantissa(s) then None
    else
      var exponent := ExponentAt(s, FracEnd(s));
      var magnitude := if exponent.Some? then Scale(Mantissa(s), exponent.value.1) else Mantissa(s);
      var end := if exponent.Some? then exponent.value.0 else FracEnd(s);
      Some((end, WithSign(s, magnitude)))
  }

  /** The integer digits plus the fraction digits scaled down by their count. */
  function Mantissa(s: string): real {
    DigitsValue(s, SignEnd(s), IntEnd(s)) as real
      + DigitsValue(s, FracStart(s), FracEnd(s)) as real / Pow10(FracEnd(s) - FracStart(s)) as real
  }

  /** `m` times ten to the power `e`. */
  function Scale(m: real, e: int): real {
    if e < 0 then m / Pow10(-e) as real else m * Pow10(e) as real
  }

  /** The magnitude `m`, negated when `s` starts with `-`. */
  function WithSign(s: string, m: real): real {
    if SignEnd(s) == 1 && s[0] == '-' then -m else m
  }

  /** `parseFloat(s)`: the longest decimal prefix after leading white space, else NaN. */
  function ParseFloat(s: string): (r: Num)
    ensures r.Fin? <==> ScanDecimal(TrimStart(s)).Some?
  {
    match ScanDecimal(TrimStart(s))
    case None => NaN
    case Some((_, v)) => Fin(v)
  }

  /**
   * `Number(s)` on a string: white space alone is 0, otherwise the whole trimmed text must
   * be one decimal literal.
   */
  function StringToNumber(s: string): (r: Num)
    ensures Trim(s) == [] ==> r == Fin(0.0)
    ensures Trim(s) != [] ==> (r.Fin? <==> ScanDecimal(Trim(s)).Some? && ScanDecimal(Trim(s)).value.0 == |Trim(s)|)
  {
    var t := Trim(s);
    if t == [] then Fin(0.0)
    else
      match ScanDecimal(t)
      case Some((end, v)) => if end == |t| then Fin(v) else NaN
      case None => NaN
  }

  /** `Number(v)`: numbers pass through, strings are converted. */
  function ToNumber(v: Value): Num {
    match v
    case Number(n) => n
    case Str(s) => StringToNumber(s)
  }

  // ----- `parseInt` without a radix -----

  predicate IsHexDigit(c: char) {
    IsDigit(c) || 'a' <= c <= 'f' || 'A' <= c <= 'F'
  }

  function HexDigitValue(c: char): (r: nat)
    requires IsHexDigit(c)
    ensures r < 16
  {
    if IsDigit(c) then c as int - '0' as int
    else if 'a' <= c <= 'f' then c as int - 'a' as int + 10
    else c as int - 'A' as int + 10
  }

  /** Position of the first non-hex-digit at or after `i`. */
  function HexDigitEnd(s: string, i: nat): (r: nat)
    requires i <= |s|
    ensures i <= r <= |s|
    ensures forall k :: i <= k < r ==> IsHexDigit(s[k])
    ensures r < |s| ==> !IsHexDigit(s[r])
    decreases |s| - i
  {
    if i < |s| && IsHexDigit(s[i]) then HexDigitEnd(s, i + 1) else i
  }

  function HexDigitsValue(s: string, i: nat, j: nat): nat
    requires i <= j <= |s|
    requires forall k :: i <= k < j ==> IsHexDigit(s[k])
    decreases j - i
  {
    if j == i then 0 else HexDigitsValue(s, i, j - 1) * 16 + HexDigitValue(s[j - 1])
  }

  /** After the sign, a `0x` or `0X` prefix switches `parseInt` to base 16. */
  predicate HexPrefix(t: string) {
    var d := SignEnd(t);
    d + 1 < |t| && t[d] == '0' && (t[d + 1] == 'x' || t[d + 1] == 'X')
  }

  /**
   * `parseInt(s)` with no radix: leading white space, an optional sign, then base 16 after
   * a `0x`/`0X` prefix and base 10 otherwise, reading the longest run of digits of that
   * base. None (NaN) when the run is empty.
   */
  function ParseInt(s: string): (r: Option<int>)
    ensures var t := TrimStart(s);
      var start := if HexPrefix(t) then SignEnd(t) + 2 else SignEnd(t);
      r.Some? <==> start < |t| && (if HexPrefix(t) then IsHexDigit(t[start]) else IsDigit(t[start]))
  {
    SignedInt(TrimStart(s))
  }

  /** `parseInt` once the leading white space is gone: the sign, the base, the digits. */
  function SignedInt(t: string): (r: Option<int>)
    ensures var start := if HexPrefix(t) then SignEnd(t) + 2 else SignEnd(t);
      r.Some? <==> start < |t| && (if HexPrefix(t) then IsHexDigit(t[start]) else IsDigit(t[start]))
  {
    var signEnd := SignEnd(t);
    var negative := signEnd == 1 && t[0] == '-';
    if HexPrefix(t) then
      var end := HexDigitEnd(t, signEnd + 2);
      if end == signEnd + 2 then None
      else
        var n: int := HexDigitsValue(t, signEnd + 2, end);
        Some(if negative then -n else n)
    else
      var end := DigitEnd(t, signEnd);
      if end == signEnd then None
      else
        var n: int := DigitsValue(t, signEnd, end);
        Some(if negative then -n else n)
  }

  // ----- decimal literals, described independently of the scanner -----

  /**
   * The states of a recogniser for the decimal literals `parseFloat` and `Number` read:
   * `[+-]? (digits ('.' digits?)? | '.' digits) ([eE] [+-]? digits)?`.
   */
  datatype LitState = Start | Signed | IntDigits | IntDot | BareDot | FracDigits | ExpMark | ExpSigned | ExpDigits | Dead

  function Step(q: LitState, c: char): LitState {
    match q
    case Start => if c == '+' || c == '-' then Signed else if IsDigit(c) then IntDigits else if c == '.' then BareDot else Dead
    case Signed => if IsDigit(c) then IntDigits else if c == '.' then BareDot else Dead
    case IntDigits => if IsDigit(c) then IntDigits else if c == '.' then IntDot else if c == 'e' || c == 'E' then ExpMark else Dead
    case IntDot => if IsDigit(c) then FracDigits else if c == 'e' || c == 'E' then ExpMark else Dead
    case BareDot => if IsDigit(c) then FracDigits else Dead
    case FracDigits => if IsDigit(c) then FracDigits else if c == 'e' || c == 'E' then ExpMark else Dead
    case ExpMark => if c == '+' || c == '-' then ExpSigned else if IsDigit(c) then ExpDigits else Dead
    case ExpSigned => if IsDigit(c) then ExpDigits else Dead
    case ExpDigits => if IsDigit(c) then ExpDigits else Dead
    case Dead => Dead
  }

  /** The states in which the text read so far is a complete literal. */
  predicate Final(q: LitState) {
    q == IntDigits || q == IntDot || q == FracDigits || q == ExpDigits
  }

  /** The recogniser's state after the first `j` characters of `s`. */
  function StateAfter(s: string, j: nat): LitState
    requires j <= |s|
  {
    if j == 0 then Start else Step(StateAfter(s, j - 1), s[j - 1])
  }

  /** The first `j` characters of `s` form a decimal literal. */
  predicate LiteralPrefix(s: string, j: nat)
    requires j <= |s|
  {
    Final(StateAfter(s, j))
  }

  lemma {:induction false} DeadStays(s: string, i: nat)
    requires i <= |s| && StateAfter(s, i) == Dead
    ensures forall j :: i <= j <= |s| ==> StateAfter(s, j) == Dead
    decreases |s| - i
  {
    if i < |s| {
      DeadStays(s, i + 1);
    }
  }

  /** A run of digits keeps the recogniser in a digit state. */
  lemma {:induction false} DigitsStay(s: string, i: nat, j: nat, q: LitState)
    requires i <= j <= |s| && (q == IntDigits || q == FracDigits || q == ExpDigits)
    requires StateAfter(s, i) == q
    requires forall k :: i <= k < j ==> IsDigit(s[k])
    ensures forall k :: i <= k <= j ==> StateAfter(s, k) == q
    decreases j - i
  {
    if i < j {
      DigitsStay(s, i + 1, j, q);
    }
  }

  /** Without integer or fraction digits, no prefix is a literal. */
  lemma NoMantissaRejected(s: string)
    requires NoMantissa(s)
    ensures forall j :: 0 <= j <= |s| ==> !LiteralPrefix(s, j)
  {
    var e := SignEnd(s);
    assert StateAfter(s, e) == Start || StateAfter(s, e) == Signed;
    if e < |s| {
      if s[e] == '.' {
        assert StateAfter(s, e + 1) == BareDot;
        if e + 1 < |s| {
          assert StateAfter(s, e + 2) == Dead;
          DeadStays(s, e + 2);
        }
      } else {
        assert StateAfter(s, e + 1) == Dead;
        DeadStays(s, e + 1);
      }
    }
  }

  /** With digits, the recogniser accepts at `FracEnd`, and the next character decides. */
  lemma MantissaStates(s: string)
    requires !NoMantissa(s)
    ensures LiteralPrefix(s, FracEnd(s))
    ensures FracEnd(s) < |s| ==>
      StateAfter(s, FracEnd(s) + 1) == if s[FracEnd(s)] == 'e' || s[FracEnd(s)] == 'E' then ExpMark else Dead
  {
    var e, i, f, g := SignEnd(s), IntEnd(s), FracStart(s), FracEnd(s);
    assert StateAfter(s, e) == Start || StateAfter(s, e) == Signed;
    if i > e {
      assert StateAfter(s, e + 1) == IntDigits;
      DigitsStay(s, e + 1, i, IntDigits);
      if f > i {
        assert StateAfter(s, f) == IntDot;
        if g > f {
          assert StateAfter(s, f + 1) == FracDigits;
          DigitsStay(s, f + 1, g, FracDigits);
        }
      }
    } else {
      assert StateAfter(s, e + 1) == BareDot;
      assert StateAfter(s, f + 1) == FracDigits;
      DigitsStay(s, f + 1, g, FracDigits);
    }
  }

  /** The exponent, if any, extends the literal to its end; nothing after that is one. */
  lemma ExponentStates(s: string, g: nat)
    requires g <= |s| && LiteralPrefix(s, g)
    requires g < |s| ==> StateAfter(s, g + 1) == if s[g] == 'e' || s[g] == 'E' then ExpMark else Dead
    ensures var x := ExponentAt(s, g);
      var end := if x.Some? then x.value.0 else g;
      LiteralPrefix(s, end) && forall j :: end < j <= |s| ==> !LiteralPrefix(s, j)
  {
    if g < |s| {
      if s[g] == 'e' || s[g] == 'E' {
        ExponentMarkStates(s, g);
      } else {
        DeadStays(s, g + 1);
      }
    }
  }

  /** After an exponent mark, the literal ends with the exponent digits, or at the mark when there are none. */
  lemma ExponentMarkStates(s: string, g: nat)
    requires g < |s| && (s[g] == 'e' || s[g] == 'E') && LiteralPrefix(s, g) && StateAfter(s, g + 1) == ExpMark
    ensures var x := ExponentAt(s, g);
      var end := if x.Some? then x.value.0 else g;
      LiteralPrefix(s, end) && forall j :: end < j <= |s| ==> !LiteralPrefix(s, j)
  {
    var ds := if g + 1 < |s| && (s[g + 1] == '+' || s[g + 1] == '-') then g + 2 else g + 1;
    var de := DigitEnd(s, ds);
    assert ds == g + 2 ==> StateAfter(s, ds) == ExpSigned;
    if de > ds {
      assert StateAfter(s, ds + 1) == ExpDigits;
      DigitsStay(s, ds + 1, de, ExpDigits);
      if de < |s| {
        assert StateAfter(s, de + 1) == Dead;
        DeadStays(s, de + 1);
      }
    } else if ds < |s| {
      assert StateAfter(s, ds + 1) == Dead;
      DeadStays(s, ds + 1);
    }
  }

  /**
   * The scanner finds the longest literal prefix: it ends where the recogniser last
   * accepts, and it finds none exactly when no prefix is a literal.
   */
  lemma ScanDecimalLongest(s: string)
    ensures ScanDecimal(s).Some? ==>
      var end := ScanDecimal(s).value.0;
      LiteralPrefix(s, end) && forall j :: end < j <= |s| ==> !LiteralPrefix(s, j)
    ensures ScanDecimal(s).None? <==> forall j :: 0 <= j <= |s| ==> !LiteralPrefix(s, j)
  {
    if NoMantissa(s) {
      NoMantissaRejected(s);
    } else {
      MantissaStates(s);
      ExponentStates(s, FracEnd(s));
    }
  }

  /** `parseFloat` gives a number exactly when some prefix of the text after its white space is a literal. */
  lemma ParseFloatAccepts(s: string)
    ensures ParseFloat(s).Fin? <==> exists j :: 0 <= j <= |TrimStart(s)| && LiteralPrefix(TrimStart(s), j)
  {
    ScanDecimalLongest(TrimStart(s));
  }

  /** `Number` of non-blank text gives a number exactly when the whole trimmed text is a literal. */
  lemma StringToNumberAccepts(s: string)
    requires Trim(s) != []
    ensures StringToNumber(s).Fin? <==> LiteralPrefix(Trim(s), |Trim(s)|)
  {
    ScanDecimalLongest(Trim(s));
  }

  // ----- values, against an independent printer -----

  function DigitChar(d: nat): (c: char)
    requires d < 10
    ensures IsDigit(c)
  {
    ('0' as int + d) as char
  }

  /** The decimal numeral of `n`, most significant digit first. */
  function NatText(n: nat): (r: string)
    ensures |r| >= 1
    decreases n
  {
    if n < 10 then [DigitChar(n)] else NatText(n / 10) + [DigitChar(n % 10)]
  }

  lemma {:induction false} DigitsValueAppend(s: string, t: string, i: nat, j: nat)
    requires i <= j <= |s|
    ensures DigitsValue(s + t, i, j) == DigitsValue(s, i, j)
    decreases j - i
  {
    if i < j {
      DigitsValueAppend(s, t, i, j - 1);
      assert (s + t)[j - 1] == s[j - 1];
    }
  }

  lemma {:induction false} DigitsValueShift(p: string, s: string, i: nat, j: nat)
    requires i <= j <= |s|
    ensures DigitsValue(p + s, |p| + i, |p| + j) == DigitsValue(s, i, j)
    decreases j - i
  {
    if i < j {
      DigitsValueShift(p, s, i, j - 1);
      assert (p + s)[|p| + j - 1] == s[j - 1];
    }
  }

  /** A numeral is all digits, and the digits read back as the number printed. */
  lemma {:induction false} NatTextValue(n: nat)
    ensures forall k :: 0 <= k < |NatText(n)| ==> IsDigit(NatText(n)[k])
    ensures DigitsValue(NatText(n), 0, |NatText(n)|) == n
    decreases n
  {
    if n >= 10 {
      NatTextValue(n / 10);
      var p := NatText(n / 10);
      AppendDigit(p, n % 10);
      forall k | 0 <= k < |NatText(n)| ensures IsDigit(NatText(n)[k]) {
        if k < |p| { assert NatText(n)[k] == p[k]; }
      }
    }
  }

  /** Appending a digit multiplies the value read so far by ten and adds the digit. */
  lemma AppendDigit(p: string, d: nat)
    requires d < 10
    ensures DigitsValue(p + [DigitChar(d)], 0, |p| + 1) == DigitsValue(p, 0, |p|) * 10 + d
  {
    DigitsValueAppend(p, [DigitChar(d)], 0, |p|);
    assert (p + [DigitChar(d)])[|p|] == DigitChar(d);
  }

  lemma {:induction false} DigitEndAt(s: string, i: nat, j: nat)
    requires i <= j <= |s|
    requires forall k :: i <= k < j ==> IsDigit(s[k])
    requires j < |s| ==> !IsDigit(s[j])
    ensures DigitEnd(s, i) == j
    decreases j - i
  {
    if i < j {
      DigitEndAt(s, i + 1, j);
    }
  }

  /** A numeral sits at `i` in `s`, followed by a non-digit or the end. */
  lemma NumeralAt(s: string, n: nat, i: nat)
    requires i + |NatText(n)| <= |s| && s[i..i + |NatText(n)|] == NatText(n)
    requires i + |NatText(n)| < |s| ==> !IsDigit(s[i + |NatText(n)|])
    ensures DigitEnd(s, i) == i + |NatText(n)|
    ensures DigitsValue(s, i, i + |NatText(n)|) == n
  {
    NatTextValue(n);
    SliceValue(s, NatText(n), i);
    SliceDigitEnd(s, NatText(n), i);
  }

  /** Digits copied into `s` at `i` keep their value. */
  lemma SliceValue(s: string, t: string, i: nat)
    requires i + |t| <= |s| && s[i..i + |t|] == t
    ensures DigitsValue(s, i, i + |t|) == DigitsValue(t, 0, |t|)
  {
    var j := i + |t|;
    assert s == s[..i] + t + s[j..];
    DigitsValueAppend(s[..i] + t, s[j..], i, j);
    DigitsValueShift(s[..i], t, 0, |t|);
  }

  /** A run of digits copied into `s` at `i`, with no digit after it, is where the digit run ends. */
  lemma SliceDigitEnd(s: string, t: string, i: nat)
    requires i + |t| <= |s| && s[i..i + |t|] == t
    requires forall k :: 0 <= k < |t| ==> IsDigit(t[k])
    requires i + |t| < |s| ==> !IsDigit(s[i + |t|])
    ensures DigitEnd(s, i) == i + |t|
  {
    forall k | i <= k < i + |t| ensures IsDigit(s[k]) {
      assert s[k] == t[k - i];
    }
    DigitEndAt(s, i, i + |t|);
  }

  /** Integer digits with no `.` or exponent mark after them. */
  lemma ScanInteger(s: string)
    requires IntEnd(s) > SignEnd(s)
    requires IntEnd(s) < |s| ==> !(s[IntEnd(s)] == '.' || s[IntEnd(s)] == 'e' || s[IntEnd(s)] == 'E')
    ensures ScanDecimal(s) == Some((IntEnd(s), WithSign(s, DigitsValue(s, SignEnd(s), IntEnd(s)) as real)))
  {
    assert FracStart(s) == IntEnd(s) && FracEnd(s) == IntEnd(s);
    assert ExponentAt(s, IntEnd(s)).None?;
    assert Mantissa(s) == DigitsValue(s, SignEnd(s), IntEnd(s)) as real;
  }

  /** Integer digits, a `.` and fraction digits that run to the end. */
  lemma ScanFraction(s: string, a: nat, b: nat, k: nat)
    requires SignEnd(s) == 0 && IntEnd(s) > 0 && IntEnd(s) < |s| && s[IntEnd(s)] == '.'
    requires FracEnd(s) == |s| && |s| - IntEnd(s) - 1 == k
    requires DigitsValue(s, 0, IntEnd(s)) == a && DigitsValue(s, IntEnd(s) + 1, |s|) == b
    ensures ScanDecimal(s) == Some((|s|, a as real + b as real / Pow10(k) as real))
  {
    assert FracStart(s) == IntEnd(s) + 1;
    assert Mantissa(s) == a as real + b as real / Pow10(k) as real;
  }

  /** Integer digits, then an exponent that runs to the end. */
  lemma ScanExponent(s: string, e: int)
    requires IntEnd(s) > SignEnd(s) && IntEnd(s) < |s| && s[IntEnd(s)] != '.'
    requires ExponentAt(s, IntEnd(s)) == Some((|s|, e))
    ensures ScanDecimal(s) == Some((|s|, WithSign(s, Scale(DigitsValue(s, SignEnd(s), IntEnd(s)) as real, e))))
  {
    assert FracStart(s) == IntEnd(s) && FracEnd(s) == IntEnd(s);
    assert Mantissa(s) == DigitsValue(s, SignEnd(s), IntEnd(s)) as real;
  }

  /** A literal that fills a text with no white space at either end is what both conversions read. */
  lemma WholeLiteral(s: string, v: real)
    requires s != [] && !IsSpace(s[0]) && !IsSpace(s[|s| - 1])
    requires ScanDecimal(s) == Some((|s|, v))
    ensures ParseFloat(s) == Fin(v) && StringToNumber(s) == Fin(v)
  {
    TrimStartOfUnspaced(s);
    TrimOfTrimmed(s);
  }

  /** A text starting with something other than white space is its own `TrimStart`. */
  lemma TrimStartOfUnspaced(s: string)
    requires s != [] && !IsSpace(s[0])
    ensures TrimStart(s) == s
  {
    assert SpaceEnd(s, 0) == 0;
  }

  /** A numeral that runs from `i` to the end of `s`. */
  lemma NumeralTail(s: string, n: nat, i: nat)
    requires i <= |s| && s[i..] == NatText(n)
    ensures i < |s| && IsDigit(s[i]) && IsDigit(s[|s| - 1])
    ensures DigitEnd(s, i) == |s| && DigitsValue(s, i, |s|) == n
  {
    assert s[i..i + |NatText(n)|] == NatText(n);
    NumeralAt(s, n, i);
    NatTextValue(n);
    assert s[i] == NatText(n)[0];
    assert s[|s| - 1] == NatText(n)[|NatText(n)| - 1];
  }

  /** A numeral that runs from `i` up to `j`, where something else follows. */
  lemma NumeralBefore(s: string, n: nat, i: nat, j: nat)
    requires i <= j < |s| && s[i..j] == NatText(n) && !IsDigit(s[j])
    ensures IsDigit(s[i]) && DigitEnd(s, i) == j && DigitsValue(s, i, j) == n
  {
    NumeralAt(s, n, i);
    NatTextValue(n);
    assert s[i] == NatText(n)[0];
  }

  /** The numeral of `n`, followed by anything that cannot continue a literal, reads as `n` under `parseFloat`. */
  lemma NatLiteral(n: nat, t: string)
    requires t == [] || !(IsDigit(t[0]) || t[0] == '.' || t[0] == 'e' || t[0] == 'E')
    ensures ParseFloat(NatText(n) + t) == Fin(n as real)
  {
    var s := NatText(n) + t;
    var l := |NatText(n)|;
    if t == [] {
      assert s[0..] == NatText(n);
      NumeralTail(s, n, 0);
    } else {
      assert s[0..l] == NatText(n) && s[l] == t[0];
      NumeralBefore(s, n, 0, l);
    }
    assert SignEnd(s) == 0;
    ScanInteger(s);
    TrimStartOfUnspaced(s);
  }

  /** An optional sign, then a numeral filling the rest of `s`. */
  lemma SignedNumeral(s: string, n: nat)
    requires SignEnd(s) <= |s| && s[SignEnd(s)..] == NatText(n)
    ensures ParseFloat(s) == Fin(WithSign(s, n as real)) && StringToNumber(s) == Fin(WithSign(s, n as real))
  {
    NumeralTail(s, n, SignEnd(s));
    ScanInteger(s);
    WholeLiteral(s, WithSign(s, n as real));
  }

  /** `Number` and `parseFloat` of a numeral, with or without a minus sign, are the number printed. */
  lemma NatNumber(n: nat, negative: bool)
    ensures var s := (if negative then "-" else "") + NatText(n);
      var v := if negative then -(n as real) else n as real;
      ParseFloat(s) == Fin(v) && StringToNumber(s) == Fin(v)
  {
    var s := (if negative then "-" else "") + NatText(n);
    if negative {
      assert SignEnd(s) == 1 && s[1..] == NatText(n);
    } else {
      assert s == NatText(n);
      NumeralTail(s, n, 0);
      assert SignEnd(s) == 0 && s[0..] == NatText(n);
    }
    SignedNumeral(s, n);
  }

  /** Digits, a `.` at `p`, and digits to the end of `s`. */
  lemma FractionScan(s: string, a: nat, b: nat, p: nat)
    requires p < |s| && s[..p] == NatText(a) && s[p] == '.' && s[p + 1..] == NatText(b)
    ensures ScanDecimal(s) == Some((|s|, a as real + b as real / Pow10(|NatText(b)|) as real))
  {
    assert s[0..p] == NatText(a);
    NumeralBefore(s, a, 0, p);
    NumeralTail(s, b, p + 1);
    assert SignEnd(s) == 0 && IntEnd(s) == p;
    assert FracStart(s) == p + 1 && FracEnd(s) == |s|;
    ScanFraction(s, a, b, |NatText(b)|);
  }

  /** A text that starts and ends with numerals has no white space at either end. */
  lemma NumeralEnds(s: string, a: nat, b: nat, p: nat, q: nat)
    requires p <= q <= |s| && s[..p] == NatText(a) && s[q..] == NatText(b)
    ensures s != [] && !IsSpace(s[0]) && !IsSpace(s[|s| - 1])
  {
    NatTextValue(a);
    NatTextValue(b);
    assert s[0] == NatText(a)[0];
    assert s[|s| - 1] == NatText(b)[|NatText(b)| - 1];
  }

  /** `a.b` reads as `a` plus `b` shifted right by the length of its numeral. */
  lemma FractionLiteral(a: nat, b: nat)
    ensures var s := NatText(a) + "." + NatText(b);
      var v := Fin(a as real + b as real / Pow10(|NatText(b)|) as real);
      ParseFloat(s) == v && StringToNumber(s) == v
  {
    FractionParts(NatText(a) + "." + NatText(b), a, b);
  }

  lemma FractionParts(s: string, a: nat, b: nat)
    requires s == NatText(a) + "." + NatText(b)
    ensures var v := a as real + b as real / Pow10(|NatText(b)|) as real;
      ParseFloat(s) == Fin(v) && StringToNumber(s) == Fin(v)
  {
    FractionShape(s, a, b);
    WholeLiteral(s, a as real + b as real / Pow10(|NatText(b)|) as real);
  }

  lemma FractionShape(s: string, a: nat, b: nat)
    requires s == NatText(a) + "." + NatText(b)
    ensures s != [] && !IsSpace(s[0]) && !IsSpace(s[|s| - 1])
    ensures ScanDecimal(s) == Some((|s|, a as real + b as real / Pow10(|NatText(b)|) as real))
  {
    var p := |NatText(a)|;
    SplitAround(s, NatText(a), '.', NatText(b));
    FractionScan(s, a, b, p);
    NumeralEnds(s, a, b, p, p + 1);
  }

  /** The three parts of `x`, a separator `c` and `y`, found again by slicing. */
  lemma SplitAround(s: string, x: string, c: char, y: string)
    requires s == x + [c] + y
    ensures s[..|x|] == x && s[|x|] == c && s[|x| + 1..] == y
  {
  }

  /** Digits, an `e` at `p`, an optional `-`, and digits to the end of `s`. */
  lemma ExponentScan(s: string, m: nat, x: nat, p: nat, negative: bool)
    requires p < |s| && s[..p] == NatText(m) && s[p] == 'e'
    requires negative ==> p + 1 < |s| && s[p + 1] == '-' && s[p + 2..] == NatText(x)
    requires !negative ==> s[p + 1..] == NatText(x)
    ensures ScanDecimal(s) == Some((|s|, Scale(m as real, if negative then -(x as int) else x as int)))
  {
    var e := if negative then -(x as int) else x as int;
    var ds := if negative then p + 2 else p + 1;
    assert s[0..p] == NatText(m);
    NumeralBefore(s, m, 0, p);
    NumeralTail(s, x, ds);
    assert SignEnd(s) == 0 && IntEnd(s) == p;
    assert ExponentAt(s, p) == Some((|s|, e));
    ScanExponent(s, e);
  }

  /** `m e x` reads as `m` times ten to the `x`, and `m e-x` as `m` divided by it. */
  lemma ExponentLiteral(m: nat, x: nat)
    ensures ParseFloat(NatText(m) + "e" + NatText(x)) == Fin(Scale(m as real, x))
    ensures StringToNumber(NatText(m) + "e" + NatText(x)) == Fin(Scale(m as real, x))
    ensures ParseFloat(NatText(m) + "e-" + NatText(x)) == Fin(Scale(m as real, -(x as int)))
    ensures StringToNumber(NatText(m) + "e-" + NatText(x)) == Fin(Scale(m as real, -(x as int)))
  {
    ExponentParts(NatText(m) + "e" + NatText(x), m, x, false);
    ExponentParts(NatText(m) + "e-" + NatText(x), m, x, true);
  }

  lemma ExponentParts(s: string, m: nat, x: nat, negative: bool)
    requires s == NatText(m) + (if negative then "e-" else "e") + NatText(x)
    ensures var v := Scale(m as real, if negative then -(x as int) else x as int);
      ParseFloat(s) == Fin(v) && StringToNumber(s) == Fin(v)
  {
    var p := |NatText(m)|;
    assert s[..p] == NatText(m) && s[p] == 'e';
    if negative {
      assert s[p + 1] == '-' && s[p + 2..] == NatText(x);
    } else {
      assert s[p + 1..] == NatText(x);
    }
    ExponentScan(s, m, x, p, negative);
    NumeralEnds(s, m, x, p, if negative then p + 2 else p + 1);
    WholeLiteral(s, Scale(m as real, if negative then -(x as int) else x as int));
  }

  /** A negative exponent divides: the `e-0` case is the only one where `Scale` multiplies instead. */
  lemma ScaleNegated(m: real, x: nat)
    ensures Scale(m, -(x as int)) == m / Pow10(x) as real
  {
    if x == 0 {
      assert Pow10(0) == 1;
    }
  }

  /** An optional sign, then decimal digits worth `n` ending at `j`, and no `0x` prefix. */
  lemma ParseIntText(s: string, n: nat, j: nat)
    requires TrimStart(s) == s && !HexPrefix(s)
    requires SignEnd(s) < j && DigitEnd(s, SignEnd(s)) == j && DigitsValue(s, SignEnd(s), j) == n
    ensures ParseInt(s) == Some(if SignEnd(s) == 1 && s[0] == '-' then -(n as int) else n)
  {
    SignedDecimal(s, n, j);
    ParseIntTrimmed(s);
  }

  /** A numeral after the sign, followed by anything but a digit or `x`. */
  lemma DecimalText(s: string, n: nat, j: nat)
    requires SignEnd(s) <= j <= |s| && s[SignEnd(s)..j] == NatText(n)
    requires j < |s| ==> !IsDigit(s[j]) && (n == 0 ==> s[j] != 'x' && s[j] != 'X')
    ensures TrimStart(s) == s && !HexPrefix(s)
    ensures DigitEnd(s, SignEnd(s)) == j && DigitsValue(s, SignEnd(s), j) == n
  {
    var d := SignEnd(s);
    NumeralAt(s, n, d);
    NatTextValue(n);
    assert TrimStart(s) == s by {
      assert s[d] == NatText(n)[0];
      TrimStartOfUnspaced(s);
    }
    assert !HexPrefix(s) by {
      if n != 0 {
        NatTextLead(n);
      }
    }
  }

  /** The numeral of a positive number does not start with `0`. */
  lemma {:induction false} NatTextLead(n: nat)
    requires n > 0
    ensures NatText(n)[0] != '0'
    decreases n
  {
    if n >= 10 {
      NatTextLead(n / 10);
    }
  }

  /** Base 10: no `0x` prefix and digits after the sign. */
  lemma SignedDecimal(t: string, n: nat, j: nat)
    requires !HexPrefix(t) && SignEnd(t) < j && DigitEnd(t, SignEnd(t)) == j && DigitsValue(t, SignEnd(t), j) == n
    ensures SignedInt(t) == Some(if SignEnd(t) == 1 && t[0] == '-' then -(n as int) else n)
  {
  }

  /** Base 16: a `0x` prefix and hex digits after it. */
  lemma SignedHex(t: string)
    requires HexPrefix(t) && HexDigitEnd(t, SignEnd(t) + 2) > SignEnd(t) + 2
    ensures var n: int := HexDigitsValue(t, SignEnd(t) + 2, HexDigitEnd(t, SignEnd(t) + 2));
      SignedInt(t) == Some(if SignEnd(t) == 1 && t[0] == '-' then -n else n)
  {
  }

  /** Text without leading white space goes straight to the sign and digit reader. */
  lemma ParseIntTrimmed(s: string)
    requires TrimStart(s) == s
    ensures ParseInt(s) == SignedInt(s)
  {
  }

  /** A `0x` prefix with no hex digit after it. */
  lemma SignedBareHex(t: string)
    requires HexPrefix(t) && HexDigitEnd(t, SignEnd(t) + 2) == SignEnd(t) + 2
    ensures SignedInt(t) == None
  {
  }

  /**
   * The decimal numeral of `n`, followed by anything but a digit (and, after `0`, anything
   * but `x`), reads as `n` under `parseInt`.
   */
  lemma ParseIntOfNumeral(n: nat, t: string, negative: bool)
    requires t == [] || (!IsDigit(t[0]) && (n == 0 ==> t[0] != 'x' && t[0] != 'X'))
    ensures ParseInt((if negative then "-" else "") + NatText(n) + t) == Some(if negative then -(n as int) else n)
  {
    var sign := if negative then "-" else "";
    var s := sign + NatText(n) + t;
    var j := |sign| + |NatText(n)|;
    assert s[|sign|..j] == NatText(n);
    assert j < |s| ==> s[j] == t[0];
    if !negative {
      assert s[0] == NatText(n)[0];
      NatTextValue(n);
    }
    assert SignEnd(s) == |sign|;
    DecimalText(s, n, j);
    NatTextValue(n);
    ParseIntText(s, n, j);
  }

  /** The `0x` prefix switches to base 16: `parseInt("0x1A")` is 26. */
  lemma ParseIntHex()
    ensures ParseInt("0x1A") == Some(26)
    ensures ParseInt("-0X1a") == Some(-26)
  {
    HexLiteral("0x1A", 2);
    HexLiteral("-0X1a", 3);
  }

  /** A sign and `0x` followed by the two hex digits `1` and `a` or `A`. */
  lemma HexLiteral(t: string, i: nat)
    requires (t == "0x1A" && i == 2) || (t == "-0X1a" && i == 3)
    ensures ParseInt(t) == Some(if i == 3 then -26 else 26)
  {
    HexText(t, i);
    SignedHex(t);
    ParseIntTrimmed(t);
  }

  lemma HexText(t: string, i: nat)
    requires i + 2 == |t| && SignEnd(t) + 2 == i && !IsSpace(t[0])
    requires t[i - 2] == '0' && (t[i - 1] == 'x' || t[i - 1] == 'X')
    requires t[i] == '1' && (t[i + 1] == 'a' || t[i + 1] == 'A')
    ensures TrimStart(t) == t && HexPrefix(t)
    ensures HexDigitEnd(t, i) == |t| && HexDigitsValue(t, i, |t|) == 26
  {
    TrimStartOfUnspaced(t);
    TwoHexDigits(t, i);
  }

  lemma TwoHexDigits(t: string, i: nat)
    requires i + 2 == |t| && IsHexDigit(t[i]) && IsHexDigit(t[i + 1])
    ensures HexDigitEnd(t, i) == |t|
    ensures HexDigitsValue(t, i, |t|) == HexDigitValue(t[i]) * 16 + HexDigitValue(t[i + 1])
  {
    assert HexDigitEnd(t, i + 2) == i + 2;
    assert HexDigitsValue(t, i, i) == 0;
  }

  /** A `0x` prefix without hex digits after it is NaN, although `0` alone would be a number. */
  lemma ParseIntBareHexPrefix(t: string)
    requires t == [] || !IsHexDigit(t[0])
    ensures ParseInt("0x" + t) == None
  {
    BareHexText(t);
    SignedBareHex("0x" + t);
    ParseIntTrimmed("0x" + t);
  }

  lemma BareHexText(t: string)
    requires t == [] || !IsHexDigit(t[0])
    ensures var s := "0x" + t;
      TrimStart(s) == s && SignEnd(s) == 0 && HexPrefix(s) && HexDigitEnd(s, 2) == 2
  {
    var s := "0x" + t;
    TrimStartOfUnspaced(s);
    assert 2 < |s| ==> s[2] == t[0];
  }
}

=== FILE: js_text.dfy ===
/**
 * The JavaScript string primitives the parser leans on: the white-space class shared by
 * `String.prototype.trim` and the regular-expression escape `\s`, and the methods `trim`,
 * `startsWith`, `includes`, `indexOf`, `replace` of a single character, `split` on a
 * character and `split(/\s+/)`. Strings are sequences of characters; UTF-16 surrogates
 * play no part in any of these operations on the inputs the parser sees.
 */
module JsText {
  import opened Wrappers

  /** White space and line terminators, as `trim` and `\s` understand them. */
  predicate IsSpace(c: char) {
    || c == ' ' || c == '\t' || c == '\n' || c == '\r' || c == '\U{B}' || c == '\U{C}'
    || c == '\U{A0}' || c == '\U{FEFF}' || c == '\U{1680}'
    || ('\U{2000}' <= c <= '\U{200A}')
    || c == '\U{2028}' || c == '\U{2029}' || c == '\U{202F}' || c == '\U{205F}' || c == '\U{3000}'
  }

  /** The characters the regular-expression wildcard `.` refuses to match. */
  predicate IsLineTerminator(c: char) {
    c == '\n' || c == '\r' || c == '\U{2028}' || c == '\U{2029}'
  }

  /** The class `[a-zA-Z0-9_]`. */
  predicate IsWordChar(c: char) {
    ('a' <= c <= 'z') || ('A' <= c <= 'Z') || ('0' <= c <= '9') || c == '_'
  }

  /** The class `[a-zA-Z_]` that may start an identifier. */
  predicate IsIdentStart(c: char) {
    ('a' <= c <= 'z') || ('A' <= c <= 'Z') || c == '_'
  }

  predicate NoSpace(s: string) {
    forall i :: 0 <= i < |s| ==> !IsSpace(s[i])
  }

  predicate AllSpace(s: string) {
    forall i :: 0 <= i < |s| ==> IsSpace(s[i])
  }

  /** Every character of `s` from position `i` up to `j` is white space. */
  predicate SpacesIn(s: string, i: nat, j: nat)
    requires i <= j <= |s|
  {
    forall k :: i <= k < j ==> IsSpace(s[k])
  }

  /** Neither end of `s` is white space. */
  predicate IsTrimmed(s: string) {
    s == [] || (!IsSpace(s[0]) && !IsSpace(s[|s| - 1]))
  }

  predicate StartsWith(s: string, prefix: string) {
    |prefix| <= |s| && s[..|prefix|] == prefix
  }

  /** The regular expression `/^[a-zA-Z0-9_]+$/`: a bare patch name. */
  predicate IsIdentLine(s: string) {
    |s| > 0 && forall i :: 0 <= i < |s| ==> IsWordChar(s[i])
  }

  /** Position of the first non-space character at or after `i`. */
  function SpaceEnd(s: string, i: nat): (r: nat)
    requires i <= |s|
    ensures i <= r <= |s|
    ensures SpacesIn(s, i, r)
    ensures r < |s| ==> !IsSpace(s[r])
    decreases |s| - i
  {
    if i < |s| && IsSpace(s[i]) then SpaceEnd(s, i + 1) else i
  }

  /** Skipping white space from `i` stops at the latest at a non-space character `j`. */
  lemma {:induction false} SpaceEndStops(s: string, i: nat, j: nat)
    requires i <= j < |s| && !IsSpace(s[j])
    ensures SpaceEnd(s, i) <= j
    decreases j - i
  {
    if i < j && IsSpace(s[i]) {
      SpaceEndStops(s, i + 1, j);
    }
  }

  /** Position of the first space character at or after `i`. */
  function WordEnd(s: string, i: nat): (r: nat)
    requires i <= |s|
    ensures i <= r <= |s|
    ensures forall k :: i <= k < r ==> !IsSpace(s[k])
    ensures r < |s| ==> IsSpace(s[r])
    decreases |s| - i
  {
    if i < |s| && !IsSpace(s[i]) then WordEnd(s, i + 1) else i
  }

  /** Length of `s` once trailing white space is cut off. */
  function SpaceStartBack(s: string, j: nat): (r: nat)
    requires j <= |s|
    ensures r <= j
    ensures SpacesIn(s, r, j)
    ensures r > 0 ==> !IsSpace(s[r - 1])
    decreases j
  {
    if j > 0 && IsSpace(s[j - 1]) then SpaceStartBack(s, j - 1) else j
  }

  /** `s.trimStart()`. */
  function TrimStart(s: string): (r: string)
    ensures r == s[SpaceEnd(s, 0)..]
  {
    s[SpaceEnd(s, 0)..]
  }

  /** `r` sits inside `s` at position `i`, with nothing but white space around it. */
  predicate PaddedAt(s: string, r: string, i: nat) {
    && i + |r| <= |s| && s[i..i + |r|] == r
    && SpacesIn(s, 0, i) && SpacesIn(s, i + |r|, |s|)
  }

  /** `s.trim()`: what remains once white space is removed from both ends. */
  function Trim(s: string): (r: string)
    ensures IsTrimmed(r) && |r| <= |s|
  {
    var a := SpaceEnd(s, 0);
    var b := SpaceStartBack(s, |s|);
    if b <= a then [] else s[a..b]
  }

  /** The trimmed text sits inside `s` between two runs of white space. */
  lemma TrimIsPadded(s: string)
    ensures exists i: nat :: PaddedAt(s, Trim(s), i)
  {
    var a := SpaceEnd(s, 0);
    var b := SpaceStartBack(s, |s|);
    if b <= a {
      assert SpacesIn(s, 0, a) && SpacesIn(s, b, |s|);
      assert Trim(s) == [];
      assert PaddedAt(s, [], 0);
    } else {
      assert Trim(s) == s[a..b];
      assert PaddedAt(s, s[a..b], a);
    }
  }

  /** Trimming leaves a string that is already trimmed unchanged. */
  lemma TrimOfTrimmed(s: string)
    requires IsTrimmed(s)
    ensures Trim(s) == s
  {
    if s != [] {
      assert SpaceEnd(s, 0) == 0;
      assert SpaceStartBack(s, |s|) == |s|;
    }
  }

  /** `Trim` is idempotent. */
  lemma TrimIdempotent(s: string)
    ensures Trim(Trim(s)) == Trim(s)
  {
    TrimOfTrimmed(Trim(s));
  }

  /** Padding a trimmed string with white space on both sides is exactly what `Trim` undoes. */
  lemma {:induction false} TrimPadded(a: string, t: string, b: string)
    requires AllSpace(a) && AllSpace(b) && IsTrimmed(t)
    ensures Trim(a + t + b) == t
  {
    var s := a + t + b;
    assert SpacesIn(s, 0, |a|) by {
      forall k | 0 <= k < |a| ensures IsSpace(s[k]) { assert s[k] == a[k]; }
    }
    assert SpacesIn(s, |a| + |t|, |s|) by {
      forall k | |a| + |t| <= k < |s| ensures IsSpace(s[k]) { assert s[k] == b[k - |a| - |t|]; }
    }
    SpaceEndOverSpaces(s, 0, |a|);
    SpaceBackOverSpaces(s, |a| + |t|, |s|);
    if t == [] {
      assert SpaceEnd(s, 0) == |s|;
    } else {
      assert s[|a|] == t[0];
      assert s[|a| + |t| - 1] == t[|t| - 1];
      assert SpaceEnd(s, 0) == |a|;
      assert SpaceStartBack(s, |s|) == |a| + |t|;
      assert s[|a|..|a| + |t|] == t;
    }
  }

  lemma {:induction false} SpaceEndOverSpaces(s: string, i: nat, j: nat)
    requires i <= j <= |s| && SpacesIn(s, i, j)
    ensures SpaceEnd(s, i) == SpaceEnd(s, j)
    decreases j - i
  {
    if i < j {
      SpaceEndOverSpaces(s, i + 1, j);
    }
  }

  lemma {:induction false} SpaceBackOverSpaces(s: string, i: nat, j: nat)
    requires i <= j <= |s| && SpacesIn(s, i, j)
    ensures SpaceStartBack(s, j) == SpaceStartBack(s, i)
    decreases j - i
  {
    if i < j {
      SpaceBackOverSpaces(s, i, j - 1);
    }
  }

  /** `s.split(/\s+/)`: the pieces between maximal runs of white space. */
  function SplitWs(s: string): (r: seq<string>)
    ensures |r| >= 1
    ensures forall k :: 0 <= k < |r| ==> NoSpace(r[k])
    ensures IsTrimmed(s) && s != [] ==> forall k :: 0 <= k < |r| ==> r[k] != []
    decreases |s|
  {
    var w := WordEnd(s, 0);
    if w == |s| then
      [s]
    else
      var rest := s[SpaceEnd(s, w)..];
      assert IsTrimmed(s) && s != [] ==> rest != [] && IsTrimmed(rest) by {
        if IsTrimmed(s) && s != [] {
          SpaceEndStops(s, w, |s| - 1);
        }
      }
      [s[..w]] + SplitWs(rest)
  }

  /** Non-empty tokens without white space, as `SplitWs` produces them. */
  predicate IsWords(ts: seq<string>) {
    |ts| == 0 || (ts[0] != [] && NoSpace(ts[0]) && IsWords(ts[1..]))
  }

  /** Tokens joined by single spaces: the canonical text `SplitWs` reads back. */
  function JoinWs(ts: seq<string>): string
    requires |ts| >= 1
  {
    if |ts| == 1 then ts[0] else ts[0] + " " + JoinWs(ts[1..])
  }

  /** Splitting the space-joined text of non-empty, space-free tokens gives those tokens back. */
  lemma {:induction false} SplitJoinWs(ts: seq<string>)
    requires |ts| >= 1 && IsWords(ts)
    ensures SplitWs(JoinWs(ts)) == ts
  {
    var s := JoinWs(ts);
    WordEndOverWord(s, ts[0]);
    if |ts| > 1 {
      var tail := JoinWs(ts[1..]);
      assert s == ts[0] + " " + tail;
      assert s[|ts[0]|] == ' ';
      assert JoinWs(ts[1..])[0] == ts[1][0] by { JoinWsHead(ts[1..]); }
      assert SpaceEnd(s, |ts[0]|) == |ts[0]| + 1 by {
        assert s[|ts[0]| + 1] == tail[0];
        assert SpaceEnd(s, |ts[0]| + 1) == |ts[0]| + 1;
      }
      assert s[|ts[0]| + 1..] == tail;
      assert s[..|ts[0]|] == ts[0];
      SplitJoinWs(ts[1..]);
    } else {
      assert s == ts[0];
    }
  }

  lemma JoinWsHead(ts: seq<string>)
    requires |ts| >= 1 && ts[0] != []
    ensures JoinWs(ts)[0] == ts[0][0]
  {
  }

  /** The first word of a space-joined text ends exactly where its first token does. */
  lemma {:induction false} WordEndOverWord(s: string, t: string)
    requires |t| <= |s| && s[..|t|] == t && NoSpace(t)
    requires |t| < |s| ==> IsSpace(s[|t|])
    ensures WordEnd(s, 0) == |t|
  {
    forall k | 0 <= k < |t| ensures !IsSpace(s[k]) { assert s[k] == t[k]; }
    WordEndFrom(s, 0, |t|);
  }

  lemma {:induction false} WordEndFrom(s: string, i: nat, j: nat)
    requires i <= j <= |s| && (forall k :: i <= k < j ==> !IsSpace(s[k])) && (j < |s| ==> IsSpace(s[j]))
    ensures WordEnd(s, i) == j
    decreases j - i
  {
    if i < j {
      WordEndFrom(s, i + 1, j);
    }
  }

  /** Position of the first occurrence of `c` at or after `i`, if any. */
  function IndexOfChar(s: string, c: char, i: nat): (r: Option<nat>)
    requires i <= |s|
    ensures r.Some? ==> i <= r.value < |s| && s[r.value] == c && c !in s[i..r.value]
    ensures r.None? ==> c !in s[i..]
    decreases |s| - i
  {
    if i == |s| then None
    else if s[i] == c then Some(i)
    else
      var r := IndexOfChar(s, c, i + 1);
      assert r.Some? ==> s[i..r.value] == [s[i]] + s[i + 1..r.value];
      assert s[i..] == [s[i]] + s[i + 1..];
      r
  }

  /** `s.split(c)` for a one-character separator: the pieces between occurrences of `c`. */
  function SplitChar(s: string, c: char): (r: seq<string>)
    ensures |r| >= 1
    ensures forall k :: 0 <= k < |r| ==> c !in r[k]
    decreases |s|
  {
    match IndexOfChar(s, c, 0)
    case None => assert s[0..] == s; [s]
    case Some(i) => [s[..i]] + SplitChar(s[i + 1..], c)
  }

  /** `pieces.join(c)`. */
  function JoinChar(pieces: seq<string>, c: char): string
    requires |pieces| >= 1
  {
    if |pieces| == 1 then pieces[0] else pieces[0] + [c] + JoinChar(pieces[1..], c)
  }

  /** Splitting on a character and joining the pieces with it gives the text back. */
  lemma {:induction false} JoinSplitChar(s: string, c: char)
    ensures JoinChar(SplitChar(s, c), c) == s
    decreases |s|
  {
    match IndexOfChar(s, c, 0)
    case None =>
    case Some(i) =>
      var rest := SplitChar(s[i + 1..], c);
      var pieces := [s[..i]] + rest;
      assert SplitChar(s, c) == pieces;
      assert pieces[1..] == rest;
      assert JoinChar(pieces, c) == s[..i] + [c] + JoinChar(rest, c);
      JoinSplitChar(s[i + 1..], c);
      assert s == s[..i] + [c] + s[i + 1..];
  }

  /** Joining pieces that do not contain the separator and splitting again gives the pieces back. */
  lemma {:induction false} SplitJoinChar(pieces: seq<string>, c: char)
    requires |pieces| >= 1
    requires forall k :: 0 <= k < |pieces| ==> c !in pieces[k]
    ensures SplitChar(JoinChar(pieces, c), c) == pieces
    decreases |pieces|
  {
    var s := JoinChar(pieces, c);
    if |pieces| == 1 {
      assert IndexOfChar(s, c, 0).None? by {
        assert c !in s;
      }
      assert s[0..] == s;
    } else {
      var i := |pieces[0]|;
      var rest := JoinChar(pieces[1..], c);
      assert s == pieces[0] + [c] + rest;
      assert s[..i] == pieces[0] && s[i] == c && s[i + 1..] == rest;
      assert IndexOfChar(s, c, 0) == Some(i) by {
        assert c !in s[0..i];
      }
      SplitJoinChar(pieces[1..], c);
      assert pieces == [pieces[0]] + pieces[1..];
    }
  }

  /** `sub` occurs in `s` starting at position `k`. */
  predicate OccursAt(s: string, sub: string, k: nat) {
    k + |sub| <= |s| && s[k..k + |sub|] == sub
  }

  /** Position of the first occurrence of `sub` at or after `i`: `s.indexOf(sub, i)`. */
  function IndexOf(s: string, sub: string, i: nat): (r: Option<nat>)
    requires i <= |s|
    ensures r.Some? ==> i <= r.value && OccursAt(s, sub, r.value)
    ensures r.Some? ==> forall k: nat :: i <= k < r.value ==> !OccursAt(s, sub, k)
    ensures r.None? ==> forall k: nat :: i <= k ==> !OccursAt(s, sub, k)
    decreases |s| - i
  {
    if i + |sub| > |s| then None
    else if s[i..i + |sub|] == sub then Some(i)
    else IndexOf(s, sub, i + 1)
  }

  /** `s.includes(sub)`. */
  predicate Contains(s: string, sub: string) {
    IndexOf(s, sub, 0).Some?
  }

  /** `s.replace(c, '')` with a one-character pattern: only the first occurrence goes. */
  function RemoveFirst(s: string, c: char): (r: string)
    ensures c !in s ==> r == s
    ensures c in s ==> |r| == |s| - 1 && exists i :: 0 <= i < |s| && s[i] == c && c !in s[..i] && r == s[..i] + s[i + 1..]
  {
    match IndexOfChar(s, c, 0)
    case None => assert s[0..] == s; s
    case Some(i) => assert s[0..i] == s[..i]; s[..i] + s[i + 1..]
  }
}

=== FILE: macros.dfy ===
/**
 * Macro handling: `_preprocessMacrosAndEvals` removes `name value;` definitions and
 * `name #eval{ expr };` lines from the line list and records them in the macro table;
 * `_resolveValue` turns a token into a number or a string through that table.
 */
module Macros {
  import opened Wrappers
  import opened JsText
  import opened JsNumber
  import opened Patterns
  import opened Mesh

  type MacroTable = map<string, Value>

  /**
   * The host's `eval`, with the macro substitution the source applies first, supplied by the caller: it sees the
   * expression text and the table, and yields a finite number or NaN (which also stands
   * for a thrown error or a non-number result).
   */
  type Evaluator = (string, MacroTable) -> Num

  /** Keywords that a `name value;` line must not define. */
  const Reserved: set<string> := {"type", "faces", "blocks", "vertices", "edges", "boundary", "scale"}

  /** A resolved token and the diagnostics resolving it produced. */
  datatype Resolved = Resolved(value: Value, diags: seq<Diag>)

  /** `parseFloat(s)` if that is a number, else the string itself. */
  function Numeric(s: string): (r: Value)
    ensures r.Number? <==> ParseFloat(s).Fin?
    ensures r.Number? ==> r.num == ParseFloat(s)
    ensures r.Str? ==> r.str == s
  {
    var n := ParseFloat(s);
    if n.Fin? then Number(n) else Str(s)
  }

  /** `_resolveValue` applied to a string token. */
  function Resolve(macros: MacroTable, token: string): (r: Resolved)
    ensures |r.diags| <= 1
  {
    if StartsWith(token, "$") then
      var name := token[1..];
      if name in macros then
        match macros[name]
        case Number(n) => Resolved(Number(n), [])
        case Str(s) => Resolved(Numeric(s), [])
      else Resolved(Number(NaN), [UndefinedMacro(token)])
    else Resolved(Numeric(token), [])
  }

  /**
   * An undefined `$name` yields NaN with exactly one diagnostic; a defined one yields its
   * stored number, or its stored text read as a number when that parses; any other token
   * is a number when `parseFloat` accepts it and the token itself otherwise.
   */
  lemma ResolveValue(macros: MacroTable, token: string)
    ensures var r := Resolve(macros, token);
      && (r.diags != [] <==> StartsWith(token, "$") && token[1..] !in macros)
      && (r.diags != [] ==> r == Resolved(Number(NaN), [UndefinedMacro(token)]))
      && (StartsWith(token, "$") && token[1..] in macros ==>
            match macros[token[1..]]
            case Number(n) => r.value == Number(n)
            case Str(s) => r.value == Numeric(s))
      && (!StartsWith(token, "$") ==> r == Resolved(Numeric(token), []))
  {
  }

  /** The value a `name value;` line stores: the trimmed text, as a number when it parses. */
  function DefinedValue(raw: string): (r: Value)
    ensures r.Number? ==> r.num.Fin?
    ensures r.Str? ==> ParseFloat(r.str).NaN?
  {
    Numeric(Trim(raw))
  }

  /** What the preprocessor has built so far: kept lines, the table, and its diagnostics. */
  datatype Pre = Pre(kept: seq<string>, macros: MacroTable, errors: seq<Diag>)

  /** A line the preprocessor consumes: an `#eval` line or a non-reserved definition. */
  predicate IsDefinition(line: string) {
    EvalMatch(line).Some? || (MacroMatch(line).Some? && MacroMatch(line).value.0 !in Reserved)
  }

  /** One iteration of the preprocessing loop. */
  function PreprocessLine(ev: Evaluator, acc: Pre, line: string): (r: Pre)
    ensures IsDefinition(line) ==> r.kept == acc.kept
    ensures !IsDefinition(line) ==> r == acc.(kept := acc.kept + [line])
    ensures EvalMatch(line).Some? ==>
      var (key, expr) := EvalMatch(line).value;
      var n := ev(expr, acc.macros);
      && r.macros == acc.macros[key := Number(n)]
      && r.errors == acc.errors + (if n.Fin? then [] else [EvalFailed(key)])
    ensures EvalMatch(line).None? && IsDefinition(line) ==>
      var (key, raw) := MacroMatch(line).value;
      r.macros == acc.macros[key := DefinedValue(raw)] && r.errors == acc.errors
  {
    match EvalMatch(line)
    case Some((key, expr)) =>
      var n := ev(expr, acc.macros);
      if n.Fin? then acc.(macros := acc.macros[key := Number(n)])
      else acc.(macros := acc.macros[key := Number(NaN)], errors := acc.errors + [EvalFailed(key)])
    case None =>
      match MacroMatch(line)
      case Some((key, raw)) =>
        if key !in Reserved then acc.(macros := acc.macros[key := DefinedValue(raw)])
        else acc.(kept := acc.kept + [line])
      case None => acc.(kept := acc.kept + [line])
  }

  /** The preprocessing loop over `lines[k..]`. */
  function PreprocessFrom(ev: Evaluator, lines: seq<string>, k: nat, acc: Pre): (r: Pre)
    requires k <= |lines|
    decreases |lines| - k
  {
    if k == |lines| then acc else PreprocessFrom(ev, lines, k + 1, PreprocessLine(ev, acc, lines[k]))
  }

  /** `_preprocessMacrosAndEvals` on a fresh table. */
  function Preprocess(ev: Evaluator, lines: seq<string>): (r: Pre)
    ensures r.kept == Survivors(lines)
    ensures |r.errors| <= EvalCount(lines)
    ensures ErrorsKnown(r)
  {
    var r := PreprocessFrom(ev, lines, 0, Pre([], map[], []));
    PreprocessKeepsSurvivors(ev, lines, 0, Pre([], map[], []));
    assert lines[0..] == lines;
    PreprocessErrors(ev, lines, 0, Pre([], map[], []));
    r
  }

  // ----- Independent descriptions -----

  /** The lines that are not definitions, in order. */
  function Survivors(lines: seq<string>): seq<string> {
    if lines == [] then [] else (if IsDefinition(lines[0]) then [] else [lines[0]]) + Survivors(lines[1..])
  }

  /** How many `#eval` lines there are. */
  function EvalCount(lines: seq<string>): nat {
    if lines == [] then 0 else (if EvalMatch(lines[0]).Some? then 1 else 0) + EvalCount(lines[1..])
  }

  lemma SurvivorsStep(lines: seq<string>, k: nat)
    requires k < |lines|
    ensures Survivors(lines[k..]) == (if IsDefinition(lines[k]) then [] else [lines[k]]) + Survivors(lines[k + 1..])
  {
    assert lines[k..][0] == lines[k] && lines[k..][1..] == lines[k + 1..];
  }

  lemma EvalCountStep(lines: seq<string>, k: nat)
    requires k < |lines|
    ensures EvalCount(lines[k..]) == (if EvalMatch(lines[k]).Some? then 1 else 0) + EvalCount(lines[k + 1..])
  {
    assert lines[k..][0] == lines[k] && lines[k..][1..] == lines[k + 1..];
  }

  /** The kept lines are exactly the non-definition lines, in their original order. */
  lemma {:induction false} PreprocessKeepsSurvivors(ev: Evaluator, lines: seq<string>, k: nat, acc: Pre)
    requires k <= |lines|
    ensures PreprocessFrom(ev, lines, k, acc).kept == acc.kept + Survivors(lines[k..])
    decreases |lines| - k
  {
    if k < |lines| {
      var next := PreprocessLine(ev, acc, lines[k]);
      PreprocessKeepsSurvivors(ev, lines, k + 1, next);
      SurvivorsStep(lines, k);
    } else {
      assert lines[k..] == [];
    }
  }

  /** Every diagnostic is a failed `#eval` whose key is in the table. */
  predicate ErrorsKnown(p: Pre) {
    forall d :: d in p.errors ==> d.EvalFailed? && d.key in p.macros
  }

  /**
   * Every diagnostic is a failed `#eval` whose key is now in the table, and there is at
   * most one per `#eval` line. (A later `#eval` of the same key may replace the NaN.)
   */
  lemma {:induction false} PreprocessErrors(ev: Evaluator, lines: seq<string>, k: nat, acc: Pre)
    requires k <= |lines| && ErrorsKnown(acc)
    ensures var r := PreprocessFrom(ev, lines, k, acc);
      |r.errors| <= |acc.errors| + EvalCount(lines[k..]) && ErrorsKnown(r)
    decreases |lines| - k
  {
    if k < |lines| {
      var next := PreprocessLine(ev, acc, lines[k]);
      PreprocessLineErrors(ev, acc, lines[k]);
      PreprocessErrors(ev, lines, k + 1, next);
      EvalCountStep(lines, k);
    } else {
      assert lines[k..] == [];
    }
  }

  /** One line adds a diagnostic only if it is an `#eval` line, and keeps `ErrorsKnown`. */
  lemma PreprocessLineErrors(ev: Evaluator, acc: Pre, line: string)
    requires ErrorsKnown(acc)
    ensures var r := PreprocessLine(ev, acc, line);
      |r.errors| <= |acc.errors| + (if EvalMatch(line).Some? then 1 else 0) && ErrorsKnown(r)
  {
    var r := PreprocessLine(ev, acc, line);
    assert acc.macros.Keys <= r.macros.Keys;
  }

  // ----- Definitions round-trip through `$name` -----

  lemma IdentEndOfName(line: string, name: string)
    requires IsIdentLine(name) && |name| < |line| && line[..|name|] == name && !IsWordChar(line[|name|])
    ensures IdentEnd(line, 1) == |name|
  {
    var r := IdentEnd(line, 1);
    forall k | 0 <= k < |name| ensures IsWordChar(line[k]) { assert line[k] == name[k]; }
  }

  /** The canonical definition line `name value;` matches with exactly that name and value. */
  lemma MacroMatchOfDefinition(name: string, value: string)
    requires IsIdentLine(name) && IsIdentStart(name[0])
    requires NoLineTerminator(value) && (value == [] || !IsSpace(value[0]))
    ensures MacroMatch(name + " " + value + ";") == Some((name, value))
  {
    var line := name + " " + value + ";";
    var n := |name|;
    assert line[..n] == name;
    IdentEndOfName(line, name);
    assert line[n] == ' ';
    assert !IsSpace(line[n + 1]) by {
      if value == [] { assert line[n + 1] == ';'; } else { assert line[n + 1] == value[0]; }
    }
    assert SpaceEnd(line, n) == n + 1;
    assert line[n + 1..|line| - 1] == value;
  }

  /** The canonical `#eval` line `name #eval{ expr };`. */
  function EvalLine(name: string, expr: string): string {
    name + " #eval{ " + expr + " };"
  }

  /** The canonical `#eval` line matches with that name and expression. */
  lemma EvalMatchOfDefinition(name: string, expr: string)
    requires IsIdentLine(name) && IsIdentStart(name[0])
    requires expr != [] && IsTrimmed(expr) && NoLineTerminator(expr)
    ensures EvalMatch(EvalLine(name, expr)) == Some((name, expr))
  {
    EvalLineHead(name, expr);
    EvalLineTail(name, expr);
  }

  /** Up to the expression: the name, one space, `#eval`, `{` and one space. */
  lemma EvalLineHead(name: string, expr: string)
    requires IsIdentLine(name) && IsIdentStart(name[0])
    requires expr != [] && IsTrimmed(expr)
    ensures var line := EvalLine(name, expr); var n := |name|;
      && |line| == n + 11 + |expr| && line[0] == name[0] && line[..n] == name
      && IdentEnd(line, 1) == n && SpaceEnd(line, n) == n + 1 && OccursAt(line, "#eval", n + 1)
      && SpaceEnd(line, n + 6) == n + 6 && line[n + 6] == '{' && SpaceEnd(line, n + 7) == n + 8
  {
    var line := EvalLine(name, expr);
    var n := |name|;
    assert line[..n] == name;
    IdentEndOfName(line, name);
    assert line[n] == ' ' && line[n + 1] == '#';
    assert OccursAt(line, "#eval", n + 1) by { assert line[n + 1..n + 6] == "#eval"; }
    assert line[n + 7] == ' ' && line[n + 8] == expr[0];
    SpaceEndOverSpaces(line, n + 7, n + 8);
  }

  /** From the expression on: the expression, one space and `};`. */
  lemma EvalLineTail(name: string, expr: string)
    requires expr != [] && IsTrimmed(expr)
    ensures var line := EvalLine(name, expr); var e := |name| + 8 + |expr|;
      && line[|line| - 2..] == "};" && SpaceStartBack(line, |line| - 2) == e
      && line[|name| + 8..e] == expr
  {
    var line := EvalLine(name, expr);
    var e := |name| + 8 + |expr|;
    assert |line| == e + 3;
    assert line[|line| - 2..] == "};";
    assert line[e] == ' ' && line[e - 1] == expr[|expr| - 1];
    SpaceBackOverSpaces(line, e, e + 1);
    assert line[|name| + 8..e] == expr;
  }

  /**
   * After `name value;`, the token `$name` resolves exactly as the value text itself would
   * (provided the value is not itself a `$` reference).
   */
  lemma DefinedMacroResolves(ev: Evaluator, acc: Pre, name: string, value: string)
    requires IsIdentLine(name) && IsIdentStart(name[0]) && name !in Reserved
    requires NoLineTerminator(value) && (value == [] || !IsSpace(value[0]))
    requires value == [] || value[|value| - 1] != '}'
    requires !StartsWith(Trim(value), "$")
    ensures var r := PreprocessLine(ev, acc, name + " " + value + ";");
      && r.kept == acc.kept && r.errors == acc.errors
      && Resolve(r.macros, "$" + name) == Resolve(r.macros, Trim(value))
  {
    var line := name + " " + value + ";";
    MacroMatchOfDefinition(name, value);
    assert line[|line| - 2] != '}' by {
      if value == [] { assert line[|line| - 2] == ' '; } else { assert line[|line| - 2] == value[|value| - 1]; }
    }
    assert EvalMatch(line).None?;
    assert ("$" + name)[1..] == name;
    ResolveValue(PreprocessLine(ev, acc, line).macros, "$" + name);
  }

  /**
   * After `name #eval{ expr };`, `$name` resolves to the evaluator's number without a new
   * diagnostic, NaN included: a failed evaluation is reported once, at the definition.
   */
  lemma EvalMacroResolves(ev: Evaluator, acc: Pre, name: string, expr: string)
    requires IsIdentLine(name) && IsIdentStart(name[0])
    requires expr != [] && IsTrimmed(expr) && NoLineTerminator(expr)
    ensures var r := PreprocessLine(ev, acc, EvalLine(name, expr));
      && r.kept == acc.kept
      && Resolve(r.macros, "$" + name) == Resolved(Number(ev(expr, acc.macros)), [])
      && (r.errors == acc.errors <==> ev(expr, acc.macros).Fin?)
  {
    EvalMatchOfDefinition(name, expr);
    assert ("$" + name)[1..] == name;
    ResolveValue(PreprocessLine(ev, acc, EvalLine(name, expr)).macros, "$" + name);
  }

  /** A `$` token naming nothing in the table resolves to NaN with one diagnostic. */
  lemma UndefinedMacroIsNaN(macros: MacroTable, name: string)
    requires name !in macros
    ensures Resolve(macros, "$" + name) == Resolved(Number(NaN), [UndefinedMacro("$" + name)])
  {
    assert ("$" + name)[1..] == name;
    ResolveValue(macros, "$" + name);
  }
}

=== FILE: mesh.dfy ===
/**
 * The data model a parse builds: vertices, edges, hex blocks, boundary patches and merge
 * pairs, the diagnostics appended along the way, and the parse context that owns them.
 */
module Mesh {
  import opened Wrappers
  import opened JsNumber

  /** A vertex, stored already multiplied by the scale in force when it was read. */
  datatype Vertex = Vertex(x: Num, y: Num, z: Num)

  datatype EdgeKind = Arc | Spline | PolyLine | Line

  /** An edge between two vertex indices, with the control points read from its line. */
  datatype Edge = Edge(kind: EdgeKind, v1: int, v2: int, points: seq<Vertex>)

  datatype GradingType = SimpleGrading | EdgeGrading

  /** A hex block: vertex indices, cell counts and grading, as numbers that may be NaN. */
  datatype Block = Block(vertices: seq<Num>, cells: seq<Num>, gradingType: GradingType, grading: seq<Num>)

  /** A boundary patch; its type is absent until a `type` line sets it. */
  datatype Patch = Patch(name: string, patchType: Option<string>, faces: seq<seq<Num>>)

  datatype MergePair = MergePair(master: string, slave: string)

  datatype Section = VerticesSection | EdgesSection | BlocksSection | BoundarySection | MergeSection

  /** One parser diagnostic, by kind, with the text the message quotes. */
  datatype Diag =
    | EvalFailed(key: string)
    | UndefinedMacro(token: string)
    | InvalidScale(operand: string)
    | MalformedScale(line: string)
    | ExpectedOpenParen(section: Section)
    | MissingCloseParen(section: Section)
    | UnresolvedVertex(line: string)
    | InvalidVertexFormat(line: string)
    | ArcPointCount(line: string)
    | BasicPointParsing(line: string)
    | InvalidEdgeIndices(line: string)
    | InvalidEdgeFormat(line: string)
    | MalformedHex(line: string)
    | HexVertexCount(found: nat)
    | HexCellCount
    | HexGrading
    | UnexpectedBlockLine(line: string)
    | ExpectedPatchName(line: string)
    | ExpectedPatchBrace(patch: string)
    | MalformedType(patch: string)
    | InvalidFace(patch: string)
    | MalformedInlineFaces(patch: string)
    | ExpectedFacesParen(patch: string)
    | MalformedFace(patch: string)
    | MissingFacesClose(patch: string)
    | UnexpectedPatchLine(patch: string)
    | ExpectedPatchClose(patch: string)
    | MissingType(patch: string)
    | InvalidMergePair(line: string)

  /** The accumulation context of one parse: everything `reset` clears. */
  datatype Ctx = Ctx(
    scale: Num,
    vertices: seq<Vertex>,
    edges: seq<Edge>,
    blocks: seq<Block>,
    boundary: seq<Patch>,
    mergePatchPairs: seq<MergePair>,
    macros: map<string, Value>,
    errors: seq<Diag>)

  /** The state `reset` establishes: scale 1 and everything else empty. */
  function Reset(): Ctx {
    Ctx(Fin(1.0), [], [], [], [], [], map[], [])
  }

  /** `_logError`: append one diagnostic. */
  function Log(c: Ctx, d: Diag): Ctx {
    c.(errors := c.errors + [d])
  }

  /**
   * What a section parser hands back to the dispatch loop: the next cursor, or the fact
   * that the source would loop forever (`Hang`) or throw (`Crash`) at this point.
   */
  datatype Run = Next(at: nat, ctx: Ctx) | Hang(ctx: Ctx) | Crash(ctx: Ctx)

  /** The last diagnostic logged is `d`. */
  predicate LastIs(errors: seq<Diag>, d: Diag) {
    |errors| > 0 && errors[|errors| - 1] == d
  }

  predicate IsPrefix<T(==)>(a: seq<T>, b: seq<T>) {
    |a| <= |b| && b[..|a|] == a
  }

  lemma PrefixAppend<T>(a: seq<T>, b: seq<T>)
    ensures IsPrefix(a, a + b)
  {
    assert (a + b)[..|a|] == a;
  }

  lemma PrefixRefl<T>(a: seq<T>)
    ensures IsPrefix(a, a)
  {
    assert a[..|a|] == a;
  }

  /**
   * `b` was reached from `a` by appending only: every collection and the diagnostics grow
   * at the end, and the macro table is untouched (the scale may change).
   */
  predicate Grows(a: Ctx, b: Ctx) {
    && IsPrefix(a.vertices, b.vertices)
    && IsPrefix(a.edges, b.edges)
    && IsPrefix(a.blocks, b.blocks)
    && IsPrefix(a.boundary, b.boundary)
    && IsPrefix(a.mergePatchPairs, b.mergePatchPairs)
    && IsPrefix(a.errors, b.errors)
    && a.macros == b.macros
  }

  lemma GrowsTransitive(a: Ctx, b: Ctx, c: Ctx)
    requires Grows(a, b) && Grows(b, c)
    ensures Grows(a, c)
  {
    assert c.vertices[..|a.vertices|] == c.vertices[..|b.vertices|][..|a.vertices|];
    assert c.edges[..|a.edges|] == c.edges[..|b.edges|][..|a.edges|];
    assert c.blocks[..|a.blocks|] == c.blocks[..|b.blocks|][..|a.blocks|];
    assert c.boundary[..|a.boundary|] == c.boundary[..|b.boundary|][..|a.boundary|];
    assert c.mergePatchPairs[..|a.mergePatchPairs|] == c.mergePatchPairs[..|b.mergePatchPairs|][..|a.mergePatchPairs|];
    assert c.errors[..|a.errors|] == c.errors[..|b.errors|][..|a.errors|];
  }
}

=== FILE: normalizer.dfy ===
// `_removeCommentsAndStoreLines`: split the text on `\r?\n` and rejoin it with `\n`, delete
// block comments, then line comments, split on `\n`, trim every line and drop the empty
// ones. The raw-line table kept for approximate line numbers is not modelled.
module Normalizer {
  import opened Wrappers
  import opened JsText

  /** `s.split(/\r?\n/)`: pieces between line feeds, each losing one `\r` just before its `\n`. */
  function RawLines(s: string): (r: seq<string>)
    ensures |r| == |SplitChar(s, '\n')|
    ensures forall k :: 0 <= k < |r| ==> '\n' !in r[k]
  {
    var pieces := SplitChar(s, '\n');
    seq(|pieces|, k requires 0 <= k < |pieces| =>
      if k < |pieces| - 1 then DropCr(pieces[k]) else pieces[k])
  }

  function DropCr(p: string): (r: string)
    ensures r == p || (p == r + "\r")
  {
    if |p| > 0 && p[|p| - 1] == '\r' then (assert p == p[..|p| - 1] + "\r"; p[..|p| - 1]) else p
  }

  // `s.replace(/\/\*[\s\S]*?\*\//g, '')`: each `/*` up to the first `*/` after it goes.
  function StripBlock(s: string): (r: string)
    ensures |r| <= |s|
    decreases |s|
  {
    if |s| >= 2 && s[0] == '/' && s[1] == '*' then
      match IndexOf(s, "*/", 2)
      case Some(j) => StripBlock(s[j + 2..])
      case None => [s[0]] + StripBlock(s[1..])
    else if s == [] then []
    else [s[0]] + StripBlock(s[1..])
  }

  /** Index of the first line terminator at or after `i` (the `.` of a regex stops there). */
  function TerminatorAt(s: string, i: nat): (r: nat)
    requires i <= |s|
    ensures i <= r <= |s|
    ensures forall k :: i <= k < r ==> !IsLineTerminator(s[k])
    ensures r < |s| ==> IsLineTerminator(s[r])
    decreases |s| - i
  {
    if i == |s| || IsLineTerminator(s[i]) then i else TerminatorAt(s, i + 1)
  }

  // `s.replace(/\/\/.*/g, '')`: each `//` up to the next line terminator goes.
  function StripLine(s: string): (r: string)
    ensures |r| <= |s|
    ensures r != [] && r[0] == '/' ==> s[0] == '/' && !(|s| >= 2 && s[1] == '/')
    ensures NoPair(r, '/', '/')
    ensures CountChar(r, '\n') == CountChar(s, '\n')
    decreases |s|
  {
    if |s| >= 2 && s[0] == '/' && s[1] == '/' then
      var e := TerminatorAt(s, 2);
      NoLineFeedBefore(s, 2, e);
      StripLine(s[e..])
    else if s == [] then []
    else
      var rest := StripLine(s[1..]);
      assert CountChar([s[0]] + rest, '\n') == CountChar(rest, '\n') + (if s[0] == '\n' then 1 else 0) by {
        assert ([s[0]] + rest)[1..] == rest;
      }
      NoPairCons(s[0], rest, '/', '/');
      [s[0]] + rest
  }

  /** `s` holds the two characters `a b` at `k`. */
  predicate PairAt(s: string, k: int, a: char, b: char) {
    0 <= k && k + 1 < |s| && s[k] == a && s[k + 1] == b
  }

  /** Nowhere in `s` is `a` directly followed by `b`. */
  predicate NoPair(s: string, a: char, b: char) {
    forall k :: 0 <= k < |s| ==> !PairAt(s, k, a, b)
  }

  lemma NoPairTail(s: string, a: char, b: char)
    requires s != [] && NoPair(s, a, b)
    ensures NoPair(s[1..], a, b)
  {
    forall k | 0 <= k < |s[1..]| ensures !PairAt(s[1..], k, a, b) {
      if 0 <= k && k + 1 < |s| - 1 {
        assert !PairAt(s, k + 1, a, b);
      }
    }
  }

  lemma NoPairCons(c: char, s: string, a: char, b: char)
    requires NoPair(s, a, b) && !(c == a && s != [] && s[0] == b)
    ensures NoPair([c] + s, a, b)
  {
    var u := [c] + s;
    forall k | 0 <= k < |u| ensures !PairAt(u, k, a, b) {
      if 0 < k && k + 1 < |u| {
        assert u[k] == s[k - 1] && u[k + 1] == s[k];
        assert !PairAt(s, k - 1, a, b);
      }
    }
  }

  function CountChar(s: string, c: char): nat {
    if s == [] then 0 else (if s[0] == c then 1 else 0) + CountChar(s[1..], c)
  }

  lemma {:induction false} NoLineFeedBefore(s: string, i: nat, e: nat)
    requires i <= e <= |s|
    requires forall k :: i <= k < e ==> !IsLineTerminator(s[k])
    ensures CountChar(s[i..], '\n') == CountChar(s[e..], '\n')
    decreases e - i
  {
    if i < e {
      assert s[i..][1..] == s[i + 1..];
      NoLineFeedBefore(s, i + 1, e);
    }
  }

  /** `filter(line => line.length > 0)`. */
  function NonEmpty(lines: seq<string>): (r: seq<string>)
    ensures |r| <= |lines|
    ensures forall k :: 0 <= k < |r| ==> r[k] != [] && r[k] in lines
  {
    if lines == [] then []
    else (if lines[0] == [] then [] else [lines[0]]) + NonEmpty(lines[1..])
  }

  function TrimAll(lines: seq<string>): (r: seq<string>)
    ensures |r| == |lines|
  {
    seq(|lines|, k requires 0 <= k < |lines| => Trim(lines[k]))
  }

  /** The trimmed, non-empty, comment-free lines the parser works on. */
  function Normalize(text: string): (r: seq<string>)
    ensures forall k :: 0 <= k < |r| ==> r[k] != [] && IsTrimmed(r[k]) && '\n' !in r[k]
  {
    var joined := JoinChar(RawLines(text), '\n');
    var pieces := SplitChar(StripLine(StripBlock(joined)), '\n');
    var trimmed := TrimAll(pieces);
    forall k | 0 <= k < |trimmed| ensures IsTrimmed(trimmed[k]) && '\n' !in trimmed[k] {
      TrimKeepsOut(pieces[k], '\n');
    }
    NonEmpty(trimmed)
  }

  /** A character absent from the input is absent from its trim. */
  lemma TrimKeepsOut(s: string, c: char)
    requires c !in s
    ensures c !in Trim(s)
  {
    var t := Trim(s);
    TrimIsPadded(s);
    var i: nat :| PaddedAt(s, t, i);
    forall k | 0 <= k < |t| ensures t[k] != c {
      assert t[k] == s[i + k];
    }
  }

  /** The first occurrence at or after `i` is the one `IndexOf` reports. */
  lemma IndexOfFirst(s: string, sub: string, i: nat, j: nat)
    requires i <= j && OccursAt(s, sub, j) && j <= |s|
    requires forall k: nat :: i <= k < j ==> !OccursAt(s, sub, k)
    ensures IndexOf(s, sub, i) == Some(j)
  {
    var r := IndexOf(s, sub, i);
    assert r.Some?;
    assert !(r.value < j);
    assert !(r.value > j);
  }

  // ----- Properties -----

  /** A comment-free stretch of text passes through the block-comment pass unchanged. */
  lemma {:induction false} StripBlockNoComment(s: string)
    requires NoPair(s, '/', '*')
    ensures StripBlock(s) == s
    decreases |s|
  {
    if s != [] {
      assert !PairAt(s, 0, '/', '*');
      NoPairTail(s, '/', '*');
      StripBlockNoComment(s[1..]);
      assert s == [s[0]] + s[1..];
    }
  }

  /** A closed block comment at the front disappears, whatever it spans, lines included. */
  lemma StripBlockComment(body: string, t: string)
    requires forall k: nat :: !OccursAt(body, "*/", k)
    ensures StripBlock("/*" + body + "*/" + t) == StripBlock(t)
  {
    var s := "/*" + body + "*/" + t;
    var j := 2 + |body|;
    assert OccursAt(s, "*/", j) by { assert s[j..j + 2] == "*/"; }
    forall k: nat | 2 <= k < j ensures !OccursAt(s, "*/", k) {
      OccursPair(s, k);
      if k + 1 < j {
        assert s[k] == body[k - 2] && s[k + 1] == body[k - 1];
        OccursPair(body, k - 2);
      } else {
        assert s[k + 1] == '*';
      }
    }
    IndexOfFirst(s, "*/", 2, j);
    assert s[j + 2..] == t;
  }

  // The closing mark occurs at `k` exactly when its two characters sit there.
  lemma OccursPair(s: string, k: nat)
    ensures OccursAt(s, "*/", k) <==> PairAt(s, k, '*', '/')
  {
    if k + 2 <= |s| {
      assert s[k..k + 2] == [s[k], s[k + 1]];
    }
  }

  lemma ConsTail(a: string, t: string)
    requires a != []
    ensures (a + t)[0] == a[0] && (a + t)[1..] == a[1..] + t
    ensures |a| >= 2 ==> (a + t)[1] == a[1]
    ensures |a| == 1 && t != [] ==> (a + t)[1] == t[0]
  {
  }

  lemma ConsConcat(a: string, x: string)
    requires a != []
    ensures [a[0]] + (a[1..] + x) == a + x
  {
    assert a == [a[0]] + a[1..];
  }

  /** One step of the induction behind `StripBlockAppend`: the first character passes. */
  lemma StripBlockCons(a: string, t: string)
    requires a != [] && NoPair(a, '/', '*')
    requires !(t != [] && a[|a| - 1] == '/' && t[0] == '*')
    requires StripBlock(a[1..] + t) == a[1..] + StripBlock(t)
    ensures StripBlock(a + t) == a + StripBlock(t)
  {
    var u := a + t;
    assert StripBlock(u) == [a[0]] + StripBlock(a[1..] + t) by {
      assert !PairAt(a, 0, '/', '*');
      ConsTail(a, t);
      StripBlockStep(u);
    }
    ConsConcat(a, StripBlock(t));
  }

  lemma StripBlockStep(u: string)
    requires u != [] && !(|u| >= 2 && u[0] == '/' && u[1] == '*')
    ensures StripBlock(u) == [u[0]] + StripBlock(u[1..])
  {
  }

  /** Comment-free text in front of the rest passes through; only the rest is rescanned. */
  lemma {:induction false} StripBlockAppend(a: string, t: string)
    requires NoPair(a, '/', '*')
    requires !(a != [] && t != [] && a[|a| - 1] == '/' && t[0] == '*')
    ensures StripBlock(a + t) == a + StripBlock(t)
    decreases |a|
  {
    if a == [] {
      assert a + t == t;
    } else {
      NoPairTail(a, '/', '*');
      StripBlockAppend(a[1..], t);
      StripBlockCons(a, t);
    }
  }

  /** A closed block comment anywhere disappears, and the text before it is kept as it was. */
  lemma StripBlockMiddle(a: string, body: string, t: string)
    requires NoPair(a, '/', '*')
    requires forall k: nat :: !OccursAt(body, "*/", k)
    ensures StripBlock(a + "/*" + body + "*/" + t) == a + StripBlock(t)
  {
    var c := "/*" + body + "*/" + t;
    StripBlockAppend(a, c);
    StripBlockComment(body, t);
    assert a + "/*" + body + "*/" + t == a + c;
  }

  // An unclosed `/*` stays, together with everything after it.
  lemma StripBlockUnclosed(t: string)
    requires forall k: nat :: !OccursAt(t, "*/", k) && !OccursAt(t, "/*", k)
    ensures StripBlock("/*" + t) == "/*" + t
  {
    var s := "/*" + t;
    UnclosedHasNoEnd(t);
    StarThenNoOpen(t);
    StripBlockNoComment(s[1..]);
    assert [s[0]] + s[1..] == s;
  }

  lemma UnclosedHasNoEnd(t: string)
    requires forall k: nat :: !OccursAt(t, "*/", k)
    ensures IndexOf("/*" + t, "*/", 2).None?
  {
    var s := "/*" + t;
    forall k: nat | 2 <= k ensures !OccursAt(s, "*/", k) {
      if k + 2 <= |s| {
        assert s[k..k + 2] == t[k - 2..k];
        assert !OccursAt(t, "*/", k - 2);
      }
    }
  }

  lemma StarThenNoOpen(t: string)
    requires forall k: nat :: !OccursAt(t, "/*", k)
    ensures NoPair(("/*" + t)[1..], '/', '*')
  {
    var u := ("/*" + t)[1..];
    assert u == "*" + t;
    forall k | 0 <= k < |u| ensures !PairAt(u, k, '/', '*') {
      if 0 < k && k + 1 < |u| {
        assert u[k..k + 2] == t[k - 1..k + 1];
        assert !OccursAt(t, "/*", k - 1);
      }
    }
  }

  /**
   * The global replace rescans only the text after each removal, so a first pass can
   * assemble a new comment out of the pieces around an old one.
   */
  lemma StripBlockNotIdempotent()
    ensures StripBlock("//**/*x*/") == "/*x*/"
    ensures StripBlock(StripBlock("//**/*x*/")) == []
  {
    StripBlockFirstPass();
    StripBlockSecondPass();
  }

  lemma StripBlockFirstPass()
    ensures StripBlock("//**/*x*/") == "/*x*/"
  {
    var s := "//**/*x*/";
    assert s[1..] == "/*" + [] + "*/" + "*x*/";
    StripBlockComment([], "*x*/");
    StripBlockNoComment("*x*/");
    assert StripBlock(s) == [s[0]] + StripBlock(s[1..]);
  }

  lemma StripBlockSecondPass()
    ensures StripBlock("/*x*/") == []
  {
    assert "/*x*/" == "/*" + "x" + "*/" + [];
    StripBlockComment("x", []);
  }

  /** Text without a line feed, carriage return or comment becomes the one trimmed line, if any. */
  lemma NormalizeSingleLine(s: string)
    requires '\n' !in s && '\r' !in s
    requires NoPair(s, '/', '*') && NoPair(s, '/', '/')
    ensures Normalize(s) == if Trim(s) == [] then [] else [Trim(s)]
  {
    assert SplitChar(s, '\n') == [s] by {
      assert IndexOfChar(s, '\n', 0).None?;
      assert s[0..] == s;
    }
    assert RawLines(s) == [s];
    assert JoinChar([s], '\n') == s;
    StripBlockNoComment(s);
    StripLineNoComment(s);
    assert TrimAll([s]) == [Trim(s)];
    assert NonEmpty([Trim(s)]) == (if Trim(s) == [] then [] else [Trim(s)]) by {
      assert [Trim(s)][1..] == [];
    }
  }

  lemma {:induction false} StripLineNoComment(s: string)
    requires NoPair(s, '/', '/')
    ensures StripLine(s) == s
    decreases |s|
  {
    if s != [] {
      assert !PairAt(s, 0, '/', '/');
      NoPairTail(s, '/', '/');
      StripLineNoComment(s[1..]);
      assert s == [s[0]] + s[1..];
    }
  }

  /** Comment-free text in front of the rest passes through the line-comment pass. */
  lemma {:induction false} StripLineAppend(a: string, t: string)
    requires NoPair(a, '/', '/')
    requires !(a != [] && t != [] && a[|a| - 1] == '/' && t[0] == '/')
    ensures StripLine(a + t) == a + StripLine(t)
    decreases |a|
  {
    if a == [] {
      assert a + t == t;
    } else {
      NoPairTail(a, '/', '/');
      StripLineAppend(a[1..], t);
      StripLineCons(a, t);
    }
  }

  /** One step of the induction behind `StripLineAppend`: the first character passes. */
  lemma StripLineCons(a: string, t: string)
    requires a != [] && NoPair(a, '/', '/')
    requires !(t != [] && a[|a| - 1] == '/' && t[0] == '/')
    requires StripLine(a[1..] + t) == a[1..] + StripLine(t)
    ensures StripLine(a + t) == a + StripLine(t)
  {
    var u := a + t;
    assert StripLine(u) == [a[0]] + StripLine(a[1..] + t) by {
      assert !PairAt(a, 0, '/', '/');
      ConsTail(a, t);
      StripLineStep(u);
    }
    ConsConcat(a, StripLine(t));
  }

  lemma StripLineStep(u: string)
    requires u != [] && !(|u| >= 2 && u[0] == '/' && u[1] == '/')
    ensures StripLine(u) == [u[0]] + StripLine(u[1..])
  {
  }

  /** A line comment at the front goes up to, not including, the line terminator. */
  lemma StripLineComment(c: string, t: string)
    requires forall k :: 0 <= k < |c| ==> !IsLineTerminator(c[k])
    requires t == [] || IsLineTerminator(t[0])
    ensures StripLine("//" + c + t) == StripLine(t)
  {
    var s := "//" + c + t;
    var e := 2 + |c|;
    assert s[e..] == t;
    assert TerminatorAt(s, 2) == e by {
      forall k | 2 <= k < e ensures !IsLineTerminator(s[k]) {
        assert s[k] == c[k - 2];
      }
      assert e < |s| ==> s[e] == t[0];
      TerminatorAtEnd(s, 2, e);
    }
    StripLineCommentAt(s);
  }

  lemma StripLineCommentAt(s: string)
    requires |s| >= 2 && s[0] == '/' && s[1] == '/'
    ensures StripLine(s) == StripLine(s[TerminatorAt(s, 2)..])
  {
  }

  lemma TerminatorAtEnd(s: string, i: nat, e: nat)
    requires i <= e <= |s|
    requires forall k :: i <= k < e ==> !IsLineTerminator(s[k])
    requires e < |s| ==> IsLineTerminator(s[e])
    ensures TerminatorAt(s, i) == e
  {
  }

  /** A line comment after comment-free text: the text and the line break stay, the comment goes. */
  lemma StripLineMiddle(a: string, c: string, t: string)
    requires NoPair(a, '/', '/') && !(a != [] && a[|a| - 1] == '/')
    requires forall k :: 0 <= k < |c| ==> !IsLineTerminator(c[k])
    ensures StripLine(a + "//" + c + "\n" + t) == a + "\n" + StripLine(t)
  {
    var next := "\n" + t;
    var rest := "//" + c + next;
    assert StripLine(a + rest) == a + StripLine(rest) by {
      StripLineAppend(a, rest);
    }
    assert StripLine(rest) == StripLine(next) by {
      StripLineComment(c, next);
    }
    assert StripLine(next) == "\n" + StripLine(t) by {
      assert NoPair("\n", '/', '/');
      StripLineAppend("\n", t);
    }
    MiddleShape(a, "//", c, "\n", t);
    MiddleShape(a, "//", c, "\n", StripLine(t));
  }

  lemma MiddleShape(a: string, open: string, c: string, close: string, t: string)
    ensures a + open + c + close + t == a + (open + c + (close + t))
    ensures a + close + t == a + (close + t)
  {
  }

  /** Joining two pair-free texts makes a pair only where they meet. */
  lemma NoPairConcat(x: string, y: string, a: char, b: char)
    requires NoPair(x, a, b) && NoPair(y, a, b)
    requires !(x != [] && y != [] && x[|x| - 1] == a && y[0] == b)
    ensures NoPair(x + y, a, b)
  {
    var u := x + y;
    forall k | 0 <= k < |u| ensures !PairAt(u, k, a, b) {
      if k + 1 < |u| {
        if k + 1 < |x| {
          assert u[k] == x[k] && u[k + 1] == x[k + 1];
          assert !PairAt(x, k, a, b);
        } else if k >= |x| {
          assert u[k] == y[k - |x|] && u[k + 1] == y[k + 1 - |x|];
          assert !PairAt(y, k - |x|, a, b);
        } else {
          assert u[k] == x[|x| - 1] && u[k + 1] == y[0];
        }
      }
    }
  }

  /** Lines joined by a separator that is neither half of a pair contain no pair the lines lack. */
  lemma {:induction false} NoPairJoin(lines: seq<string>, sep: char, a: char, b: char)
    requires |lines| >= 1 && sep != a && sep != b
    requires forall k :: 0 <= k < |lines| ==> NoPair(lines[k], a, b)
    ensures NoPair(JoinChar(lines, sep), a, b)
    decreases |lines|
  {
    if |lines| > 1 {
      NoPairJoin(lines[1..], sep, a, b);
      assert NoPair([sep], a, b);
      NoPairConcat(lines[0], [sep], a, b);
      NoPairConcat(lines[0] + [sep], JoinChar(lines[1..], sep), a, b);
    }
  }

  /**
   * Comment-free lines joined by line feeds come back from `Normalize` as the same lines,
   * trimmed, with the empty ones dropped.
   */
  lemma NormalizeLines(lines: seq<string>)
    requires |lines| >= 1
    requires forall k :: 0 <= k < |lines| ==> '\n' !in lines[k] && '\r' !in lines[k]
    requires forall k :: 0 <= k < |lines| ==> NoPair(lines[k], '/', '*') && NoPair(lines[k], '/', '/')
    ensures Normalize(JoinChar(lines, '\n')) == NonEmpty(TrimAll(lines))
  {
    var text := JoinChar(lines, '\n');
    JoinedRawLines(lines);
    JoinedUncommented(lines);
    assert StripLine(StripBlock(JoinChar(RawLines(text), '\n'))) == text;
    SplitJoinChar(lines, '\n');
  }

  /** Joining lines without terminators and splitting them again gives the lines back. */
  lemma JoinedRawLines(lines: seq<string>)
    requires |lines| >= 1
    requires forall k :: 0 <= k < |lines| ==> '\n' !in lines[k] && '\r' !in lines[k]
    ensures RawLines(JoinChar(lines, '\n')) == lines
  {
    SplitJoinChar(lines, '\n');
    forall k | 0 <= k < |lines| ensures DropCr(lines[k]) == lines[k] {
      if |lines[k]| > 0 {
        assert lines[k][|lines[k]| - 1] in lines[k];
      }
    }
  }

  /** Lines without comment openers, joined by line feeds, pass both comment strippers unchanged. */
  lemma JoinedUncommented(lines: seq<string>)
    requires |lines| >= 1
    requires forall k :: 0 <= k < |lines| ==> NoPair(lines[k], '/', '*') && NoPair(lines[k], '/', '/')
    ensures StripLine(StripBlock(JoinChar(lines, '\n'))) == JoinChar(lines, '\n')
  {
    var text := JoinChar(lines, '\n');
    NoPairJoin(lines, '\n', '/', '*');
    NoPairJoin(lines, '\n', '/', '/');
    StripBlockNoComment(text);
    StripLineNoComment(text);
  }

  /** Empty or blank input yields no lines. */
  lemma NormalizeBlank(s: string)
    requires forall k :: 0 <= k < |s| ==> s[k] == ' '
    ensures Normalize(s) == []
  {
    assert NoPair(s, '/', '*') && NoPair(s, '/', '/');
    assert '\n' !in s && '\r' !in s;
    NormalizeSingleLine(s);
    assert SpacesIn(s, 0, |s|);
    SpaceEndOverSpaces(s, 0, |s|);
    assert Trim(s) == [];
  }
}

=== FILE: parser.dfy ===
/**
 * `parse`: reset, normalise the text, run the macro preprocessor, then walk the remaining
 * lines with a cursor, handing each keyword line to its section parser.
 */
module Parser {
  import opened Wrappers
  import opened JsText
  import opened Mesh
  import opened Normalizer
  import opened Macros
  import opened Sections
  import opened Blocks
  import opened Boundary

  /**
   * How a parse ends: with the collected model, in an endless loop of a section parser, or
   * with the exception of `_parseVertices` reading past the last line.
   */
  datatype Outcome = Parsed(ctx: Ctx) | Diverges | Throws

  /** The section keyword a line starts with, tried in the source's order. */
  datatype Keyword = ScaleKw | VerticesKw | EdgesKw | BlocksKw | BoundaryKw | MergeKw | NoKeyword

  function KeywordOf(line: string): Keyword {
    if StartsWith(line, "scale") then ScaleKw
    else if StartsWith(line, "vertices") then VerticesKw
    else if StartsWith(line, "edges") then EdgesKw
    else if StartsWith(line, "blocks") then BlocksKw
    else if StartsWith(line, "boundary") then BoundaryKw
    else if StartsWith(line, "mergePatchPairs") then MergeKw
    else NoKeyword
  }

  /** A line the dispatch loop hands to a section parser. */
  predicate HasKeyword(line: string) {
    KeywordOf(line) != NoKeyword
  }

  /** One iteration of the dispatch loop at line `i`. */
  function Handle(lines: seq<string>, i: nat, ctx: Ctx): (r: Run)
    requires i < |lines|
    ensures r.Next? ==> i < r.at <= |lines| && Grows(ctx, r.ctx)
    ensures !HasKeyword(LineAt(lines, i)) ==> r == Next(i + 1, ctx)
  {
    match KeywordOf(LineAt(lines, i))
    case ScaleKw => var r := ParseScale(lines, i, ctx); ScaleGrows(ctx, r.ctx); r
    case VerticesKw => var r := ParseVertices(lines, i, ctx); VerticesGrow(ctx, r); r
    case EdgesKw => var r := ParseEdges(lines, i, ctx); EdgesGrow(ctx, r.ctx); r
    case BlocksKw => var r := ParseBlocks(lines, i, ctx); BlocksGrow(ctx, r.ctx); r
    case BoundaryKw => var r := ParseBoundary(lines, i, ctx); BoundaryGrows(ctx, r.ctx); r
    case MergeKw => var r := ParseMergePatchPairs(lines, i, ctx); MergePairsGrow(ctx, r.ctx); r
    case NoKeyword => GrowsReflexive(ctx); Next(i + 1, ctx)
  }

  // Each section parser only appends: its own contract, restated as `Grows`.

  lemma GrowsReflexive(a: Ctx)
    ensures Grows(a, a)
  {
    PrefixRefl(a.vertices); PrefixRefl(a.edges); PrefixRefl(a.blocks);
    PrefixRefl(a.boundary); PrefixRefl(a.mergePatchPairs); PrefixRefl(a.errors);
  }

  lemma ScaleGrows(a: Ctx, b: Ctx)
    requires b == a.(scale := b.scale, errors := b.errors) && IsPrefix(a.errors, b.errors)
    ensures Grows(a, b)
  {
    PrefixRefl(a.vertices); PrefixRefl(a.edges); PrefixRefl(a.blocks);
    PrefixRefl(a.boundary); PrefixRefl(a.mergePatchPairs);
  }

  lemma VerticesGrow(a: Ctx, r: Run)
    requires r.Next? ==> OnlyVertices(a, r.ctx)
    ensures r.Next? ==> Grows(a, r.ctx)
  {
    PrefixRefl(a.edges); PrefixRefl(a.blocks); PrefixRefl(a.boundary); PrefixRefl(a.mergePatchPairs);
  }

  lemma EdgesGrow(a: Ctx, b: Ctx)
    requires OnlyEdges(a, b)
    ensures Grows(a, b)
  {
    PrefixRefl(a.vertices); PrefixRefl(a.blocks); PrefixRefl(a.boundary); PrefixRefl(a.mergePatchPairs);
  }

  lemma BlocksGrow(a: Ctx, b: Ctx)
    requires OnlyBlocks(a, b)
    ensures Grows(a, b)
  {
    PrefixRefl(a.vertices); PrefixRefl(a.edges); PrefixRefl(a.boundary); PrefixRefl(a.mergePatchPairs);
  }

  lemma BoundaryGrows(a: Ctx, b: Ctx)
    requires OnlyBoundary(a, b)
    ensures Grows(a, b)
  {
    PrefixRefl(a.vertices); PrefixRefl(a.edges); PrefixRefl(a.blocks); PrefixRefl(a.mergePatchPairs);
  }

  lemma MergePairsGrow(a: Ctx, b: Ctx)
    requires OnlyMergePairs(a, b)
    ensures Grows(a, b)
  {
    PrefixRefl(a.vertices); PrefixRefl(a.edges); PrefixRefl(a.blocks); PrefixRefl(a.boundary);
  }

  /** Where a handler's outcome takes the loop. */
  lemma DispatchStep(lines: seq<string>, i: nat, ctx: Ctx)
    requires i < |lines|
    ensures Handle(lines, i, ctx).Hang? ==> Dispatch(lines, i, ctx) == Diverges
    ensures Handle(lines, i, ctx).Crash? ==> Dispatch(lines, i, ctx) == Throws
  {
  }

  /** The dispatch loop from line `i`. Every handler moves the cursor forward or stops the parse. */
  function Dispatch(lines: seq<string>, i: nat, ctx: Ctx): (r: Outcome)
    requires i <= |lines|
    ensures r.Parsed? ==> Grows(ctx, r.ctx)
    decreases |lines| - i
  {
    if i == |lines| then Parsed(ctx)
    else
      match Handle(lines, i, ctx)
      case Next(j, c) =>
        var r := Dispatch(lines, j, c);
        GrowsThen(ctx, c, r);
        r
      case Hang(_) => Diverges
      case Crash(_) => Throws
  }

  lemma GrowsThen(a: Ctx, b: Ctx, r: Outcome)
    requires Grows(a, b) && (r.Parsed? ==> Grows(b, r.ctx))
    ensures r.Parsed? ==> Grows(a, r.ctx)
  {
    if r.Parsed? { GrowsTransitive(a, b, r.ctx); }
  }

  /** The state the dispatch loop starts from: reset, then the preprocessor's table and diagnostics. */
  function Start(pre: Pre): Ctx {
    Reset().(macros := pre.macros, errors := pre.errors)
  }

  /**
   * `parse(fileContent)`. The macro table and the preprocessor's diagnostics are in place
   * before the first section is read, and the sections never change the table.
   */
  function Parse(ev: Evaluator, text: string): (r: Outcome)
    ensures var pre := Preprocess(ev, Normalize(text));
      r.Parsed? ==> r.ctx.macros == pre.macros && IsPrefix(pre.errors, r.ctx.errors)
  {
    var pre := Preprocess(ev, Normalize(text));
    Dispatch(pre.kept, 0, Start(pre))
  }

  // ----- properties -----

  /** The preprocessor keeps only lines it was given. */
  lemma {:induction false} SurvivorsFrom(lines: seq<string>)
    ensures forall k :: 0 <= k < |Survivors(lines)| ==> Survivors(lines)[k] in lines
    decreases |lines|
  {
    if lines != [] {
      SurvivorsFrom(lines[1..]);
      var head := if IsDefinition(lines[0]) then [] else [lines[0]];
      assert Survivors(lines) == head + Survivors(lines[1..]);
      forall k | 0 <= k < |Survivors(lines)| ensures Survivors(lines)[k] in lines {
        if k < |head| {
          assert Survivors(lines)[k] == lines[0];
        } else {
          assert Survivors(lines)[k] == Survivors(lines[1..])[k - |head|];
          assert Survivors(lines[1..])[k - |head|] in lines[1..];
        }
      }
    }
  }

  /**
   * Every line the section parsers read is non-empty and trimmed, so trimming it again (as
   * the source does on every read) changes nothing; this is why `LineAt` reads the line as
   * stored.
   */
  lemma StoredLinesTrimmed(ev: Evaluator, text: string)
    ensures var kept := Preprocess(ev, Normalize(text)).kept;
      forall k :: 0 <= k < |kept| ==> kept[k] != [] && Trim(kept[k]) == kept[k] && LineAt(kept, k) == Trim(kept[k])
  {
    var lines := Normalize(text);
    var kept := Preprocess(ev, lines).kept;
    SurvivorsFrom(lines);
    forall k | 0 <= k < |kept| ensures kept[k] != [] && Trim(kept[k]) == kept[k] {
      assert kept[k] in lines;
      TrimOfTrimmed(kept[k]);
    }
  }

  /** A line without a section keyword is passed over without any effect. */
  lemma UnkeyedLineSkipped(lines: seq<string>, i: nat, ctx: Ctx)
    requires i < |lines| && !HasKeyword(LineAt(lines, i))
    ensures Dispatch(lines, i, ctx) == Dispatch(lines, i + 1, ctx)
  {
  }

  /** With no keyword line from `i` on, the loop ends with the context it was given. */
  lemma {:induction false} NoSectionsNoChange(lines: seq<string>, i: nat, ctx: Ctx)
    requires i <= |lines|
    requires forall k :: i <= k < |lines| ==> !HasKeyword(LineAt(lines, k))
    ensures Dispatch(lines, i, ctx) == Parsed(ctx)
    decreases |lines| - i
  {
    if i < |lines| {
      NoSectionsNoChange(lines, i + 1, ctx);
    }
  }

  /**
   * A text with no section keyword parses to the reset state (scale 1, every list empty)
   * plus the preprocessor's table and diagnostics.
   */
  lemma ParseWithoutSections(ev: Evaluator, text: string)
    requires var kept := Preprocess(ev, Normalize(text)).kept;
      forall k :: 0 <= k < |kept| ==> !HasKeyword(kept[k])
    ensures var pre := Preprocess(ev, Normalize(text));
      Parse(ev, text) == Parsed(Reset().(macros := pre.macros, errors := pre.errors))
  {
    var pre := Preprocess(ev, Normalize(text));
    NoSectionsNoChange(pre.kept, 0, Start(pre));
  }

  /**
   * `vertices` on the last line throws: the parser reads the line after it without a bounds
   * check. No other handler can throw.
   */
  lemma HandleThrows(lines: seq<string>, i: nat, ctx: Ctx)
    requires i < |lines|
    ensures Handle(lines, i, ctx).Crash? <==> i + 1 == |lines| && StartsWith(LineAt(lines, i), "vertices")
  {
    KeywordVertices(LineAt(lines, i));
  }

  lemma KeywordVertices(line: string)
    ensures StartsWith(line, "vertices") <==> KeywordOf(line) == VerticesKw
  {
    if StartsWith(line, "vertices") {
      assert line[0] == 'v' by { assert line[0] == line[..8][0]; }
      assert !StartsWith(line, "scale") by { assert |line| < 5 || line[..5][0] == 'v'; }
    }
  }

  /** In particular a final `vertices` line that the loop reaches ends the parse with the exception. */
  lemma VerticesLastThrows(lines: seq<string>, i: nat, ctx: Ctx)
    requires i + 1 == |lines| && StartsWith(LineAt(lines, i), "vertices")
    ensures Dispatch(lines, i, ctx) == Throws
  {
    HandleThrows(lines, i, ctx);
    DispatchStep(lines, i, ctx);
  }

  lemma KeywordBlocks(line: string)
    requires StartsWith(line, "blocks")
    ensures KeywordOf(line) == BlocksKw
  {
    assert line[0] == 'b' && line[1] == 'l' by { assert line[..6][0] == line[0] && line[..6][1] == line[1]; }
    assert !StartsWith(line, "boundary") by { assert |line| < 8 || line[..8][1] == 'l'; }
    assert !StartsWith(line, "scale") by { assert |line| < 5 || line[..5][0] == 'b'; }
    assert !StartsWith(line, "vertices") by { assert |line| < 8 || line[..8][0] == 'b'; }
    assert !StartsWith(line, "edges") by { assert |line| < 5 || line[..5][0] == 'b'; }
  }

  lemma KeywordBoundary(line: string)
    requires StartsWith(line, "boundary")
    ensures KeywordOf(line) == BoundaryKw
  {
    assert line[0] == 'b' && line[1] == 'o' by { assert line[..8][0] == line[0] && line[..8][1] == line[1]; }
    assert !StartsWith(line, "blocks") by { assert |line| < 6 || line[..6][1] == 'o'; }
    assert !StartsWith(line, "scale") by { assert |line| < 5 || line[..5][0] == 'b'; }
    assert !StartsWith(line, "vertices") by { assert |line| < 8 || line[..8][0] == 'b'; }
    assert !StartsWith(line, "edges") by { assert |line| < 5 || line[..5][0] == 'b'; }
  }

  /** A blocks list with a malformed hex line before its closing line makes the parse diverge. */
  lemma MalformedHexDiverges(lines: seq<string>, i: nat, ctx: Ctx)
    requires i + 1 < |lines| && StartsWith(LineAt(lines, i), "blocks") && LineAt(lines, i + 1) == "("
    requires MalformedBefore(lines, i + 2, CloseIndex(lines, i + 2))
    ensures Dispatch(lines, i, ctx) == Diverges
  {
    HandleBlocksHangs(lines, i, ctx);
    DispatchStep(lines, i, ctx);
  }

  lemma HandleBlocksHangs(lines: seq<string>, i: nat, ctx: Ctx)
    requires i + 1 < |lines| && StartsWith(LineAt(lines, i), "blocks") && LineAt(lines, i + 1) == "("
    requires MalformedBefore(lines, i + 2, CloseIndex(lines, i + 2))
    ensures Handle(lines, i, ctx).Hang?
  {
    BlockListHangs(lines, i + 2, ctx);
    HandleBlocksList(lines, i, ctx);
  }

  /** A `blocks` line followed by `(` hands the lines after them to the block list loop. */
  lemma HandleBlocksList(lines: seq<string>, i: nat, ctx: Ctx)
    requires i + 1 < |lines| && StartsWith(LineAt(lines, i), "blocks") && LineAt(lines, i + 1) == "("
    ensures Handle(lines, i, ctx) == BlockList(lines, i + 2, ctx)
  {
    KeywordBlocks(LineAt(lines, i));
  }

  /** A `boundary` line followed by `(` hands the lines after them to the patch list loop. */
  lemma HandleBoundaryList(lines: seq<string>, i: nat, ctx: Ctx)
    requires i + 1 < |lines| && StartsWith(LineAt(lines, i), "boundary") && LineAt(lines, i + 1) == "("
    ensures Handle(lines, i, ctx) == PatchList(lines, i + 2, ctx)
  {
    KeywordBoundary(LineAt(lines, i));
  }

  /** A boundary list whose first entry is a stuck line makes the parse diverge. */
  lemma StuckBoundaryDiverges(lines: seq<string>, i: nat, ctx: Ctx)
    requires i + 2 < |lines| && StartsWith(LineAt(lines, i), "boundary") && LineAt(lines, i + 1) == "("
    requires StuckAt(lines, i + 2)
    ensures Dispatch(lines, i, ctx) == Diverges
  {
    HandleBoundaryHangs(lines, i, ctx);
    DispatchStep(lines, i, ctx);
  }

  lemma HandleBoundaryHangs(lines: seq<string>, i: nat, ctx: Ctx)
    requires i + 2 < |lines| && StartsWith(LineAt(lines, i), "boundary") && LineAt(lines, i + 1) == "("
    requires StuckAt(lines, i + 2)
    ensures Handle(lines, i, ctx).Hang?
  {
    BoundaryRecoveryHangs(lines, i + 2, ctx);
    HandleBoundaryList(lines, i, ctx);
  }
}

=== FILE: patterns.dfy ===
/**
 * The regular expressions of the parser, each written out as a scan over positions that
 * follows JavaScript's leftmost, backtracking match. Where a pattern could backtrack, the
 * comment says why only one candidate can succeed (or which one the greedy order picks).
 */
module Patterns {
  import opened Wrappers
  import opened JsText

  /**
   * `/\(([^)]+)\)/` tried at position `p` only: an opening parenthesis, at least one
   * character that is not `)`, and the first `)` after it. The greedy `[^)]+` always stops
   * at that first `)`, so the closing position is the result.
   */
  function ParenGroupAt(s: string, p: nat): (r: Option<nat>)
    requires p <= |s|
    ensures r.Some? ==> p + 1 < r.value < |s| && s[p] == '(' && s[r.value] == ')'
    ensures r.Some? ==> ')' !in s[p + 1..r.value]
  {
    if p < |s| && s[p] == '(' && p + 1 < |s| then
      match IndexOfChar(s, ')', p + 1)
      case Some(q) => if q > p + 1 then Some(q) else None
      case None => None
    else None
  }

  /**
   * `s.match(/\(([^)]+)\)/)`: the leftmost position where `ParenGroupAt` succeeds, with
   * its closing position. The captured group is `s[p + 1..q]`.
   */
  function FirstParenGroup(s: string, from: nat): (r: Option<(nat, nat)>)
    requires from <= |s|
    ensures r.Some? ==> from <= r.value.0 < |s| && ParenGroupAt(s, r.value.0) == Some(r.value.1)
    ensures r.Some? ==> forall p :: from <= p < r.value.0 ==> ParenGroupAt(s, p).None?
    ensures r.None? ==> forall p :: from <= p <= |s| ==> ParenGroupAt(s, p).None?
    decreases |s| - from
  {
    if from == |s| then None
    else
      match ParenGroupAt(s, from)
      case Some(q) => Some((from, q))
      case None => FirstParenGroup(s, from + 1)
  }

  /** The text captured by `/\(([^)]+)\)/`, if the pattern matches. */
  function ParenGroup(s: string): (r: Option<string>)
    ensures r.Some? ==> r.value != [] && ')' !in r.value
  {
    match FirstParenGroup(s, 0)
    case Some((p, q)) => Some(s[p + 1..q])
    case None => None
  }

  /** `/^\(([^)]+)\)/`: the same pattern anchored at the start of the text. */
  function LeadingParenGroup(s: string): (r: Option<string>)
    ensures r.Some? ==> StartsWith(s, "(") && r.value != [] && ')' !in r.value
    ensures r.Some? ==> ParenGroup(s) == r
  {
    match ParenGroupAt(s, 0)
    case Some(q) => Some(s[1..q])
    case None => None
  }

  /** `IndexOfChar` finds `c` at `q` when nothing between the start and `q` is `c`. */
  lemma {:induction false} IndexOfCharAt(s: string, c: char, i: nat, q: nat)
    requires i <= q < |s| && s[q] == c
    requires forall k :: i <= k < q ==> s[k] != c
    ensures IndexOfChar(s, c, i) == Some(q)
    decreases q - i
  {
    if i < q {
      IndexOfCharAt(s, c, i + 1, q);
    }
  }

  /** A group that contains no `)` is read back from between parentheses after `)`-free text. */
  lemma ParenGroupOfWrapped(pre: string, g: string, post: string)
    requires '(' !in pre && g != [] && ')' !in g
    ensures FirstParenGroup(pre + "(" + g + ")" + post, 0) == Some((|pre|, |pre| + 1 + |g|))
    ensures ParenGroup(pre + "(" + g + ")" + post) == Some(g)
  {
    var s := pre + "(" + g + ")" + post;
    var p := |pre|;
    forall k | 0 <= k < p ensures ParenGroupAt(s, k).None? {
      assert s[k] == pre[k];
    }
    assert s[p] == '(';
    assert s[p + 1..p + 1 + |g|] == g;
    assert s[p + 1 + |g|] == ')';
    forall k | p + 1 <= k < p + 1 + |g| ensures s[k] != ')' {
      assert s[k] == g[k - p - 1];
    }
    IndexOfCharAt(s, ')', p + 1, p + 1 + |g|);
    assert ParenGroupAt(s, p) == Some(p + 1 + |g|);
    FirstParenGroupAfterMisses(s, 0, p);
  }

  /** The scan skips positions where the pattern fails and stops at the first success. */
  lemma {:induction false} FirstParenGroupAfterMisses(s: string, from: nat, p: nat)
    requires from <= p < |s| && ParenGroupAt(s, p).Some?
    requires forall k :: from <= k < p ==> ParenGroupAt(s, k).None?
    ensures FirstParenGroup(s, from) == Some((p, ParenGroupAt(s, p).value))
    decreases p - from
  {
    if from < p {
      FirstParenGroupAfterMisses(s, from + 1, p);
    }
  }

  /**
   * `/hex\s*\(([^)]+)\)/`: the leftmost `hex`, optional white space, then a parenthesised
   * group. Returns the length of the whole match and the group. The greedy `\s*` cannot
   * give back a character, because a white-space character never matches `(`.
   */
  function HexMatch(s: string, from: nat): (r: Option<(nat, string)>)
    requires from <= |s|
    ensures r.Some? ==> r.value.0 <= |s| - from && r.value.1 != [] && ')' !in r.value.1
    decreases |s| - from
  {
    if from == |s| then None
    else if OccursAt(s, "hex", from) then
      var u := SpaceEnd(s, from + 3);
      match ParenGroupAt(s, u)
      case Some(q) => Some((q + 1 - from, s[u + 1..q]))
      case None => HexMatch(s, from + 1)
    else HexMatch(s, from + 1)
  }

  /** A hex line written as `hex (g)...` is matched at its start with group `g`. */
  lemma HexMatchOfLine(g: string, rest: string)
    requires g != [] && ')' !in g
    ensures HexMatch("hex (" + g + ")" + rest, 0) == Some((|g| + 6, g))
  {
    var s := "hex (" + g + ")" + rest;
    assert OccursAt(s, "hex", 0);
    assert s[3] == ' ' && s[4] == '(';
    assert SpaceEnd(s, 3) == 4 by { assert SpaceEnd(s, 4) == 4; }
    assert s[5..5 + |g|] == g;
    assert s[5 + |g|] == ')';
    forall k | 5 <= k < 5 + |g| ensures s[k] != ')' {
      assert s[k] == g[k - 5];
    }
    IndexOfCharAt(s, ')', 5, 5 + |g|);
  }

  /**
   * `/faces\s+\(\(([^)]+)\)\)/`: `faces`, white space, `((`, a group without `)`, and `))`.
   * The group ends at the first `)` after `((`, which must be followed by another `)`.
   */
  function InlineFacesMatch(s: string, from: nat): (r: Option<string>)
    requires from <= |s|
    ensures r.Some? ==> r.value != [] && ')' !in r.value
    decreases |s| - from
  {
    if from == |s| then None
    else if OccursAt(s, "faces", from) then
      var w := SpaceEnd(s, from + 5);
      if w > from + 5 && w + 2 < |s| && s[w] == '(' && s[w + 1] == '(' then
        match IndexOfChar(s, ')', w + 2)
        case Some(q) =>
          if q > w + 2 && q + 1 < |s| && s[q + 1] == ')' then Some(s[w + 2..q])
          else InlineFacesMatch(s, from + 1)
        case None => InlineFacesMatch(s, from + 1)
      else InlineFacesMatch(s, from + 1)
    else InlineFacesMatch(s, from + 1)
  }

  /** An inline face line `faces ((g));` is matched at its start with group `g`. */
  lemma InlineFacesMatchOfLine(g: string)
    requires g != [] && ')' !in g
    ensures InlineFacesMatch("faces ((" + g + "));", 0) == Some(g)
  {
    var s := "faces ((" + g + "));";
    assert OccursAt(s, "faces", 0) by { assert s[0..5] == "faces"; }
    assert s[5] == ' ' && s[6] == '(' && s[7] == '(';
    assert SpaceEnd(s, 5) == 6 by { assert SpaceEnd(s, 6) == 6; }
    assert s[8..8 + |g|] == g;
    assert s[8 + |g|] == ')' && s[9 + |g|] == ')';
    forall k | 8 <= k < 8 + |g| ensures s[k] != ')' {
      assert s[k] == g[k - 8];
    }
    IndexOfCharAt(s, ')', 8, 8 + |g|);
  }

  /**
   * Where the last `(\S+)` of a tuple pattern may end. Its run of non-space characters is
   * `s[e..f]`; the group must end at `k` with `\s*\)` matching after it: either `k == f`
   * and `)` follows after white space, or `k < f` and `s[k]` is itself `)`.
   */
  predicate ClosesAt(s: string, f: nat, k: nat)
    requires k <= f <= |s|
  {
    if k == f then (var w := SpaceEnd(s, f); w < |s| && s[w] == ')') else s[k] == ')'
  }

  /** The greedy choice: the longest end `k` in `(e, kMax]` at which `ClosesAt` holds. */
  function LastGroupEnd(s: string, e: nat, f: nat, kMax: nat): (r: Option<nat>)
    requires e < kMax <= f <= |s|
    ensures r.Some? ==> e < r.value <= kMax && ClosesAt(s, f, r.value)
    ensures r.Some? ==> forall k :: r.value < k <= kMax ==> !ClosesAt(s, f, k)
    ensures r.None? ==> forall k :: e < k <= kMax ==> !ClosesAt(s, f, k)
    decreases kMax
  {
    if ClosesAt(s, f, kMax) then Some(kMax)
    else if kMax - 1 > e then LastGroupEnd(s, e, f, kMax - 1)
    else None
  }

  /**
   * The groups `(\S+)\s+ ... (\S+)\s*\)` of a tuple pattern at the start of `u`. Every
   * group but the last is a maximal run of non-space characters (the `\s+` after it leaves
   * no other choice); the last is the greedy prefix of its run chosen by `LastGroupEnd`.
   */
  function Groups(u: string, n: nat): (r: Option<seq<string>>)
    requires n >= 1
    ensures r.Some? ==> |r.value| == n
    decreases n
  {
    var b := WordEnd(u, 0);
    if b == 0 then None
    else if n == 1 then
      match LastGroupEnd(u, 0, b, b)
      case Some(k) => Some([u[..k]])
      case None => None
    else
      var c := SpaceEnd(u, b);
      if c == b then None
      else
        match Groups(u[c..], n - 1)
        case Some(gs) => Some([u[..b]] + gs)
        case None => None
  }

  /** `/\(\s*(\S+)\s+ ... (\S+)\s*\)/` with `n` groups, tried at position `p` only. */
  function TupleAt(s: string, p: nat, n: nat): (r: Option<seq<string>>)
    requires p <= |s| && n >= 1
    ensures r.Some? ==> p < |s| && s[p] == '(' && |r.value| == n
  {
    if p < |s| && s[p] == '(' then Groups(s[SpaceEnd(s, p + 1)..], n) else None
  }

  /** The leftmost match of the `n`-group tuple pattern, if any. */
  function TupleMatch(s: string, from: nat, n: nat): (r: Option<seq<string>>)
    requires from <= |s| && n >= 1
    ensures r.Some? ==> |r.value| == n
    ensures r.None? ==> forall p :: from <= p <= |s| ==> TupleAt(s, p, n).None?
    decreases |s| - from
  {
    if from == |s| then None
    else
      match TupleAt(s, from, n)
      case Some(gs) => Some(gs)
      case None => TupleMatch(s, from + 1, n)
  }

  /** `/\(\s*(\S+)\s+(\S+)\s+(\S+)\s*\)/`, the pattern of one vertex. */
  function TripleMatch(s: string): (r: Option<seq<string>>)
    ensures r.Some? ==> |r.value| == 3
  {
    TupleMatch(s, 0, 3)
  }

  /** `/\(\s*(\S+)\s+(\S+)\s*\)/`, the pattern of one merge pair. */
  function PairMatch(s: string): (r: Option<seq<string>>)
    ensures r.Some? ==> |r.value| == 2
  {
    TupleMatch(s, 0, 2)
  }

  /** The canonical text `(t1 t2 ... tn)` of space-free tokens is matched with exactly those groups. */
  lemma TupleOfCanonical(ts: seq<string>)
    requires |ts| >= 1 && IsWords(ts)
    ensures TupleMatch("(" + JoinWs(ts) + ")", 0, |ts|) == Some(ts)
  {
    JoinWsHead(ts);
    ParenthesizedStart(JoinWs(ts));
    GroupsOfCanonical(ts);
    assert TupleAt("(" + JoinWs(ts) + ")", 0, |ts|) == Some(ts);
  }

  /** In `(j)` with `j` starting outside white space, the groups start right after `(`. */
  lemma ParenthesizedStart(j: string)
    requires j != [] && !IsSpace(j[0])
    ensures var s := "(" + j + ")"; s[0] == '(' && SpaceEnd(s, 1) == 1 && s[1..] == j + ")"
  {
    var s := "(" + j + ")";
    assert s[1] == j[0];
    assert s[1..] == j + ")";
  }

  /** The groups of a canonical tuple body `t1 t2 ... tn)` are exactly its tokens. */
  lemma {:induction false} GroupsOfCanonical(ts: seq<string>)
    requires |ts| >= 1 && IsWords(ts)
    ensures Groups(JoinWs(ts) + ")", |ts|) == Some(ts)
    decreases |ts|
  {
    var t := ts[0];
    if |ts| == 1 {
      assert JoinWs(ts) == t;
      LastGroupOfCanonical(t);
      assert [t] == ts;
    } else {
      var rest := ts[1..];
      var tail := JoinWs(rest);
      var u := JoinWs(ts) + ")";
      assert u == t + " " + tail + ")";
      JoinWsHead(rest);
      GroupsOfCanonical(rest);
      GroupsStep(t, tail, |ts|, rest);
      assert [t] + rest == ts;
    }
  }

  /** A leading token and one space add that token in front of the remaining groups. */
  lemma GroupsStep(t: string, tail: string, n: nat, gs: seq<string>)
    requires t != [] && NoSpace(t) && tail != [] && !IsSpace(tail[0])
    requires n >= 2 && Groups(tail + ")", n - 1) == Some(gs)
    ensures Groups(t + " " + tail + ")", n) == Some([t] + gs)
  {
    CanonicalHead(t, tail);
  }

  /** The first token of `t tail)`: a maximal word followed by exactly one space. */
  lemma CanonicalHead(t: string, tail: string)
    requires t != [] && NoSpace(t) && tail != [] && !IsSpace(tail[0])
    ensures var u := t + " " + tail + ")";
      && WordEnd(u, 0) == |t| && SpaceEnd(u, |t|) == |t| + 1 && u[..|t|] == t && u[|t| + 1..] == tail + ")"
  {
    CanonicalWord(t, tail);
    CanonicalSpace(t, tail);
    CanonicalSlices(t, tail);
  }

  lemma CanonicalSlices(t: string, tail: string)
    ensures var u := t + " " + tail + ")"; u[..|t|] == t && u[|t| + 1..] == tail + ")"
  {
    var u := t + " " + tail + ")";
    assert u[..|t|] == t;
    assert u[|t| + 1..] == tail + ")";
  }

  lemma CanonicalWord(t: string, tail: string)
    requires t != [] && NoSpace(t)
    ensures WordEnd(t + " " + tail + ")", 0) == |t|
  {
    var u := t + " " + tail + ")";
    assert u[|t|] == ' ';
    WordEndFrom(u, 0, |t|) by {
      forall i | 0 <= i < |t| ensures !IsSpace(u[i]) { assert u[i] == t[i]; }
    }
  }

  lemma CanonicalSpace(t: string, tail: string)
    requires tail != [] && !IsSpace(tail[0])
    ensures SpaceEnd(t + " " + tail + ")", |t|) == |t| + 1
  {
    var u := t + " " + tail + ")";
    assert u[|t|] == ' ' && u[|t| + 1] == tail[0];
    assert SpaceEnd(u, |t| + 1) == |t| + 1;
  }

  /** The last token, directly followed by `)`, is the last group. */
  lemma LastGroupOfCanonical(t: string)
    requires t != [] && NoSpace(t)
    ensures Groups(t + ")", 1) == Some([t])
  {
    var u := t + ")";
    WordEndFrom(u, 0, |u|) by {
      forall i | 0 <= i < |u| ensures !IsSpace(u[i]) {
        if i < |t| { assert u[i] == t[i]; }
      }
    }
    assert u[..|t|] == t;
    assert !ClosesAt(u, |u|, |u|);
    assert ClosesAt(u, |u|, |u| - 1);
    assert LastGroupEnd(u, 0, |u|, |u|) == Some(|u| - 1);
  }

  /** The class `[\d.-]` of the spline point pattern. */
  predicate IsNumberChar(c: char) {
    ('0' <= c <= '9') || c == '.' || c == '-'
  }

  /** Position of the first character outside `[\d.-]` at or after `i`. */
  function NumberRunEnd(s: string, i: nat): (r: nat)
    requires i <= |s|
    ensures i <= r <= |s|
    ensures forall k :: i <= k < r ==> IsNumberChar(s[k])
    ensures r < |s| ==> !IsNumberChar(s[r])
    decreases |s| - i
  {
    if i < |s| && IsNumberChar(s[i]) then NumberRunEnd(s, i + 1) else i
  }

  /** Three coordinate texts of one spline or polyline point. */
  datatype PointText = PointText(x: string, y: string, z: string)

  /**
   * `/\(\s*[\d.-]+\s+[\d.-]+\s+[\d.-]+\s*\)/` at position `p`: the three runs and the
   * position after the match. White space, `[\d.-]` and `)` are disjoint, so every
   * quantifier takes a maximal run and nothing backtracks.
   */
  function PointAt(s: string, p: nat): (r: Option<(PointText, nat)>)
    requires p <= |s|
    ensures r.Some? ==> p < r.value.1 <= |s|
  {
    if p < |s| && s[p] == '(' then
      var (a, b) := SpacedRun(s, p + 1);
      var (c, d) := SpacedRun(s, b);
      var (e, f) := SpacedRun(s, d);
      var g := SpaceEnd(s, f);
      if a < b < c < d < e < f && g < |s| && s[g] == ')' then
        Some((PointText(s[a..b], s[c..d], s[e..f]), g + 1))
      else None
    else None
  }

  /** `\s*[\d.-]*` from `i`: where the run of number characters starts and ends. */
  function SpacedRun(s: string, i: nat): (r: (nat, nat))
    requires i <= |s|
    ensures i <= r.0 <= r.1 <= |s|
  {
    var a := SpaceEnd(s, i);
    (a, NumberRunEnd(s, a))
  }

  /** `s.match(/…/g)` for the point pattern: every non-overlapping match, left to right. */
  function PointGroups(s: string, from: nat): (r: seq<PointText>)
    requires from <= |s|
    ensures |r| <= |s| - from
    decreases |s| - from
  {
    if from == |s| then []
    else
      match PointAt(s, from)
      case Some((pt, next)) => [pt] + PointGroups(s, next)
      case None => PointGroups(s, from + 1)
  }

  /** `s.replace(/[()]/g, '')`. */
  function RemoveParens(s: string): (r: string)
    ensures '(' !in r && ')' !in r
    ensures |r| <= |s|
    ensures forall c :: c != '(' && c != ')' ==> multiset(r)[c] == multiset(s)[c]
  {
    if s == [] then []
    else
      var rest := RemoveParens(s[1..]);
      assert s == [s[0]] + s[1..];
      (if s[0] == '(' || s[0] == ')' then [] else [s[0]]) + rest
  }

  /** Removing parentheses works piece by piece, so the other characters keep their order. */
  lemma {:induction false} RemoveParensAppend(a: string, b: string)
    ensures RemoveParens(a + b) == RemoveParens(a) + RemoveParens(b)
  {
    if a != [] {
      assert (a + b)[1..] == a[1..] + b;
      RemoveParensAppend(a[1..], b);
    } else {
      assert a + b == b;
    }
  }

  /** Text without parentheses is left as it is. */
  lemma {:induction false} RemoveParensKeeps(s: string)
    requires '(' !in s && ')' !in s
    ensures RemoveParens(s) == s
  {
    if s != [] {
      assert s[0] in s;
      assert forall c :: c in s[1..] ==> c in s;
      RemoveParensKeeps(s[1..]);
      assert s == [s[0]] + s[1..];
    }
  }

  /** A parenthesised group of plain text loses exactly its two parentheses. */
  lemma RemoveParensOfGroup(a: string, b: string)
    requires '(' !in a && ')' !in a && '(' !in b && ')' !in b
    ensures RemoveParens("(" + a + ")" + b) == a + b
  {
    var x := "(" + a;
    var y := x + ")";
    assert RemoveParens(x) == a by {
      RemoveParensAppend("(", a);
      RemoveParensKeeps(a);
      assert RemoveParens("(") == [] by { assert "("[1..] == []; }
    }
    assert RemoveParens(y) == a by {
      RemoveParensAppend(x, ")");
      assert RemoveParens(")") == [] by { assert ")"[1..] == []; }
    }
    assert RemoveParens(y + b) == a + b by {
      RemoveParensAppend(y, b);
      RemoveParensKeeps(b);
    }
  }

  /**
   * `s.split(/\)\s*(?=\()/)`: cut at every `)` that is followed, after optional white
   * space, by `(`; the `)` and the white space go, the `(` stays.
   */
  function SplitBetweenGroups(s: string, from: nat): (r: seq<string>)
    requires from <= |s|
    ensures |r| >= 1
    decreases |s| - from
  {
    if from == |s| then [s]
    else
      if CutAt(s, from) then
        [s[..from]] + SplitBetweenGroups(s[SpaceEnd(s, from + 1)..], 0)
      else
        SplitBetweenGroups(s, from + 1)
  }

  /** A `)` at position `i` that the split pattern cuts at. */
  predicate CutAt(s: string, i: nat)
    requires i < |s|
  {
    s[i] == ')' && SpaceEnd(s, i + 1) < |s| && s[SpaceEnd(s, i + 1)] == '('
  }

  /** Text with no `)` followed by `(` stays in one piece. */
  lemma {:induction false} SplitBetweenGroupsNoCut(s: string, from: nat)
    requires from <= |s|
    requires forall i :: from <= i < |s| ==> !CutAt(s, i)
    ensures SplitBetweenGroups(s, from) == [s]
    decreases |s| - from
  {
    if from < |s| {
      SplitBetweenGroupsNoCut(s, from + 1);
    }
  }

  /** Position of the first character outside `[a-zA-Z0-9_]` at or after `i`. */
  function IdentEnd(s: string, i: nat): (r: nat)
    requires i <= |s|
    ensures i <= r <= |s|
    ensures forall k :: i <= k < r ==> IsWordChar(s[k])
    ensures r < |s| ==> !IsWordChar(s[r])
    decreases |s| - i
  {
    if i < |s| && IsWordChar(s[i]) then IdentEnd(s, i + 1) else i
  }

  predicate NoLineTerminator(s: string) {
    forall k :: 0 <= k < |s| ==> !IsLineTerminator(s[k])
  }

  /**
   * `/^([a-zA-Z_][a-zA-Z0-9_]*)\s+(.*?);$/`: a macro definition line, as its name and raw
   * value. The lazy `(.*?)` must reach the final `;` because `$` only matches at the end,
   * and the greedy `\s+` before it cannot usefully give characters back.
   */
  function MacroMatch(line: string): (r: Option<(string, string)>)
    ensures r.Some? ==> IsIdentLine(r.value.0) && IsIdentStart(r.value.0[0])
    ensures r.Some? ==> |r.value.0| < |line| - |r.value.1| - 1
    ensures r.Some? ==> line[..|r.value.0|] == r.value.0 && line[|line| - |r.value.1| - 1..] == r.value.1 + ";"
    ensures r.Some? ==> SpacesIn(line, |r.value.0|, |line| - |r.value.1| - 1)
    ensures r.Some? ==> NoLineTerminator(r.value.1) && (r.value.1 == [] || !IsSpace(r.value.1[0]))
  {
    if |line| == 0 || !IsIdentStart(line[0]) || line[|line| - 1] != ';' then None
    else
      var n := IdentEnd(line, 1);
      var w := SpaceEnd(line, n);
      if w == n || w > |line| - 1 || !NoLineTerminator(line[w..|line| - 1]) then None
      else
        assert line[w..] == line[w..|line| - 1] + ";";
        Some((line[..n], line[w..|line| - 1]))
  }

  /**
   * `/^([a-zA-Z_][a-zA-Z0-9_]*)\s+#eval\s*\{\s*(.*?)\s*\};$/`: an evaluated macro line, as
   * its name and expression text. The lazy group stops where only white space remains
   * before the closing `};`.
   */
  function EvalMatch(line: string): (r: Option<(string, string)>)
    ensures r.Some? ==> IsIdentLine(r.value.0) && IsIdentStart(r.value.0[0]) && StartsWith(line, r.value.0)
    ensures r.Some? ==> |line| >= 2 && line[|line| - 2..] == "};"
    ensures r.Some? ==> NoLineTerminator(r.value.1) && IsTrimmed(r.value.1)
  {
    if |line| < 2 || !IsIdentStart(line[0]) || line[|line| - 2..] != "};" then None
    else
      var n := IdentEnd(line, 1);
      match EvalBody(line, n)
      case Some((a, e)) => Some((line[..n], line[a..e]))
      case None => None
  }

  /**
   * `\s+#eval\s*\{\s*(.*?)\s*\};` after a name that ends at `n`: where the expression
   * starts and ends.
   */
  function EvalBody(line: string, n: nat): (r: Option<(nat, nat)>)
    requires 2 <= |line| && n <= |line|
    ensures r.Some? ==> n < r.value.0 <= r.value.1 <= |line| - 2
    ensures r.Some? ==> NoLineTerminator(line[r.value.0..r.value.1]) && IsTrimmed(line[r.value.0..r.value.1])
  {
    var w := SpaceEnd(line, n);
    if w == n || !OccursAt(line, "#eval", w) then None
    else
      var u := SpaceEnd(line, w + 5);
      if u >= |line| || line[u] != '{' then None
      else
        var a := SpaceEnd(line, u + 1);
        if a > |line| - 2 then None
        else
          var back := SpaceStartBack(line, |line| - 2);
          var e := if back < a then a else back;
          if !NoLineTerminator(line[a..e]) then None
          else
            assert IsTrimmed(line[a..e]) by {
              if a < e { assert line[a..e][0] == line[a]; assert line[a..e][e - a - 1] == line[e - 1]; }
            }
            Some((a, e))
  }
}

=== FILE: sections.dfy ===
/**
 * The list-shaped section parsers `_parseScale`, `_parseVertices`, `_parseEdges` and
 * `_parseMergePatchPairs`. Each takes the line list, the index of its keyword line and the
 * context, and returns the next cursor (or the crash of `_parseVertices` at the end of the
 * input).
 */
module Sections {
  import opened Wrappers
  import opened JsText
  import opened JsNumber
  import opened Patterns
  import opened Mesh
  import opened Macros

  /**
   * `lines[i].trim()`. The section readers only see stored lines, which are trimmed when
   * stored, so the trim is the identity there (`Parser.StoredLinesTrimmed`) and is not
   * repeated here.
   */
  function LineAt(lines: seq<string>, i: nat): string
    requires i < |lines|
  {
    lines[i]
  }

  /** Line `i` closes a list: its trimmed text starts with `)`. */
  predicate Closes(lines: seq<string>, i: nat)
    requires i < |lines|
  {
    var t := LineAt(lines, i);
    |t| > 0 && t[0] == ')'
  }

  /** The first line at or after `i` that closes the list, or `|lines|` if there is none. */
  function CloseIndex(lines: seq<string>, i: nat): (r: nat)
    requires i <= |lines|
    ensures i <= r <= |lines|
    ensures forall k :: i <= k < r ==> !Closes(lines, k)
    ensures r < |lines| ==> Closes(lines, r)
    decreases |lines| - i
  {
    if i == |lines| || Closes(lines, i) then i else CloseIndex(lines, i + 1)
  }

  /** Where a list body that starts at `i` leaves the cursor: past its `)`, or at the end. */
  function AfterList(lines: seq<string>, i: nat): (r: nat)
    requires i <= |lines|
  {
    var c := CloseIndex(lines, i);
    if c < |lines| then c + 1 else c
  }

  /** The context differs from `a` only in the vertex list and the diagnostics, which grew. */
  predicate OnlyVertices(a: Ctx, b: Ctx) {
    && b.scale == a.scale && b.edges == a.edges && b.blocks == a.blocks && b.boundary == a.boundary
    && b.mergePatchPairs == a.mergePatchPairs && b.macros == a.macros
    && IsPrefix(a.vertices, b.vertices) && IsPrefix(a.errors, b.errors)
  }

  predicate OnlyEdges(a: Ctx, b: Ctx) {
    && b.scale == a.scale && b.vertices == a.vertices && b.blocks == a.blocks && b.boundary == a.boundary
    && b.mergePatchPairs == a.mergePatchPairs && b.macros == a.macros
    && IsPrefix(a.edges, b.edges) && IsPrefix(a.errors, b.errors)
  }

  predicate OnlyMergePairs(a: Ctx, b: Ctx) {
    && b.scale == a.scale && b.vertices == a.vertices && b.edges == a.edges && b.blocks == a.blocks
    && b.boundary == a.boundary && b.macros == a.macros
    && IsPrefix(a.mergePatchPairs, b.mergePatchPairs) && IsPrefix(a.errors, b.errors)
  }

  lemma PrefixTrans<T>(a: seq<T>, b: seq<T>, c: seq<T>)
    requires IsPrefix(a, b) && IsPrefix(b, c)
    ensures IsPrefix(a, c)
  {
    assert c[..|a|] == c[..|b|][..|a|];
  }

  lemma OnlyVerticesTrans(a: Ctx, b: Ctx, c: Ctx)
    requires OnlyVertices(a, b) && OnlyVertices(b, c)
    ensures OnlyVertices(a, c)
  {
    PrefixTrans(a.vertices, b.vertices, c.vertices);
    PrefixTrans(a.errors, b.errors, c.errors);
  }

  lemma OnlyEdgesTrans(a: Ctx, b: Ctx, c: Ctx)
    requires OnlyEdges(a, b) && OnlyEdges(b, c)
    ensures OnlyEdges(a, c)
  {
    PrefixTrans(a.edges, b.edges, c.edges);
    PrefixTrans(a.errors, b.errors, c.errors);
  }

  lemma OnlyMergePairsTrans(a: Ctx, b: Ctx, c: Ctx)
    requires OnlyMergePairs(a, b) && OnlyMergePairs(b, c)
    ensures OnlyMergePairs(a, c)
  {
    PrefixTrans(a.mergePatchPairs, b.mergePatchPairs, c.mergePatchPairs);
    PrefixTrans(a.errors, b.errors, c.errors);
  }

  /** Numbers read through the macro table, with the diagnostics resolving them produced. */
  datatype Numbers = Numbers(nums: seq<Num>, diags: seq<Diag>)

  /** `tokens.map(t => this._resolveValue(t)).map(Number)`. */
  function ResolveNumbers(macros: MacroTable, tokens: seq<string>): (r: Numbers)
    ensures |r.nums| == |tokens|
    ensures forall k :: 0 <= k < |tokens| ==> r.nums[k] == ToNumber(Resolve(macros, tokens[k]).value)
    ensures forall d :: d in r.diags ==> d.UndefinedMacro?
    ensures |r.diags| <= |tokens|
  {
    if tokens == [] then Numbers([], [])
    else
      var head := Resolve(macros, tokens[0]);
      var rest := ResolveNumbers(macros, tokens[1..]);
      Numbers([ToNumber(head.value)] + rest.nums, head.diags + rest.diags)
  }

  /** `tokens.map(Number)`, with no macro lookup. */
  function ToNumbers(tokens: seq<string>): (r: seq<Num>)
    ensures |r| == |tokens|
    ensures forall k :: 0 <= k < |tokens| ==> r[k] == StringToNumber(tokens[k])
  {
    seq(|tokens|, k requires 0 <= k < |tokens| => StringToNumber(tokens[k]))
  }

  /** `group.trim().split(/\s+/)`. */
  function Tokens(group: string): (r: seq<string>)
    ensures |r| >= 1
  {
    SplitWs(Trim(group))
  }

  predicate HasNaN(nums: seq<Num>) {
    exists k :: 0 <= k < |nums| && nums[k].NaN?
  }

  // ----- scale -----

  /** The operand of a scale line: the second white-space token once the first `;` is gone. */
  function ScaleOperand(line: string): (r: Option<string>)
    ensures r.Some? ==> NoSpace(r.value)
  {
    var parts := SplitWs(Trim(RemoveFirst(line, ';')));
    if |parts| >= 2 then Some(parts[1]) else None
  }

  /**
   * `_parseScale`: the cursor moves exactly one line; the scale changes only to a number
   * the operand resolved to (NaN included); a missing or non-numeric operand costs one
   * diagnostic and leaves the scale alone.
   */
  function ParseScale(lines: seq<string>, index: nat, ctx: Ctx): (r: Run)
    requires index < |lines|
    ensures r.Next? && r.at == index + 1
    ensures r.ctx == ctx.(scale := r.ctx.scale, errors := r.ctx.errors) && IsPrefix(ctx.errors, r.ctx.errors)
    ensures ScaleOperand(lines[index]).None? ==> r.ctx == Log(ctx, MalformedScale(lines[index]))
    ensures ScaleOperand(lines[index]).Some? ==>
      var v := Resolve(ctx.macros, ScaleOperand(lines[index]).value);
      && (v.value.Number? ==> r.ctx.scale == v.value.num && r.ctx.errors == ctx.errors + v.diags)
      && (v.value.Str? ==> r.ctx == Log(ctx, InvalidScale(ScaleOperand(lines[index]).value)))
  {
    match ScaleOperand(lines[index])
    case None => Next(index + 1, Log(ctx, MalformedScale(lines[index])))
    case Some(operand) =>
      var v := Resolve(ctx.macros, operand);
      var c := ctx.(errors := ctx.errors + v.diags);
      match v.value
      case Number(n) => Next(index + 1, c.(scale := n))
      case Str(_) => Next(index + 1, Log(c, InvalidScale(operand)))
  }

  /** `scale t;` has the operand `t` whenever `t` is one token without a `;`. */
  lemma ScaleOperandOf(t: string)
    requires t != [] && NoSpace(t) && ';' !in t
    ensures ScaleOperand("scale " + t + ";") == Some(t)
  {
    var line := "scale " + t + ";";
    var i := |line| - 1;
    assert line[i] == ';' && line[..i] == "scale " + t;
    assert ';' !in line[..i];
    assert RemoveFirst(line, ';') == "scale " + t by {
      assert line[..i] + line[i + 1..] == "scale " + t;
    }
    assert IsTrimmed("scale " + t) by {
      assert ("scale " + t)[|"scale " + t| - 1] == t[|t| - 1];
    }
    TrimOfTrimmed("scale " + t);
    assert JoinWs(["scale", t]) == "scale " + t;
    SplitJoinWs(["scale", t]);
  }

  /**
   * `scale $name;` with `name` undefined: NaN is of type number, so it becomes the scale,
   * and the only diagnostic is the undefined macro.
   */
  lemma UndefinedScaleMacroGivesNaN(lines: seq<string>, index: nat, ctx: Ctx, name: string)
    requires index < |lines| && lines[index] == "scale $" + name + ";"
    requires name != [] && NoSpace(name) && ';' !in name && name !in ctx.macros
    ensures ParseScale(lines, index, ctx) == Next(index + 1, ctx.(scale := NaN, errors := ctx.errors + [UndefinedMacro("$" + name)]))
  {
    assert NoSpace("$" + name) by {
      forall k | 0 <= k < |"$" + name| ensures !IsSpace(("$" + name)[k]) {
        if k > 0 { assert ("$" + name)[k] == name[k - 1]; }
      }
    }
    assert "scale $" + name + ";" == "scale " + ("$" + name) + ";";
    ScaleOperandOf("$" + name);
    UndefinedMacroIsNaN(ctx.macros, name);
  }

  /** Of two consecutive scale lines, the second wins unless its operand is not numeric. */
  lemma LastScaleWins(lines: seq<string>, index: nat, ctx: Ctx)
    requires index + 1 < |lines|
    ensures var first := ParseScale(lines, index, ctx);
      var second := ParseScale(lines, index + 1, first.ctx);
      var op := ScaleOperand(lines[index + 1]);
      && (op.Some? && Resolve(ctx.macros, op.value).value.Number? ==>
            second.ctx.scale == Resolve(ctx.macros, op.value).value.num)
      && (op.None? || Resolve(ctx.macros, op.value).value.Str? ==> second.ctx.scale == first.ctx.scale)
  {
  }

  // ----- vertices -----

  /** Three coordinate tokens resolved: a vertex when all three are numbers, and the diagnostics. */
  datatype Coords = Coords(vertex: Option<Vertex>, diags: seq<Diag>)

  function ResolveCoords(macros: MacroTable, ts: seq<string>): (r: Coords)
    requires |ts| == 3
    ensures r.vertex.Some? <==>
      Resolve(macros, ts[0]).value.Number? && Resolve(macros, ts[1]).value.Number? && Resolve(macros, ts[2]).value.Number?
    ensures r.vertex.Some? ==> r.vertex.value == Vertex(Resolve(macros, ts[0]).value.num, Resolve(macros, ts[1]).value.num, Resolve(macros, ts[2]).value.num)
  {
    var x := Resolve(macros, ts[0]);
    var y := Resolve(macros, ts[1]);
    var z := Resolve(macros, ts[2]);
    var diags := x.diags + y.diags + z.diags;
    if x.value.Number? && y.value.Number? && z.value.Number? then Coords(Some(Vertex(x.value.num, y.value.num, z.value.num)), diags)
    else Coords(None, diags)
  }

  /** The coordinates of a vertex line before scaling: matched, and all three resolved to numbers. */
  function RawVertex(macros: MacroTable, line: string): Option<Vertex> {
    match TripleMatch(line)
    case None => None
    case Some(ts) => ResolveCoords(macros, ts).vertex
  }

  function ScaleVertex(v: Vertex, s: Num): Vertex {
    Vertex(Mul(v.x, s), Mul(v.y, s), Mul(v.z, s))
  }

  /** One entry of the vertex list. */
  function VertexLine(ctx: Ctx, line: string): (r: Ctx)
    ensures OnlyVertices(ctx, r) && |r.vertices| <= |ctx.vertices| + 1
  {
    match TripleMatch(line)
    case None => if line == [] then ctx else Log(ctx, InvalidVertexFormat(line))
    case Some(ts) =>
      var res := ResolveCoords(ctx.macros, ts);
      var c := ctx.(errors := ctx.errors + res.diags);
      match res.vertex
      case Some(v) => c.(vertices := c.vertices + [ScaleVertex(v, c.scale)])
      case None => Log(c, UnresolvedVertex(line))
  }

  /**
   * A matched line whose coordinates are all numbers adds one vertex, scaled; a matched
   * line that does not costs one diagnostic after those of its macros and adds nothing;
   * any other non-empty line costs exactly one diagnostic.
   */
  lemma VertexEntry(ctx: Ctx, line: string)
    ensures var r := VertexLine(ctx, line);
      && (RawVertex(ctx.macros, line).Some? ==> r.vertices == ctx.vertices + [ScaleVertex(RawVertex(ctx.macros, line).value, ctx.scale)])
      && (RawVertex(ctx.macros, line).None? ==> r.vertices == ctx.vertices)
      && (TripleMatch(line).None? ==> r == if line == [] then ctx else Log(ctx, InvalidVertexFormat(line)))
      && (TripleMatch(line).Some? && RawVertex(ctx.macros, line).None? ==>
            |r.errors| > |ctx.errors| && r.errors[|r.errors| - 1] == UnresolvedVertex(line))
  {
  }

  /** The body loop of `_parseVertices` from line `i`, and its closing `)`. */
  function VertexList(lines: seq<string>, i: nat, ctx: Ctx): (r: Run)
    requires i <= |lines|
    ensures r.Next? && i <= r.at <= |lines| && OnlyVertices(ctx, r.ctx)
    ensures r.at == AfterList(lines, i)
    ensures CloseIndex(lines, i) == |lines| ==> LastIs(r.ctx.errors, MissingCloseParen(VerticesSection))
    decreases |lines| - i
  {
    if i < |lines| && !Closes(lines, i) then
      var next := VertexLine(ctx, LineAt(lines, i));
      var r := VertexList(lines, i + 1, next);
      OnlyVerticesTrans(ctx, next, r.ctx);
      r
    else if i < |lines| then Next(i + 1, ctx)
    else Next(i, Log(ctx, MissingCloseParen(VerticesSection)))
  }

  /**
   * `_parseVertices` at the keyword line `index`. The line after the keyword is read
   * without a bounds check, so a keyword on the last line throws.
   */
  function ParseVertices(lines: seq<string>, index: nat, ctx: Ctx): (r: Run)
    requires index < |lines|
    ensures r.Crash? <==> index + 1 == |lines|
    ensures r.Next? ==> index < r.at <= |lines| && OnlyVertices(ctx, r.ctx)
    ensures r.Next? && LineAt(lines, index + 1) != "(" ==> r == Next(index + 1, Log(ctx, ExpectedOpenParen(VerticesSection)))
  {
    if index + 1 == |lines| then Crash(ctx)
    else if LineAt(lines, index + 1) != "(" then Next(index + 1, Log(ctx, ExpectedOpenParen(VerticesSection)))
    else VertexList(lines, index + 2, ctx)
  }

  function ScaleAll(vs: seq<Vertex>, s: Num): (r: seq<Vertex>)
    ensures |r| == |vs|
  {
    seq(|vs|, k requires 0 <= k < |vs| => ScaleVertex(vs[k], s))
  }

  /** The unscaled vertices the lines from `i` up to the closing line describe. */
  function Unscaled(macros: MacroTable, lines: seq<string>, i: nat): seq<Vertex>
    requires i <= |lines|
    decreases |lines| - i
  {
    if i == |lines| || Closes(lines, i) then []
    else Described(macros, LineAt(lines, i)) + Unscaled(macros, lines, i + 1)
  }

  /** The unscaled vertex one line describes, if any. */
  function Described(macros: MacroTable, line: string): (r: seq<Vertex>)
    ensures |r| <= 1
  {
    match RawVertex(macros, line)
    case Some(v) => [v]
    case None => []
  }

  lemma VertexStep(ctx: Ctx, line: string)
    ensures VertexLine(ctx, line).vertices == ctx.vertices + ScaleAll(Described(ctx.macros, line), ctx.scale)
  {
    VertexEntry(ctx, line);
  }

  /**
   * The scale in force when the list is read multiplies every coordinate: the list appends
   * exactly the described vertices, each times that scale.
   */
  lemma {:induction false} ScaleAppliesToEveryVertex(lines: seq<string>, i: nat, ctx: Ctx)
    requires i <= |lines|
    ensures VertexList(lines, i, ctx).ctx.vertices == ctx.vertices + ScaleAll(Unscaled(ctx.macros, lines, i), ctx.scale)
    decreases |lines| - i
  {
    if i < |lines| && !Closes(lines, i) {
      var line := LineAt(lines, i);
      var next := VertexLine(ctx, line);
      var d := Described(ctx.macros, line);
      var u := Unscaled(ctx.macros, lines, i + 1);
      var rest := VertexList(lines, i + 1, next);
      var sd := ScaleAll(d, ctx.scale);
      var su := ScaleAll(u, ctx.scale);
      assert VertexList(lines, i, ctx) == rest;
      assert next.vertices == ctx.vertices + sd by { VertexStep(ctx, line); }
      assert rest.ctx.vertices == next.vertices + su by {
        assert next.macros == ctx.macros && next.scale == ctx.scale;
        ScaleAppliesToEveryVertex(lines, i + 1, next);
      }
      assert ScaleAll(Unscaled(ctx.macros, lines, i), ctx.scale) == sd + su by {
        assert Unscaled(ctx.macros, lines, i) == d + u;
        ScaleAllAppend(d, u, ctx.scale);
      }
      assert ctx.vertices + sd + su == ctx.vertices + (sd + su);
    } else {
      assert ScaleAll([], ctx.scale) == [];
    }
  }

  lemma ScaleAllAppend(a: seq<Vertex>, b: seq<Vertex>, s: Num)
    ensures ScaleAll(a + b, s) == ScaleAll(a, s) + ScaleAll(b, s)
  {
  }

  // ----- edges -----

  function KindOf(word: string): (r: Option<EdgeKind>)
    ensures r.Some? <==> word in {"arc", "spline", "polyLine", "line"}
  {
    if word == "arc" then Some(Arc)
    else if word == "spline" then Some(Spline)
    else if word == "polyLine" then Some(PolyLine)
    else if word == "line" then Some(Line)
    else None
  }

  datatype Points = Points(points: seq<Vertex>, diags: seq<Diag>)

  function PointOf(p: PointText, s: Num): Vertex {
    Vertex(Mul(ParseFloat(p.x), s), Mul(ParseFloat(p.y), s), Mul(ParseFloat(p.z), s))
  }

  /**
   * The point handling of one edge line. Only a line with some `(…)` group is examined:
   * an arc takes its first group as one point of exactly three coordinates; a spline or
   * polyLine always earns the "basic parsing" diagnostic and then takes every
   * `( a b c )` of numeral characters after the second index token; a line edge has none.
   */
  function EdgePoints(kind: EdgeKind, line: string, second: string, s: Num): (r: Points)
    ensures kind == Line || FirstParenGroup(line, 0).None? ==> r == Points([], [])
    ensures kind == Arc ==> |r.points| <= 1 && |r.points| + |r.diags| == (if FirstParenGroup(line, 0).Some? then 1 else 0)
    ensures kind == Arc && r.diags != [] ==> r.diags == [ArcPointCount(line)]
    ensures (kind == Spline || kind == PolyLine) && FirstParenGroup(line, 0).Some? ==> r.diags == [BasicPointParsing(line)]
  {
    match FirstGroupCoords(line)
    case None => Points([], [])
    case Some(coords) =>
      if kind == Arc then
        if |coords| == 3 then
          Points([PointOf(PointText(coords[0], coords[1], coords[2]), s)], [])
        else Points([], [ArcPointCount(line)])
      else if kind == Spline || kind == PolyLine then
        Points(PointsOf(SplinePointGroups(line, second), s), [BasicPointParsing(line)])
      else Points([], [])
  }

  /**
   * The coordinate tokens of the first `(...)` group of a line, with every parenthesis
   * removed (`pointStringMatch[0].replace(/[()]/g, '').trim().split(/\s+/)`).
   */
  function FirstGroupCoords(line: string): (r: Option<seq<string>>)
    ensures r.Some? <==> FirstParenGroup(line, 0).Some?
  {
    match FirstParenGroup(line, 0)
    case Some((p, q)) => Some(SplitWs(Trim(RemoveParens(line[p..q + 1]))))
    case None => None
  }

  /**
   * The `( a b c )` groups of the text after the second index token; when that token is
   * not found, `indexOf` gives -1 and the text starts at `|second| - 1`.
   */
  function SplinePointGroups(line: string, second: string): seq<PointText> {
    var found := match IndexOf(line, second, 0)
      case Some(k) => k + |second|
      case None => |second| - 1;
    var start := if found < 0 then 0 else if found > |line| then |line| else found;
    PointGroups(Trim(line[start..]), 0)
  }

  /** Every point group, each coordinate times the scale. */
  function PointsOf(groups: seq<PointText>, s: Num): (r: seq<Vertex>)
    ensures |r| == |groups| && forall k :: 0 <= k < |groups| ==> r[k] == PointOf(groups[k], s)
  {
    seq(|groups|, k requires 0 <= k < |groups| => PointOf(groups[k], s))
  }

  /**
   * The point values of an edge: an arc whose first group has three coordinates gets the
   * point `parseFloat` of each times the scale; a spline or polyLine gets one such point per
   * `( a b c )` group after its second index token.
   */
  lemma EdgePointValues(kind: EdgeKind, line: string, second: string, s: Num)
    ensures var c := FirstGroupCoords(line);
      kind == Arc && c.Some? && |c.value| == 3 ==>
        EdgePoints(kind, line, second, s).points == [PointOf(PointText(c.value[0], c.value[1], c.value[2]), s)]
    ensures var g := SplinePointGroups(line, second);
      (kind == Spline || kind == PolyLine) && FirstParenGroup(line, 0).Some? ==>
        var r := EdgePoints(kind, line, second, s).points;
        |r| == |g| && forall k :: 0 <= k < |g| ==> r[k] == PointOf(g[k], s)
  {
  }

  /** Three numerals separated by single spaces. */
  function Triple(x: nat, y: nat, z: nat): string {
    NatText(x) + " " + NatText(y) + " " + NatText(z)
  }

  /**
   * An arc whose first group is `(x y z)`, written as numerals, gets the one point
   * `(x * scale, y * scale, z * scale)`.
   */
  lemma ArcPointOfNumerals(pre: string, x: nat, y: nat, z: nat, post: string, second: string, s: Num)
    requires '(' !in pre
    ensures EdgePoints(Arc, pre + "(" + Triple(x, y, z) + ")" + post, second, s)
      == Points([Vertex(Mul(Fin(x as real), s), Mul(Fin(y as real), s), Mul(Fin(z as real), s))], [])
  {
    var g := Triple(x, y, z);
    TripleText(x, y, z);
    FirstGroupCoordsOfWrapped(pre, g, post);
    NumeralReads(x);
    NumeralReads(y);
    NumeralReads(z);
  }

  /** `parseFloat` of a numeral is its number. */
  lemma NumeralReads(n: nat)
    ensures ParseFloat(NatText(n)) == Fin(n as real)
  {
    NatNumber(n, false);
    assert "" + NatText(n) == NatText(n);
  }

  /** A group after parenthesis-free text is the first one, and its coordinates are its tokens. */
  lemma FirstGroupCoordsOfWrapped(pre: string, g: string, post: string)
    requires '(' !in pre && g != [] && '(' !in g && ')' !in g
    ensures FirstGroupCoords(pre + "(" + g + ")" + post) == Some(SplitWs(Trim(g)))
  {
    var line := pre + "(" + g + ")" + post;
    ParenGroupOfWrapped(pre, g, post);
    assert line[|pre|..|pre| + 2 + |g|] == "(" + g + ")" + "";
    RemoveParensOfGroup(g, "");
    assert g + "" == g;
  }

  /** Three numerals joined by spaces hold no parenthesis and split back into the numerals. */
  lemma TripleText(x: nat, y: nat, z: nat)
    ensures var g := Triple(x, y, z);
      g != [] && '(' !in g && ')' !in g && SplitWs(Trim(g)) == [NatText(x), NatText(y), NatText(z)]
  {
    var g := Triple(x, y, z);
    TripleChars(x, y, z);
    TripleTrimmed(x, y, z);
    TrimOfTrimmed(g);
    TripleWords(x, y, z);
  }

  /** Every character of the triple is a digit or a space. */
  lemma TripleChars(x: nat, y: nat, z: nat)
    ensures var g := Triple(x, y, z);
      forall k :: 0 <= k < |g| ==> IsDigit(g[k]) || g[k] == ' '
  {
    var g := Triple(x, y, z);
    var a, b := NatText(x), NatText(y);
    NatTextValue(x);
    NatTextValue(y);
    NatTextValue(z);
    forall k | 0 <= k < |g| ensures IsDigit(g[k]) || g[k] == ' ' {
      if k < |a| { assert g[k] == a[k]; }
      else if k == |a| || k == |a| + 1 + |b| { }
      else if k < |a| + 1 + |b| { assert g[k] == b[k - |a| - 1]; }
      else { assert g[k] == NatText(z)[k - |a| - |b| - 2]; }
    }
  }

  /** The triple starts and ends with a digit. */
  lemma TripleTrimmed(x: nat, y: nat, z: nat)
    ensures IsTrimmed(Triple(x, y, z))
  {
    var g := Triple(x, y, z);
    NatTextValue(x);
    NatTextValue(z);
    assert g[0] == NatText(x)[0];
    assert g[|g| - 1] == NatText(z)[|NatText(z)| - 1];
  }

  /** The triple is the space-joined text of the three numerals. */
  lemma TripleWords(x: nat, y: nat, z: nat)
    ensures SplitWs(Triple(x, y, z)) == [NatText(x), NatText(y), NatText(z)]
  {
    var ts := [NatText(x), NatText(y), NatText(z)];
    assert JoinWs(ts) == Triple(x, y, z) by {
      assert ts[1..][1..] == [NatText(z)];
      assert JoinWs(ts[1..]) == NatText(y) + " " + NatText(z);
      assert JoinWs(ts) == NatText(x) + " " + (NatText(y) + " " + NatText(z));
    }
    NumeralNoSpace(x);
    NumeralNoSpace(y);
    NumeralNoSpace(z);
    assert IsWords(ts) by {
      assert ts[1..][1..] == [NatText(z)] && [NatText(z)][1..] == [];
      assert IsWords([NatText(z)]);
      assert IsWords(ts[1..]);
    }
    SplitJoinWs(ts);
  }

  lemma NumeralNoSpace(n: nat)
    ensures NatText(n) != [] && NoSpace(NatText(n))
  {
    NatTextValue(n);
  }

  /** The accepted shape of an edge line: four or more tokens, a known kind, integer ends. */
  predicate IsEdgeLine(line: string) {
    var parts := SplitWs(line);
    |parts| >= 4 && KindOf(parts[0]).Some? && ParseInt(parts[1]).Some? && ParseInt(parts[2]).Some?
  }

  /** One entry of the edge list. */
  function EdgeLine(ctx: Ctx, line: string): (r: Ctx)
    ensures OnlyEdges(ctx, r) && |r.edges| <= |ctx.edges| + 1
  {
    var parts := SplitWs(line);
    if |parts| >= 4 && KindOf(parts[0]).Some? then
      var kind := KindOf(parts[0]).value;
      var v1 := ParseInt(parts[1]);
      var v2 := ParseInt(parts[2]);
      var pts := EdgePoints(kind, line, parts[2], ctx.scale);
      var c := ctx.(errors := ctx.errors + pts.diags);
      if v1.None? || v2.None? then Log(c, InvalidEdgeIndices(line))
      else c.(edges := c.edges + [Edge(kind, v1.value, v2.value, pts.points)])
    else if line != "" && line != "(" && line != ")" then Log(ctx, InvalidEdgeFormat(line))
    else ctx
  }

  /**
   * An edge is appended exactly when the line has the accepted shape, with the kind and
   * end points read from its tokens; a line of the right kind with a non-integer end point
   * ends with one diagnostic; any other line that is not blank or a bare parenthesis costs
   * exactly one diagnostic.
   */
  lemma EdgeEntry(ctx: Ctx, line: string)
    ensures var r := EdgeLine(ctx, line);
      var parts := SplitWs(line);
      && |r.edges| == |ctx.edges| + (if IsEdgeLine(line) then 1 else 0)
      && (IsEdgeLine(line) ==>
            var e := r.edges[|ctx.edges|];
            && Some(e.kind) == KindOf(parts[0])
            && Some(e.v1) == ParseInt(parts[1]) && Some(e.v2) == ParseInt(parts[2]))
      && (!IsEdgeLine(line) && |parts| >= 4 && KindOf(parts[0]).Some? ==> LastIs(r.errors, InvalidEdgeIndices(line)))
      && (!(|parts| >= 4 && KindOf(parts[0]).Some?) ==>
            r == if line in {"", "(", ")"} then ctx else Log(ctx, InvalidEdgeFormat(line)))
  {
  }

  /** The body loop of `_parseEdges` from line `i`, and its closing `)`. */
  function EdgeList(lines: seq<string>, i: nat, ctx: Ctx): (r: Run)
    requires i <= |lines|
    ensures r.Next? && i <= r.at <= |lines| && OnlyEdges(ctx, r.ctx)
    ensures r.at == AfterList(lines, i)
    ensures CloseIndex(lines, i) == |lines| ==> LastIs(r.ctx.errors, MissingCloseParen(EdgesSection))
    ensures |r.ctx.edges| == |ctx.edges| + EdgeCount(lines, i)
    decreases |lines| - i
  {
    if i < |lines| && !Closes(lines, i) then
      var next := EdgeLine(ctx, LineAt(lines, i));
      EdgeLineCount(ctx, LineAt(lines, i));
      var r := EdgeList(lines, i + 1, next);
      OnlyEdgesTrans(ctx, next, r.ctx);
      r
    else if i < |lines| then Next(i + 1, ctx)
    else Next(i, Log(ctx, MissingCloseParen(EdgesSection)))
  }

  /** One for a line of the accepted edge shape, zero otherwise. */
  function EdgeWeight(line: string): nat {
    if IsEdgeLine(line) then 1 else 0
  }

  /** How many lines from `i` up to the closing line have the accepted edge shape. */
  function EdgeCount(lines: seq<string>, i: nat): nat
    requires i <= |lines|
    decreases |lines| - i
  {
    if i == |lines| || Closes(lines, i) then 0
    else EdgeWeight(LineAt(lines, i)) + EdgeCount(lines, i + 1)
  }

  lemma EdgeLineCount(ctx: Ctx, line: string)
    ensures |EdgeLine(ctx, line).edges| == |ctx.edges| + EdgeWeight(line)
  {
    EdgeEntry(ctx, line);
  }


  /** `_parseEdges` at the keyword line `index`. */
  function ParseEdges(lines: seq<string>, index: nat, ctx: Ctx): (r: Run)
    requires index < |lines|
    ensures r.Next? && index < r.at <= |lines| && OnlyEdges(ctx, r.ctx)
    ensures index + 1 == |lines| || LineAt(lines, index + 1) != "(" ==>
      r == Next(index + 1, Log(ctx, ExpectedOpenParen(EdgesSection)))
  {
    if index + 1 == |lines| || LineAt(lines, index + 1) != "(" then
      Next(index + 1, Log(ctx, ExpectedOpenParen(EdgesSection)))
    else EdgeList(lines, index + 2, ctx)
  }

  // ----- mergePatchPairs -----

  /** One entry of the merge list. */
  function MergeLine(ctx: Ctx, line: string): (r: Ctx)
    ensures OnlyMergePairs(ctx, r)
  {
    match PairMatch(line)
    case Some(ts) => ctx.(mergePatchPairs := ctx.mergePatchPairs + [MergePair(ts[0], ts[1])])
    case None => if line == [] then ctx else Log(ctx, InvalidMergePair(line))
  }

  /**
   * A `( master slave )` entry appends exactly that pair and reports nothing; a blank line
   * changes nothing; anything else appends nothing and reports the line.
   */
  lemma MergeEntry(ctx: Ctx, line: string)
    ensures var r := MergeLine(ctx, line);
      && (PairMatch(line).Some? ==>
            r.mergePatchPairs == ctx.mergePatchPairs + [MergePair(PairMatch(line).value[0], PairMatch(line).value[1])]
            && r.errors == ctx.errors)
      && (PairMatch(line).None? ==> r.mergePatchPairs == ctx.mergePatchPairs)
      && (PairMatch(line).None? && line == [] ==> r.errors == ctx.errors)
      && (PairMatch(line).None? && line != [] ==> r.errors == ctx.errors + [InvalidMergePair(line)])
  {
  }

  /**
   * The body loop of `_parseMergePatchPairs`. At the end of input the missing `)` is only
   * reported when the line before the cursor starts with the keyword.
   */
  function MergeList(lines: seq<string>, i: nat, ctx: Ctx): (r: Run)
    requires 1 <= i <= |lines|
    ensures r.Next? && i <= r.at <= |lines| && OnlyMergePairs(ctx, r.ctx)
    ensures r.at == AfterList(lines, i)
    decreases |lines| - i
  {
    if i < |lines| && !Closes(lines, i) then
      var next := MergeLine(ctx, LineAt(lines, i));
      var r := MergeList(lines, i + 1, next);
      OnlyMergePairsTrans(ctx, next, r.ctx);
      r
    else if i < |lines| then Next(i + 1, ctx)
    else if StartsWith(LineAt(lines, i - 1), "mergePatchPairs") then Next(i, Log(ctx, MissingCloseParen(MergeSection)))
    else Next(i, ctx)
  }

  /** Diagnostics the merge list may report: malformed pairs and the missing `)`. */
  predicate MergeDiags(ds: seq<Diag>) {
    forall k :: 0 <= k < |ds| ==> ds[k].InvalidMergePair? || ds[k] == MissingCloseParen(MergeSection)
  }

  /** What one merge entry reports: nothing for a pair or a blank line, else the line. */
  function EntryDiags(line: string): seq<Diag> {
    if PairMatch(line).Some? || line == [] then [] else [InvalidMergePair(line)]
  }

  /** What the merge list body from line `i` reports, read off the lines alone. */
  function ListDiags(lines: seq<string>, i: nat): seq<Diag>
    requires 1 <= i <= |lines|
    decreases |lines| - i
  {
    if i < |lines| && !Closes(lines, i) then EntryDiags(LineAt(lines, i)) + ListDiags(lines, i + 1)
    else if i < |lines| then []
    else if StartsWith(LineAt(lines, i - 1), "mergePatchPairs") then [MissingCloseParen(MergeSection)]
    else []
  }

  /** The merge list's diagnostics depend on the lines only, not on the context. */
  lemma {:induction false} MergeListReports(lines: seq<string>, i: nat, ctx: Ctx)
    requires 1 <= i <= |lines|
    ensures MergeList(lines, i, ctx).ctx.errors == ctx.errors + ListDiags(lines, i)
    decreases |lines| - i
  {
    if i < |lines| && !Closes(lines, i) {
      var line := LineAt(lines, i);
      var next := MergeLine(ctx, line);
      EntryErrors(ctx, line);
      MergeListReports(lines, i + 1, next);
      MergeListStep(lines, i, ctx);
      ListDiagsStep(lines, i);
      AppendAssoc(ctx.errors, EntryDiags(line), ListDiags(lines, i + 1));
    } else {
      MergeListReportsEnd(lines, i, ctx);
    }
  }

  lemma EntryErrors(ctx: Ctx, line: string)
    ensures MergeLine(ctx, line).errors == ctx.errors + EntryDiags(line)
  {
    MergeEntry(ctx, line);
  }

  lemma MergeListStep(lines: seq<string>, i: nat, ctx: Ctx)
    requires 1 <= i < |lines| && !Closes(lines, i)
    ensures MergeList(lines, i, ctx) == MergeList(lines, i + 1, MergeLine(ctx, LineAt(lines, i)))
  {
  }

  lemma ListDiagsStep(lines: seq<string>, i: nat)
    requires 1 <= i < |lines| && !Closes(lines, i)
    ensures ListDiags(lines, i) == EntryDiags(LineAt(lines, i)) + ListDiags(lines, i + 1)
  {
  }

  lemma AppendAssoc<T>(a: seq<T>, b: seq<T>, c: seq<T>)
    ensures (a + b) + c == a + (b + c)
  {
  }

  lemma MergeListReportsEnd(lines: seq<string>, i: nat, ctx: Ctx)
    requires 1 <= i <= |lines| && !(i < |lines| && !Closes(lines, i))
    ensures MergeList(lines, i, ctx).ctx.errors == ctx.errors + ListDiags(lines, i)
  {
    if i < |lines| {
      assert ListDiags(lines, i) == [];
    } else if StartsWith(LineAt(lines, i - 1), "mergePatchPairs") {
      assert ListDiags(lines, i) == [MissingCloseParen(MergeSection)];
    } else {
      assert ListDiags(lines, i) == [];
    }
  }

  /**
   * The list reports malformed pairs, and the missing `)` only when the input ends inside
   * the list and its last line starts with the keyword.
   */
  lemma {:induction false} ListDiagsCauses(lines: seq<string>, i: nat)
    requires 1 <= i <= |lines|
    ensures MergeDiags(ListDiags(lines, i))
    ensures MissingCloseParen(MergeSection) in ListDiags(lines, i) ==>
      CloseIndex(lines, i) == |lines| && StartsWith(LineAt(lines, |lines| - 1), "mergePatchPairs")
    decreases |lines| - i
  {
    if i < |lines| && !Closes(lines, i) {
      ListDiagsCauses(lines, i + 1);
      var e := EntryDiags(LineAt(lines, i));
      assert ListDiags(lines, i) == e + ListDiags(lines, i + 1);
      assert MissingCloseParen(MergeSection) !in e;
      assert CloseIndex(lines, i) == CloseIndex(lines, i + 1);
    }
  }

  /** The diagnostics `_parseMergePatchPairs` may add while reading the list body. */
  lemma MergeListErrors(lines: seq<string>, i: nat, ctx: Ctx)
    requires 1 <= i <= |lines|
    ensures var e := MergeList(lines, i, ctx).ctx.errors;
      && IsPrefix(ctx.errors, e)
      && MergeDiags(e[|ctx.errors|..])
      && (MissingCloseParen(MergeSection) in e[|ctx.errors|..] ==>
            CloseIndex(lines, i) == |lines| && StartsWith(LineAt(lines, |lines| - 1), "mergePatchPairs"))
  {
    var e := MergeList(lines, i, ctx).ctx.errors;
    MergeListReports(lines, i, ctx);
    ListDiagsCauses(lines, i);
    assert e[|ctx.errors|..] == ListDiags(lines, i);
  }

  /** `_parseMergePatchPairs` at the keyword line `index`. */
  function ParseMergePatchPairs(lines: seq<string>, index: nat, ctx: Ctx): (r: Run)
    requires index < |lines|
    ensures r.Next? && index < r.at <= |lines| && OnlyMergePairs(ctx, r.ctx)
    ensures (index + 1 == |lines| || LineAt(lines, index + 1) != "(") && StartsWith(LineAt(lines, index), "mergePatchPairs") ==>
      r == Next(index + 1, Log(ctx, ExpectedOpenParen(MergeSection)))
  {
    if index + 1 == |lines| || LineAt(lines, index + 1) != "(" then
      if StartsWith(LineAt(lines, index), "mergePatchPairs") then Next(index + 1, Log(ctx, ExpectedOpenParen(MergeSection)))
      else Next(index + 1, ctx)
    else MergeList(lines, index + 2, ctx)
  }
}

=== FILE: validation.dfy ===
/**
 * `ValidationEngine.validate`: reference checks over a parsed model. Blocks are checked
 * for arity and vertex-index range, then boundary faces for arity and index range; edges,
 * cell counts and handedness are not checked.
 */
module Validation {
  import opened Wrappers
  import opened JsNumber
  import opened Mesh

  /** The part of the parse result the checks read; a list the caller left out is `None`. */
  datatype MeshData = MeshData(vertices: Option<seq<Vertex>>, blocks: Option<seq<Block>>, boundary: seq<Patch>)

  /** One validation message, with the values its text quotes. */
  datatype Message =
    | CoreDataMissing
    | BlockArity(block: nat, found: nat)
    | BlockIndexOutOfRange(block: nat, index: real, vertexCount: nat)
    | FaceArity(patch: string, face: nat, found: nat)
    | FaceIndexOutOfRange(patch: string, face: nat, index: real)

  predicate IsBlockMessage(m: Message) {
    m.BlockArity? || m.BlockIndexOutOfRange?
  }

  predicate IsFaceMessage(m: Message) {
    m.FaceArity? || m.FaceIndexOutOfRange?
  }

  /**
   * `vIndex < 0 || vIndex >= vertices.length`. Both comparisons are false for NaN, so a
   * NaN index is never reported.
   */
  predicate OutOfRange(x: Num, n: nat) {
    x.Fin? && (x.val < 0.0 || x.val >= n as real)
  }

  /** The source's `isRightHanded` placeholder: every block passes. It is never called. */
  function IsRightHanded(b: Block, vertices: seq<Vertex>): (r: bool)
    ensures r
  {
    true
  }

  // ----- the checks -----

  /** Range messages of block `b`'s indices, in index order. */
  function BlockIndexMessages(b: nat, idx: seq<Num>, n: nat): (r: seq<Message>)
    ensures |r| <= |idx|
    ensures forall k :: 0 <= k < |r| ==> r[k].BlockIndexOutOfRange? && r[k].block == b && r[k].vertexCount == n
    ensures forall k :: 0 <= k < |r| ==> OutOfRange(Fin(r[k].index), n) && Fin(r[k].index) in idx
    decreases |idx|
  {
    if idx == [] then []
    else
      (if OutOfRange(idx[0], n) then [BlockIndexOutOfRange(b, idx[0].val, n)] else [])
      + BlockIndexMessages(b, idx[1..], n)
  }

  /** The messages of block number `b`: one arity message, or the range messages. */
  function BlockMessages(b: nat, block: Block, n: nat): (r: seq<Message>)
    ensures forall k :: 0 <= k < |r| ==> IsBlockMessage(r[k]) && r[k].block == b
  {
    if |block.vertices| != 8 then [BlockArity(b, |block.vertices|)]
    else BlockIndexMessages(b, block.vertices, n)
  }

  /** The messages of blocks `from` onwards, block by block. */
  function BlocksFrom(blocks: seq<Block>, from: nat, n: nat): (r: seq<Message>)
    requires from <= |blocks|
    ensures forall k :: 0 <= k < |r| ==> IsBlockMessage(r[k]) && from <= r[k].block < |blocks|
    decreases |blocks| - from
  {
    if from == |blocks| then []
    else BlockMessages(from, blocks[from], n) + BlocksFrom(blocks, from + 1, n)
  }

  /** Range messages of face `f` of patch `name`, in index order. */
  function FaceIndexMessages(name: string, f: nat, idx: seq<Num>, n: nat): (r: seq<Message>)
    ensures |r| <= |idx|
    ensures forall k :: 0 <= k < |r| ==> r[k].FaceIndexOutOfRange? && r[k].patch == name && r[k].face == f
    ensures forall k :: 0 <= k < |r| ==> OutOfRange(Fin(r[k].index), n) && Fin(r[k].index) in idx
    decreases |idx|
  {
    if idx == [] then []
    else
      (if OutOfRange(idx[0], n) then [FaceIndexOutOfRange(name, f, idx[0].val)] else [])
      + FaceIndexMessages(name, f, idx[1..], n)
  }

  /** The messages of face `f`: an arity message when it does not have 4 indices, then the range messages. */
  function FaceMessages(name: string, f: nat, face: seq<Num>, n: nat): (r: seq<Message>)
    ensures forall k :: 0 <= k < |r| ==> IsFaceMessage(r[k]) && r[k].patch == name && r[k].face == f
  {
    (if |face| != 4 then [FaceArity(name, f, |face|)] else []) + FaceIndexMessages(name, f, face, n)
  }

  /** The messages of faces `from` onwards of one patch. */
  function FacesFrom(name: string, faces: seq<seq<Num>>, from: nat, n: nat): (r: seq<Message>)
    requires from <= |faces|
    ensures forall k :: 0 <= k < |r| ==> IsFaceMessage(r[k]) && r[k].patch == name && from <= r[k].face < |faces|
    decreases |faces| - from
  {
    if from == |faces| then []
    else FaceMessages(name, from, faces[from], n) + FacesFrom(name, faces, from + 1, n)
  }

  /** The messages of every patch, patch by patch. */
  function PatchesMessages(patches: seq<Patch>, n: nat): (r: seq<Message>)
    ensures forall k :: 0 <= k < |r| ==> IsFaceMessage(r[k])
    decreases |patches|
  {
    if patches == [] then []
    else FacesFrom(patches[0].name, patches[0].faces, 0, n) + PatchesMessages(patches[1..], n)
  }

  /**
   * `validate(parsedData)`: a missing model or vertex or block list gives the single
   * core-data message; otherwise every block message comes before every face message.
   */
  function Validate(data: Option<MeshData>): (r: seq<Message>)
    ensures data.None? || data.value.vertices.None? || data.value.blocks.None? ==> r == [CoreDataMissing]
    ensures CoreDataMissing in r <==> data.None? || data.value.vertices.None? || data.value.blocks.None?
    ensures forall i, j :: 0 <= i < j < |r| && IsFaceMessage(r[i]) ==> IsFaceMessage(r[j])
  {
    if data.None? || data.value.vertices.None? || data.value.blocks.None? then [CoreDataMissing]
    else
      var n := |data.value.vertices.value|;
      var bs := BlocksFrom(data.value.blocks.value, 0, n);
      var ps := PatchesMessages(data.value.boundary, n);
      assert forall k :: 0 <= k < |bs| ==> !IsFaceMessage(bs[k]);
      assert forall k :: 0 <= k < |bs + ps| ==> (bs + ps)[k] != CoreDataMissing by {
        forall k | 0 <= k < |bs + ps| ensures (bs + ps)[k] != CoreDataMissing {
          if k < |bs| { assert (bs + ps)[k] == bs[k]; } else { assert (bs + ps)[k] == ps[k - |bs|]; }
        }
      }
      bs + ps
  }

  // ----- what passes -----

  /** An index the checks accept: NaN, or a number in `[0, |vertices|)`. */
  predicate IndexAccepted(x: Num, n: nat) {
    x.NaN? || (0.0 <= x.val && x.val < n as real)
  }

  predicate BlockAccepted(b: Block, n: nat) {
    |b.vertices| == 8 && forall k :: 0 <= k < |b.vertices| ==> IndexAccepted(b.vertices[k], n)
  }

  predicate FaceAccepted(f: seq<Num>, n: nat) {
    |f| == 4 && forall k :: 0 <= k < |f| ==> IndexAccepted(f[k], n)
  }

  predicate PatchAccepted(p: Patch, n: nat) {
    forall k :: 0 <= k < |p.faces| ==> FaceAccepted(p.faces[k], n)
  }

  /** Both core lists present, every block and every face with the right arity and indices. */
  predicate MeshAccepted(d: MeshData) {
    && d.vertices.Some? && d.blocks.Some?
    && (forall k :: 0 <= k < |d.blocks.value| ==> BlockAccepted(d.blocks.value[k], |d.vertices.value|))
    && (forall k :: 0 <= k < |d.boundary| ==> PatchAccepted(d.boundary[k], |d.vertices.value|))
  }

  // ----- properties -----

  /** Range messages are absent exactly when every index is accepted. */
  lemma {:induction false} BlockIndexQuiet(b: nat, idx: seq<Num>, n: nat)
    ensures BlockIndexMessages(b, idx, n) == [] <==> forall k :: 0 <= k < |idx| ==> IndexAccepted(idx[k], n)
    decreases |idx|
  {
    if idx != [] {
      BlockIndexQuiet(b, idx[1..], n);
      assert forall k :: 1 <= k < |idx| ==> idx[k] == idx[1..][k - 1];
    }
  }

  lemma {:induction false} FaceIndexQuiet(name: string, f: nat, idx: seq<Num>, n: nat)
    ensures FaceIndexMessages(name, f, idx, n) == [] <==> forall k :: 0 <= k < |idx| ==> IndexAccepted(idx[k], n)
    decreases |idx|
  {
    if idx != [] {
      FaceIndexQuiet(name, f, idx[1..], n);
      assert forall k :: 1 <= k < |idx| ==> idx[k] == idx[1..][k - 1];
    }
  }

  lemma {:induction false} BlocksQuiet(blocks: seq<Block>, from: nat, n: nat)
    requires from <= |blocks|
    ensures BlocksFrom(blocks, from, n) == [] <==> forall k :: from <= k < |blocks| ==> BlockAccepted(blocks[k], n)
    decreases |blocks| - from
  {
    if from < |blocks| {
      var head := BlockMessages(from, blocks[from], n);
      var tail := BlocksFrom(blocks, from + 1, n);
      BlocksQuiet(blocks, from + 1, n);
      BlockQuiet(from, blocks[from], n);
      assert BlocksFrom(blocks, from, n) == head + tail;
      assert head + tail == [] <==> head == [] && tail == [] by {
        if head + tail == [] { assert |head| == 0; }
      }
      assert (forall k :: from <= k < |blocks| ==> BlockAccepted(blocks[k], n)) <==>
        BlockAccepted(blocks[from], n) && forall k :: from + 1 <= k < |blocks| ==> BlockAccepted(blocks[k], n);
    }
  }

  lemma BlockQuiet(b: nat, block: Block, n: nat)
    ensures BlockMessages(b, block, n) == [] <==> BlockAccepted(block, n)
  {
    BlockIndexQuiet(b, block.vertices, n);
  }

  lemma {:induction false} FacesQuiet(name: string, faces: seq<seq<Num>>, from: nat, n: nat)
    requires from <= |faces|
    ensures FacesFrom(name, faces, from, n) == [] <==> forall k :: from <= k < |faces| ==> FaceAccepted(faces[k], n)
    decreases |faces| - from
  {
    if from < |faces| {
      FacesQuiet(name, faces, from + 1, n);
      FaceQuiet(name, from, faces[from], n);
      assert FacesFrom(name, faces, from, n) == FaceMessages(name, from, faces[from], n) + FacesFrom(name, faces, from + 1, n);
    }
  }

  lemma FaceQuiet(name: string, f: nat, face: seq<Num>, n: nat)
    ensures FaceMessages(name, f, face, n) == [] <==> FaceAccepted(face, n)
  {
    FaceIndexQuiet(name, f, face, n);
  }

  lemma {:induction false} PatchesQuiet(patches: seq<Patch>, n: nat)
    ensures PatchesMessages(patches, n) == [] <==> forall k :: 0 <= k < |patches| ==> PatchAccepted(patches[k], n)
    decreases |patches|
  {
    if patches != [] {
      PatchesQuiet(patches[1..], n);
      FacesQuiet(patches[0].name, patches[0].faces, 0, n);
      assert forall k :: 1 <= k < |patches| ==> patches[k] == patches[1..][k - 1];
    }
  }

  /** The message list is empty exactly when the model passes every check. */
  lemma ValidateEmptyIff(data: Option<MeshData>)
    ensures Validate(data) == [] <==> data.Some? && MeshAccepted(data.value)
  {
    if data.Some? && data.value.vertices.Some? && data.value.blocks.Some? {
      var n := |data.value.vertices.value|;
      BlocksQuiet(data.value.blocks.value, 0, n);
      PatchesQuiet(data.value.boundary, n);
    }
  }

  /** A block without 8 vertices yields exactly one arity message, and its indices are not range-checked. */
  lemma BlockArityOnly(b: nat, block: Block, n: nat)
    requires |block.vertices| != 8
    ensures BlockMessages(b, block, n) == [BlockArity(b, |block.vertices|)]
  {
  }

  /** Whether each index is out of range, position by position. */
  function RangeFlags(idx: seq<Num>, n: nat): (r: seq<bool>)
    ensures |r| == |idx| && forall k :: 0 <= k < |idx| ==> r[k] == OutOfRange(idx[k], n)
  {
    seq(|idx|, k requires 0 <= k < |idx| => OutOfRange(idx[k], n))
  }

  /** The number of out-of-range indices. */
  function OutOfRangeCount(idx: seq<Num>, n: nat): nat {
    multiset(RangeFlags(idx, n))[true]
  }

  /** Exactly one range message per out-of-range index of an 8-vertex block. */
  lemma {:induction false} BlockIndexCount(b: nat, idx: seq<Num>, n: nat)
    ensures |BlockIndexMessages(b, idx, n)| == OutOfRangeCount(idx, n)
    decreases |idx|
  {
    if idx != [] {
      BlockIndexCount(b, idx[1..], n);
      CountStep(idx, n);
    }
  }

  lemma {:induction false} FaceIndexCount(name: string, f: nat, idx: seq<Num>, n: nat)
    ensures |FaceIndexMessages(name, f, idx, n)| == OutOfRangeCount(idx, n)
    decreases |idx|
  {
    if idx != [] {
      FaceIndexCount(name, f, idx[1..], n);
      CountStep(idx, n);
    }
  }

  /** Counting the head separately from the tail. */
  lemma CountStep(idx: seq<Num>, n: nat)
    requires idx != []
    ensures OutOfRangeCount(idx, n) == (if OutOfRange(idx[0], n) then 1 else 0) + OutOfRangeCount(idx[1..], n)
  {
    assert RangeFlags(idx, n) == [OutOfRange(idx[0], n)] + RangeFlags(idx[1..], n);
  }

  /**
   * A face with the wrong arity yields its arity message first and still has its indices
   * range-checked, one message per out-of-range index.
   */
  lemma FaceArityThenRange(name: string, f: nat, face: seq<Num>, n: nat)
    requires |face| != 4
    ensures var r := FaceMessages(name, f, face, n);
      |r| == 1 + OutOfRangeCount(face, n) && r[0] == FaceArity(name, f, |face|)
  {
    FaceIndexCount(name, f, face, n);
  }

  /** Range messages of consecutive index runs are concatenated: the messages keep index order. */
  lemma {:induction false} BlockIndexAppend(b: nat, x: seq<Num>, y: seq<Num>, n: nat)
    ensures BlockIndexMessages(b, x + y, n) == BlockIndexMessages(b, x, n) + BlockIndexMessages(b, y, n)
    decreases |x|
  {
    if x == [] {
      assert x + y == y;
    } else {
      assert (x + y)[0] == x[0] && (x + y)[1..] == x[1..] + y;
      BlockIndexAppend(b, x[1..], y, n);
      var h := if OutOfRange(x[0], n) then [BlockIndexOutOfRange(b, x[0].val, n)] else [];
      assert BlockIndexMessages(b, x + y, n) == h + BlockIndexMessages(b, x[1..] + y, n);
      assert BlockIndexMessages(b, x, n) == h + BlockIndexMessages(b, x[1..], n);
    }
  }

  /** One index yields one message quoting it when it is out of range, and none otherwise. */
  lemma BlockIndexSingle(b: nat, x: Num, n: nat)
    ensures BlockIndexMessages(b, [x], n) == if OutOfRange(x, n) then [BlockIndexOutOfRange(b, x.val, n)] else []
  {
    assert [x][1..] == [];
  }

  lemma {:induction false} FaceIndexAppend(name: string, f: nat, x: seq<Num>, y: seq<Num>, n: nat)
    ensures FaceIndexMessages(name, f, x + y, n) == FaceIndexMessages(name, f, x, n) + FaceIndexMessages(name, f, y, n)
    decreases |x|
  {
    if x == [] {
      assert x + y == y;
    } else {
      assert (x + y)[0] == x[0] && (x + y)[1..] == x[1..] + y;
      FaceIndexAppend(name, f, x[1..], y, n);
      var h := if OutOfRange(x[0], n) then [FaceIndexOutOfRange(name, f, x[0].val)] else [];
      assert FaceIndexMessages(name, f, x + y, n) == h + FaceIndexMessages(name, f, x[1..] + y, n);
      assert FaceIndexMessages(name, f, x, n) == h + FaceIndexMessages(name, f, x[1..], n);
    }
  }

  lemma FaceIndexSingle(name: string, f: nat, x: Num, n: nat)
    ensures FaceIndexMessages(name, f, [x], n) == if OutOfRange(x, n) then [FaceIndexOutOfRange(name, f, x.val)] else []
  {
    assert [x][1..] == [];
  }

  /** The messages of faces `from` to `m - 1` come before those of faces `m` onwards. */
  lemma {:induction false} FacesSplit(name: string, faces: seq<seq<Num>>, from: nat, m: nat, n: nat)
    requires from <= m <= |faces|
    ensures FacesFrom(name, faces, from, n) == FacesFrom(name, faces[..m], from, n) + FacesFrom(name, faces, m, n)
    decreases m - from
  {
    if from < m {
      FacesSplit(name, faces, from + 1, m, n);
      assert faces[..m][from] == faces[from];
    }
  }

  /** Face messages come in face order. */
  predicate InFaceOrder(r: seq<Message>) {
    forall i, j :: 0 <= i < j < |r| && IsFaceMessage(r[i]) && IsFaceMessage(r[j]) ==> r[i].face <= r[j].face
  }

  /** Messages about the faces of one patch come in face order. */
  lemma {:induction false} FacesInOrder(name: string, faces: seq<seq<Num>>, from: nat, n: nat)
    requires from <= |faces|
    ensures InFaceOrder(FacesFrom(name, faces, from, n))
    decreases |faces| - from
  {
    if from < |faces| {
      FacesInOrder(name, faces, from + 1, n);
      var head := FaceMessages(name, from, faces[from], n);
      var tail := FacesFrom(name, faces, from + 1, n);
      var r := head + tail;
      assert r == FacesFrom(name, faces, from, n);
      assert forall k :: 0 <= k < |head| ==> head[k].face == from;
      assert forall k :: 0 <= k < |tail| ==> tail[k].face >= from + 1;
      forall i, j | 0 <= i < j < |r| && IsFaceMessage(r[i]) && IsFaceMessage(r[j]) ensures r[i].face <= r[j].face {
        if j < |head| {
          assert r[i] == head[i] && r[j] == head[j];
        } else if i < |head| {
          assert r[i] == head[i] && r[j] == tail[j - |head|];
        } else {
          assert r[i] == tail[i - |head|] && r[j] == tail[j - |head|];
        }
      }
    }
  }

  /** The face messages of consecutive patch runs are concatenated: they keep patch order. */
  lemma {:induction false} PatchesAppend(x: seq<Patch>, y: seq<Patch>, n: nat)
    ensures PatchesMessages(x + y, n) == PatchesMessages(x, n) + PatchesMessages(y, n)
    decreases |x|
  {
    if x == [] {
      assert x + y == y;
    } else {
      assert (x + y)[0] == x[0] && (x + y)[1..] == x[1..] + y;
      PatchesAppend(x[1..], y, n);
    }
  }

  /** One patch contributes the messages of its faces, from face 0 on. */
  lemma PatchesSingle(p: Patch, n: nat)
    ensures PatchesMessages([p], n) == FacesFrom(p.name, p.faces, 0, n)
  {
    assert [p][1..] == [];
  }

  /** A NaN index is never reported: it fails both comparisons. */
  lemma NaNIndexPasses(n: nat)
    ensures !OutOfRange(NaN, n) && IndexAccepted(NaN, n)
  {
  }

  /** Messages about blocks come in block order. */
  predicate InBlockOrder(r: seq<Message>) {
    forall i, j :: 0 <= i < j < |r| && IsBlockMessage(r[i]) && IsBlockMessage(r[j]) ==> r[i].block <= r[j].block
  }

  /** Block messages come in block order. */
  lemma {:induction false} BlocksInOrder(blocks: seq<Block>, from: nat, n: nat)
    requires from <= |blocks|
    ensures InBlockOrder(BlocksFrom(blocks, from, n))
    decreases |blocks| - from
  {
    if from < |blocks| {
      BlocksInOrder(blocks, from + 1, n);
      var head := BlockMessages(from, blocks[from], n);
      var tail := BlocksFrom(blocks, from + 1, n);
      var r := head + tail;
      assert r == BlocksFrom(blocks, from, n);
      assert forall k :: 0 <= k < |head| ==> head[k].block == from;
      assert forall k :: 0 <= k < |tail| ==> tail[k].block >= from + 1;
      forall i, j | 0 <= i < j < |r| ensures r[i].block <= r[j].block {
        if j < |head| {
          assert r[i] == head[i] && r[j] == head[j];
        } else if i < |head| {
          assert r[i] == head[i] && r[j] == tail[j - |head|];
        } else {
          assert r[i] == tail[i - |head|] && r[j] == tail[j - |head|];
        }
      }
    }
  }

  /** Block messages in block order, then face messages. */
  lemma ValidateOrdered(data: Option<MeshData>)
    ensures InBlockOrder(Validate(data))
  {
    if data.Some? && data.value.vertices.Some? && data.value.blocks.Some? {
      var n := |data.value.vertices.value|;
      var bs := BlocksFrom(data.value.blocks.value, 0, n);
      var ps := PatchesMessages(data.value.boundary, n);
      BlocksInOrder(data.value.blocks.value, 0, n);
      var r := bs + ps;
      forall k | |bs| <= k < |r| ensures !IsBlockMessage(r[k]) {
        assert r[k] == ps[k - |bs|];
      }
      forall i, j | 0 <= i < j < |r| && IsBlockMessage(r[i]) && IsBlockMessage(r[j]) ensures r[i].block <= r[j].block {
        assert r[i] == bs[i] && r[j] == bs[j];
      }
    }
  }

  /** The lists a finished parse hands to the validator. */
  function Model(ctx: Ctx): (d: MeshData)
    ensures d.vertices == Some(ctx.vertices) && d.blocks == Some(ctx.blocks) && d.boundary == ctx.boundary
  {
    MeshData(Some(ctx.vertices), Some(ctx.blocks), ctx.boundary)
  }

  /** A parse result always carries the core lists, so the core-data message never appears for it. */
  lemma ParsedModelHasCoreData(ctx: Ctx)
    ensures CoreDataMissing !in Validate(Some(Model(ctx)))
  {
    var r := Validate(Some(Model(ctx)));
    forall k | 0 <= k < |r| ensures r[k] != CoreDataMissing {
      var n := |ctx.vertices|;
      var bs := BlocksFrom(ctx.blocks, 0, n);
      if k < |bs| { assert r[k] == bs[k]; } else { assert r[k] == PatchesMessages(ctx.boundary, n)[k - |bs|]; }
    }
  }
}

=== FILE: wrappers.dfy ===
/** The optional value used for "no match" and "not present" results throughout the model. */
module Wrappers {

  datatype Option<+T> = None | Some(value: T)
}
